=== FILE: README.md ===
# renpy-counter, modelled in Dafny

renpy-counter estimates how much text a player reads in a Ren'Py visual
novel. `RenpyCounter` reads a script line by line. It keeps a stack of
indentation frames. For each line it allocates basic blocks, records the
text-like statements in them and wires edges for `jump`, labels, menus and
if/elif/else chains. `optimize()` welds chains of blocks, rebuilds the label
registry and asks an aggregator for each reachable block's total.
`analyze()` then gives two numbers. The first is the smallest total over
playthroughs from the entry block; `spfa()` computes it. The second is the
largest total over the graph of strongly connected components; `kosaraju()`
computes it.

The model has eight modules:

- `Common`: error kinds, `Option`/`Result` and the string helpers.
- `Blocks`: a `BasicBlock` as a value, with `say`, `end` and `jump`.
- `Cfg`: the graph over an arena of blocks, walks and walk totals.
- `Optimize`: the three passes of `optimize()` as methods over values.
- `MinPath`: `spfa()`.
- `MaxPath` and `MaxSearch`: the component construction and the search of
  `kosaraju()`.
- `Counter`: the class `RenpyCounter`. Its fields are the block arena, the
  registry, the frame stack, the `init` frame, the shared collectible lists,
  the incoming sets and the totals. Its methods update these fields as the
  source's methods do.

The arena has a reason. `allocate` may re-register a label, and a frame
still refers to its own block afterwards. So frames and the registry hold
arena indices. A collectible list is one JavaScript array shared by an if
frame and its arms. It becomes an entry of the arena `colls`, and frames
hold its index.

## Model

| member | source | states |
|---|---|---|
| Common.LeadingSpace | index.js:189-192 | the result is an all-whitespace prefix of the line, and the next character, if any, is not whitespace |
| Common.LeadingSpaceExtends | index.js:185-192 | if a line extends an all-whitespace indentation, so does its whole leading whitespace; a settled frame's indentation therefore extends its parent's |
| Blocks.NewBlock | index.js:4-8 | a fresh block has the given label, no text, no successors, and is neither disabled nor a dead end |
| Blocks.Say | index.js:10-12 | exactly one record is appended to the text; label, successors and flags are unchanged |
| Blocks.End | index.js:14-19 | a disabled block is returned unchanged; otherwise it becomes disabled with the given dead-end flag, and text, successors and label are kept |
| Blocks.Jump | index.js:21-29 | fails exactly on a jump to the block's own label, checked before the disabled flag; a disabled block is unchanged; otherwise exactly the target is appended, and `force` disables the block |
| Blocks.DisabledIsFrozen | index.js:14-29 | after any sequence of say/end/jump calls on a disabled block, its successors, dead-end flag and label never change |
| Blocks.SelfEdgeNeverAdded | index.js:21-23 | no sequence of calls gives a block an edge to its own label |
| Blocks.TextOnlyGrows | index.js:10-12 | the records said to a block survive every later call, in order, as a prefix |
| Cfg.Insert | index.js:420-426 | `Set.add` on an insertion-ordered set: membership is the old set plus the value, and it stays repetition-free |
| Cfg.SimpleWalk | index.js:467-469 | every walk can be cut down to a walk with the same ends that repeats no block |
| Cfg.WalkCostSubset | index.js:411-414 | a repetition-free list of blocks drawn from another list totals at most what that list totals |
| Cfg.ReachableRegistered | index.js:233-240 | every block reachable from the entry is registered under some label, since edges only follow registry entries |
| Optimize.LinkSuccessors | index.js:258-264 | either some successor label is not registered (`Cannot find label`), or every successor lists the block's label among its incoming labels, each new one once and queued once |
| Optimize.BfsDone | index.js:255-265 | when the first pass's queue is empty, the visited blocks are exactly the reachable ones and the incoming sets are exact |
| Optimize.ComputeIncoming | index.js:255-265 | on success, every reachable block's successor labels resolve and a label is recorded for a reachable block exactly when a reachable block with that label jumps to it; a failure is an unregistered successor label or a missing entry label |
| Optimize.Reset | index.js:310-316 | every block of the new registry gets an empty incoming set whether it had one or not; other sets are untouched |
| Optimize.ResetIsFresh | index.js:310-318 | after the reset, the last pass starts from empty incoming sets over the new registry |
| Optimize.Tally | index.js:320-340 | on success, the incoming sets are exact and every reachable block has the aggregator's total of its records; totals of unreachable blocks are kept; an error is a lookup failure or a reachable block whose aggregate is not finite |
| Optimize.Remove | index.js:279 | `Set.delete`: the label is gone and every other member is kept |
| Optimize.Relabel | index.js:293 | same length; each occurrence of the old label is replaced by the new one, and nothing else changes |
| Optimize.RelabelReplaces | index.js:291-294 | after relabelling, the old label no longer occurs, only the new label is introduced, and relabelling again changes nothing |
| Optimize.Weld | index.js:275-283 | the block takes the absorbed block's records after its own and its successor labels; every successor swaps the absorbed label for the block's label; fails on an unregistered label or a successor without an incoming set |
| Optimize.Redirect | index.js:291-294 | succeeds exactly when every predecessor label is registered, and then every block registered under one of them has the old label replaced by the new one |
| Optimize.MergeStep | index.js:271-298 | a weld happens exactly in the forward or reverse concatenation case, and yields the welded arena and rewired sets; labels of other blocks never change, and the dequeued block's label changes only when it was a generated `#` label; a label mismatch is reported with the label read |
| Optimize.Enqueue | index.js:302-307 | every successor of a kept block ends up marked; each newly queued block is an unmarked successor queued once, and the queue only grows at its end |
| Optimize.MergeWelded | index.js:284-298 | a weld requeues the block and leaves every kept label intact |
| Optimize.MergeKept | index.js:300-307 | keeping the dequeued block under its current label and queueing its unmarked successors keeps the merge invariant |
| Optimize.MergeChains | index.js:267-308 | on success, the arena keeps its size, the new registry holds the entry under "" and every kept block under its own label; errors are the lookup failures and running out of fuel |
| Optimize.Passes | index.js:254-340 | on success, the new registry is consistent, its incoming sets are exact, and every block reachable in the new graph has resolved successors and the aggregator's total; a failure is one of the passes' errors (`PassError`): a missing entry or an unregistered successor label of a reachable block, running out of fuel, a non-finite aggregate, or a label the merge pass cannot find or reads mismatched |
| MinPath.SettledBound | index.js:351-371 | once every block with a distance is settled, the distance of each block on a walk from the entry is at most the totals before it on that walk |
| MinPath.RelaxSuccessors | index.js:360-370 | each successor's distance is lowered to the block's distance plus its total when that is smaller, and the successor is queued once; a block that is not a successor keeps its distance, and every lowered distance is exactly the new value; the queue only grows at its end, by lowered blocks |
| MinPath.LoweredAfterLower | index.js:361-369 | lowering one successor's distance to the new value and queueing it keeps the relaxation's change record |
| MinPath.Finish | index.js:351-371 | with the queue empty, every reachable block has a total and resolved successors, and the answer bounds every playthrough from below |
| MinPath.Spfa | index.js:344-378 | the answer is `Infinity` when no playthrough exists, and otherwise the smallest total of a walk from the entry to a block without successors that is not a dead end; some such walk attains it |
| MaxPath.Dfs1 | index.js:386-393 | the first depth-first pass marks the block and everything it reaches, and appends each newly seen block to the postorder, keeping what was there as a prefix; a failure names an unregistered successor label of a reachable block |
| MaxPath.PostorderCovers | index.js:393 | after the first pass from the entry, the postorder holds every reachable block |
| MaxPath.Dfs2 | index.js:394-400 | the second pass assigns the current component to the block and to every unassigned block reached over incoming labels, and keeps every earlier assignment; every block it newly assigns has its incoming labels registered and the blocks they name assigned |
| MaxPath.BackingStep | index.js:394-400 | each incoming label visited by the second pass leaves the block it names assigned, and everything assigned along the way keeps its incoming labels resolved |
| MaxPath.PartitionAdd | index.js:401-406 | adding the blocks gathered by one second pass as a new component keeps the assignment a partition |
| MaxPath.Assign | index.js:401-406 | every block of the postorder gets exactly one component, and each component lists exactly its members |
| MaxPath.AddSuccessors | index.js:419-423 | the component's `next` set gains exactly the components of the block's successors outside its own component, without repetition |
| MaxPath.Summarize | index.js:407-428 | a component's cost is the sum of its members' totals, and its `next` set holds exactly the other components its members lead to, plus `Return` for a member that ends a playthrough |
| MaxPath.Condense | index.js:381-428 | every reachable block is in exactly one component, and every component is summarized as above; errors are the lookup and missing-total failures |
| MaxSearch.RoundReturn | index.js:441-448 | a component that can end a playthrough raises the answer to its distance plus cost |
| MaxSearch.SettledBound | index.js:436-459 | with the queue empty, each component's distance is at least the cost of every component walk to it from the entry's component |
| MaxSearch.Round | index.js:437-458 | one dequeue raises each successor component's distance to the component's distance plus its cost when that is larger and queues it once, and raises the answer on `Return`; a component that is not a successor keeps its distance, every raised distance is exactly the new value, the queue only grows at its end by raised components, and the answer changes only to that value on `Return` |
| MaxSearch.RaisedAfterRaise | index.js:449-456 | raising one successor component's distance to the new value and queueing it keeps the round's change record |
| MaxSearch.Search | index.js:431-459 | the answer is `-Infinity` when no component walk can end a playthrough, and otherwise the largest cost of such a walk, attained by one |
| MaxSearch.CondensedLinks | index.js:419-423 | the component graph never links a component to itself |
| MaxSearch.Compress | index.js:467-469 | every repetition-free playthrough from the entry totals at most some component walk that ends a playthrough |
| MaxSearch.Kosaraju | index.js:381-465 | the answer is the largest component-walk cost, and it bounds every repetition-free playthrough |
| Counter.StripParams | index.js:95 | without both a `(` and a `)` the name is unchanged; it never grows |
| Counter.Surviving | index.js:199-201 | the dedent loop stops at the innermost frame whose indentation the line extends, and closes every frame above it |
| Counter.SurvivingUnique | index.js:199-201 | any frame count with the dedent loop's stop condition is the one `Surviving` gives |
| Counter.IndentsNest | index.js:182-198 | every settled frame's indentation extends that of every frame below it |
| Counter.MinAtMostMax | index.js:467-469 | the cheapest playthrough never exceeds the maximum found by the component search |
| Counter.JumpAll | index.js:163-165 | fails exactly when some collected block carries the pop label, with `SelfJump` of it; otherwise each collected block gains the edge once per occurrence in the list, keeps its label and stays otherwise as it was, and every other block is unchanged |
| Counter.CloseFork | index.js:159-171 | fails exactly when an end of the chain (`Ends`: every collected arm, and the chain's own block while it falls through) carries the pop label; otherwise every end jumps to a fresh block registered under the label that becomes the current block of the frame below, the frames below are unchanged, and nothing else changes |
| Counter.OpenedFromJumped | index.js:135-139 | opening a frame from a block changes only that block, by one edge to the new label, and adds a fresh block registered under it |
| Counter.ChainJoin | index.js:108-120 | the `#bb_<id>_pushIf` block opened for an if chain, once its first arm is opened on it, falls through to the arm's `#bb_<id>_push` block |
| Counter.PopsStep | index.js:199-203 | one more closed frame keeps every registry change and every new block to `#bb_<id>_pop<k>` labels for the frames closed so far |
| Counter.ClosedToStep | index.js:199-203 | closing one more frame keeps the frames below it unchanged |
| Counter.PopChainStep | index.js:199-201 | a chain of `k` dedent pops followed by `pop(id, k)` is a chain of `k + 1` pops |
| Counter.PopChainLast | index.js:199-201 | a chain of `k + 1` dedent pops is a chain of `k` pops followed by `pop(id, k)` |
| Counter.ChainPopsOnly | index.js:199-203 | a chain of `n` dedent pops closes exactly the `n` innermost frames and leaves the frames below unchanged (`ClosedTo`), and registers and appends only `#bb_<id>_pop<k>` labels with `k < n`, keeping every block's label (`PopsOnly`) |
| Counter.DedentingStep | index.js:199-203 | one more turn of the dedent loop on a frame the line does not extend keeps `Dedenting`: the closed frames are those the line does not extend, and the chain of pops grows by that `pop` |
| Counter.DedentingDone | index.js:199-205 | when the dedent loop stops, the frames left are the `Surviving` ones and the text left is the line without their indentation |
| Counter.PoppedUnique | index.js:142-173 | `pop` is deterministic: two pops of the same state under the same label reach the same state |
| Counter.TracesAgree | index.js:199-201 | two chains of dedent pops from the same state agree at every turn both reach |
| Counter.ChainPastStep | index.js:199-201 | a chain of dedent pops that went past turn `k` did not clash at turn `k` |
| Counter.DedentClashUnique | index.js:199-201 | the dedent loop can fail in one way only: two clashes from the same state are the same error |
| Counter.DedentClashAhead | index.js:199-201 | while a clashing turn lies ahead, the loop cannot stop: the innermost frame left is one the line does not extend |
| Counter.DedentClashAt | index.js:199-201 | a loop state after `k` pops whose next pop clashes is the loop's `DedentClash` |
| Counter.DedentIndented | index.js:198-205 | a dedent loop that stopped where `Surviving` says is the dedent case of `Indented` |
| Counter.NoParallelUnique | index.js:82-85 | `ensureNoParallel` is deterministic: the state after it is a function of the state before it |
| Counter.ScopeOfUnique | index.js:60-67 | `scope()` has one answer: two non-empty scopes of the same frames are equal |
| Counter.JumpActed | index.js:214-219 | a jump to its resolved target adds the edge and stops the current block, or fails with a self-jump on it, as `Acted` states |
| Counter.ActedFails | index.js:212-229 | a statement line fails exactly when `ActFails` says: a dotted jump without a scope, or a jump to the current block's own label |
| Counter.NamedFails | index.js:93-100 | a `label` whose name resolves as `scope()` resolves it fails exactly when `OpenFails` says |
| Counter.PushedOpens | index.js:87-139 | after any header the innermost frame waits for its body in a fresh block registered under its name, with no scope, no indentation and `direct` unset (`OpenedIn`); a header other than `label` names it `#bb_<id>_push`; and the arena changed as `HeaderFrom` states |
| Counter.FrameOpens | index.js:88-91 | a frame pushed as `FramePushed` states is the innermost one and waits as `OpenedIn` states |
| Counter.RenpyCounter.constructor | index.js:33-42 | the arena holds only the entry block, registered under "", and no frame is open |
| Counter.RenpyCounter.Top | index.js:54-58 | the innermost open frame, or `init`; only an open frame can wait for its first body line |
| Counter.RenpyCounter.Empty | index.js:78-80 | true exactly when no frame is open, and then the current frame is `init` |
| Counter.RenpyCounter.BbSize | index.js:50-52 | the number of registered labels, at least one because the entry label is always registered |
| Counter.RenpyCounter.Allocate | index.js:44-48 | a fresh block is appended and registered under the label, replacing any earlier entry |
| Counter.RenpyCounter.SetTop | index.js:69-76 | replaces the current frame's block, scope or fall-through flag and keeps the invariant |
| Counter.RenpyCounter.NewColl | index.js:103-104 | a fresh empty collectible list is added |
| Counter.RenpyCounter.JumpFrom | index.js:218 | fails exactly on a jump to the block's own label; otherwise the block is replaced by its jumped version |
| Counter.RenpyCounter.Scope | index.js:60-67 | fails exactly when neither an open frame nor `init` records a non-empty label; otherwise gives the innermost one |
| Counter.RenpyCounter.Settle | index.js:190-194 | the waiting frame stops waiting and takes the given indentation |
| Counter.RenpyCounter.Pop | index.js:142-173 | fails exactly when an end of the frame carries `#bb_<id>_pop<it>` (`Clashes`), with that self-jump; otherwise the state after it is `Popped`: an arm hands its block to the shared list and changes no block; any other frame jumps its ends to a fresh block registered under the label, which the frame below continues in |
| Counter.RenpyCounter.PopArm | index.js:146-149 | the frame is closed and its block is appended to its collectible list |
| Counter.RenpyCounter.PopJoin | index.js:150-156 | fails exactly when the frame's block carries the label; otherwise that block alone jumps to a fresh block registered under the label, which the frame below continues in |
| Counter.RenpyCounter.PopFork | index.js:159-171 | fails exactly when an end of the chain carries the label; otherwise exactly the ends jump to a fresh block registered under the label, which the frame below continues in |
| Counter.RenpyCounter.EnsureNoParallel | index.js:82-85 | nothing changes unless the current frame is an if chain; then it fails exactly when an end of the chain carries `#bb_<id>_popIf` (`IfClash`), and otherwise the chain is closed as `pop` closes it (`NoParallel`): its ends jump to a fresh block registered under `#bb_<id>_popIf`, and that block is current |
| Counter.RenpyCounter.Update | index.js:221-230 | one block is replaced by a version with the same label, and the invariant is kept |
| Counter.RenpyCounter.Open | index.js:135-139 | fails exactly when the current block carries the new label, with nothing changed; otherwise only the current block changes, by jumping to the label, a fresh block is registered under it, and a frame waiting for its body is pushed on it |
| Counter.RenpyCounter.LabelName | index.js:95-99 | a missing argument fails; a name without a leading dot becomes the current frame's scope; a dotted name is appended to the innermost scope and fails when there is none |
| Counter.RenpyCounter.PushNamed | index.js:93-100 | a missing argument fails with `Undefined`, a dotted name without a scope with `NoScope`, and otherwise the label fails exactly when the current block already carries the resolved name (`OpenFails`); on success the state is exactly the one `LabelPushed` gives: the current block jumps to the label, a fresh block is registered under it and no other block changes; an undotted name becomes the scope of the frame below, which is otherwise unchanged, and a dotted name leaves the frames, `init` and the lists as they were; the new frame waits for its body with no scope, no indentation and `direct` unset |
| Counter.RenpyCounter.PushPlain | index.js:95-97 | an undotted name becomes the current frame's scope and the label opens; fails exactly when the current block carries the name, with that self-jump and as `OpenFails` says; on success the state is `LabelPushed`'s: the frames below and `init` are those before with the scope set, the lists are unchanged, the new frame is named after the label with no scope, no indentation and `direct` unset, and only the current block's edge and the fresh registered block change the arena |
| Counter.RenpyCounter.PushScoped | index.js:98-99 | a dotted name is appended to the innermost scope; fails with `NoScope` exactly when there is none, otherwise exactly when the current block carries the scoped name, and exactly as `OpenFails` says; on success the state is `LabelPushed`'s: the frames below, `init` and the lists are unchanged, and the new frame is named scope plus name, with no scope, no indentation and `direct` unset |
| Counter.RenpyCounter.PushMenu | index.js:101-105 | fails exactly on a self-jump to `#bb_<id>_push`, with nothing changed; otherwise the state is `Pushed`'s for `menu`: the current block jumps to a fresh block registered under the label, no other block changes, one fresh empty list is added, the frames below and `init` are unchanged, and the new frame is a choice frame on that list with no scope, no indentation and `direct` unset |
| Counter.RenpyCounter.OpenChain | index.js:108-118 | fails exactly when the current block carries the `#bb_<id>_pushIf` label; otherwise the current block jumps to it and stops, and a settled if frame at the current indentation, with a fresh list and still falling through, is pushed |
| Counter.RenpyCounter.PushIf | index.js:106-120 | fails exactly on a self-jump to `#bb_<id>_pushIf`; on success one fresh empty list is added and the state is `Pushed`'s for `if` (`ChainPushed`): the current block jumps to a fresh `#bb_<id>_pushIf` block that falls through to a fresh `#bb_<id>_push` block, both registered, no other block changes, `init` and the frames below are unchanged, and the two frames pushed are the settled if frame (at the current indentation, falling through) and its first arm (no scope, no indentation, `direct` unset), both on the fresh list |
| Counter.RenpyCounter.PushArm | index.js:121-128 | fails with `MisplacedElse` exactly for `else` outside an if chain, with nothing changed; otherwise fails exactly on a self-jump to `#bb_<id>_push`; `init` never changes; on success the state is `Pushed`'s for the arm: the current block jumps to a fresh registered block under that label, no other block changes, the lists are unchanged, `else` clears the chain frame's `direct` and `elif` leaves the frames below as they were, and the arm shares the current list with no scope, no indentation and `direct` unset |
| Counter.RenpyCounter.PushElse | index.js:121-128 | for `else` in an if chain: fails exactly on a self-jump to `#bb_<id>_push`; `init` never changes; on success the state is `Pushed`'s for `else`: the chain's frame stops falling through and is otherwise unchanged, and an arm sharing its list, with no scope, no indentation and `direct` unset, waits in a fresh registered block |
| Counter.RenpyCounter.PushOther | index.js:129-133 | fails exactly on a self-jump to `#bb_<id>_push`; otherwise the state is `Pushed`'s: the current block jumps to a fresh registered block under the label, no other block changes, the frames below, `init` and the lists are unchanged, and a plain frame with no scope, no indentation and `direct` unset is pushed, sharing the list of a menu it is a choice of (`MenuColl`) |
| Counter.RenpyCounter.OpenHeader | index.js:93-139 | fails exactly as `OpenFails` says: `label` without an argument, a dotted label without a scope, or the current block already carrying the label the header opens; on success the whole new state is `Pushed`'s (frames below, `init`, lists, the new frame and the arena), and the header's edges are as `HeaderFrom` states |
| Counter.RenpyCounter.PushUnnamed | index.js:101-133 | `menu`, `if` and any other header: fails exactly when the current block carries `#bb_<id>_pushIf` for `if` or `#bb_<id>_push` otherwise, with that self-jump and as `OpenFails` says; on success the whole new state is `Pushed`'s for the header |
| Counter.RenpyCounter.Push | index.js:87-140 | `else` and `elif` fail exactly as `ArmFails` says (`else` outside an if chain, or a self-jump to `#bb_<id>_push`) and otherwise reach `Pushed`'s state; any other header first closes an open if chain, fails with `SelfJump(#bb_<id>_popIf)` exactly when that clashes, and otherwise, in the state `NoParallel` gives after the close, fails exactly as `OpenFails` says (so an unscoped dotted label fails) and on success reaches `Pushed`'s state from it, with the edges `HeaderFrom` states from the joining block |
| Counter.RenpyCounter.PushHeader | index.js:93-133 | a header other than an arm: fails with `SelfJump(#bb_<id>_popIf)` when closing the open if chain clashes; otherwise, in the state `NoParallel` gives, fails exactly as `OpenFails` says and on success reaches `Pushed`'s state, with the edges `HeaderFrom` states |
| Counter.RenpyCounter.Act | index.js:212-230 | the current block changes as `Acted` states and nothing else does: `jump` adds an edge to the target, resolved against the scope when dotted, and stops the block, failing with `NoScope` without a scope and with a self-jump exactly when the block carries the resolved label; `return` ends the block; any other line says the parser's record, if any |
| Counter.RenpyCounter.ActJump | index.js:214-219 | `jump` with a target resolved against the scope when dotted: fails with `NoScope` exactly when a dotted target has no scope, and with a self-jump exactly when the current block carries the resolved label; otherwise the block gains the forced edge and stops; in each case as `Acted` states |
| Counter.RenpyCounter.FirstLine | index.js:182-198 | fails with a wrong indentation exactly when the line does not extend the parent's indentation, with nothing changed; an indented line settles the frame at its whole leading whitespace and never fails; a flush-left line closes the frame as `Pop` does with `#bb_<id>_pop0`, failing exactly when that clashes |
| Counter.RenpyCounter.Dedent | index.js:199-205 | fails exactly when the loop's pops reach one that clashes (`DedentClash`), and then with that one error; on success the frames left are the `Surviving` ones, the text left is the line without their indentation, and the state is reached from the old one by the chain `pop(id, 0)`, ..., `pop(id, n-1)`, each step exactly `Popped`, over frames the line does not extend (`Dedenting`: `Outdented` and `PopChain`) |
| Counter.RenpyCounter.DedentPop | index.js:199-203 | one turn of the dedent loop: fails exactly when the innermost frame clashes with `#bb_<id>_pop<n>`, which is then the loop's `DedentClash`; otherwise the chain `Dedenting` describes is one pop longer |
| Counter.RenpyCounter.DedentLoop | index.js:199-201 | the dedent loop: a failure is its `DedentClash`; on success `Dedenting` holds and the innermost frame left, if any, is one the line extends |
| Counter.RenpyCounter.Indentation | index.js:179-206 | the three wrong-indentation errors, each raised when its condition holds and only then (`Misindented`); a self-jump exactly when a pop of the indentation handling clashes (`IndentClash`), as the one error; on success the state is `Indented`: unchanged with no frame open, the waiting frame settled or closed by `pop(id, 0)`, or the dedent chain, and the text left is `Body` |
| Counter.RenpyCounter.ParseLine | index.js:175-231 | a blank line changes nothing; a wrong indentation is reported when and only when `Misindented` holds; an `IndentClash` is reported as the error; otherwise the line succeeds or fails as `BodyOutcome` says for its body in the `Indented` state, and on success the state after the body is `BodyDone`'s from that state; a frame waits for its body exactly when the line is a header, a header other than `label` opens `#bb_<id>_push`, `jump` and `return` stop the current block, and a parsed record is the current block's last |
| Counter.RenpyCounter.ParseBody | index.js:207-229 | fails exactly as `BodyOutcome` says: an arm as `ArmFails`, any other line with `#bb_<id>_popIf` when the open if chain clashes, and otherwise as `OpenFails` or `ActFails` in the state after the chain is closed; on success the state is `BodyDone`'s: an arm as `Pushed` states from the old state, any other header as `Pushed` and any statement as `Acted` states from the state `NoParallel` gives; never reports a wrong indentation; a frame waits for its body exactly after a header |
| Counter.RenpyCounter.Statement | index.js:211-229 | fails with `SelfJump(#bb_<id>_popIf)` when closing the open if chain clashes; otherwise the chain is closed as `NoParallel` states and the line acts on the resulting state as `Acted` states |
| Counter.RenpyCounter.Optimize | index.js:251-341 | fails with `SelfJump(#bb_Inf_popIf)` when closing an open if chain clashes; otherwise the chain is closed as `NoParallel` states, the frames keep that state, a failure is a pass error of that graph (`PassError`), and on success the arena keeps its size, the entry stays registered, the incoming sets are exact and every reachable block has resolved successors and its aggregate as total |
| Counter.RenpyCounter.Rebuild | index.js:253-340 | on success the arena keeps its size, the entry stays registered, the incoming sets are exact and every reachable block has resolved successors and its aggregate as total; a failure is a pass error of the graph it started from (`PassError`) |
| Counter.RenpyCounter.Analyze | index.js:467-469 | the minimum is finite exactly when a playthrough exists, is attained by one and bounds every playthrough; for the condensation `Condensed` describes, the maximum is attained by a component walk that ends a playthrough and bounds every such walk, and it bounds every repetition-free playthrough; the minimum never exceeds the maximum; a failure is `spfa()`'s (a reachable block without a total or with an unregistered successor) or, with every reachable block resolved, `kosaraju()`'s (`CondenseFailure`, `OutOfFuel`, or `Undefined` when a component walk from the entry reaches a successor that belongs to no component) |

## Left out

- The header, `jump` and `return` patterns (index.js:207, 213, 221) are not modelled as regular expressions. An injected function `shapeOf` classifies a line instead. The text parser and the aggregator are injected too.
- Totals are natural numbers. The source's floating-point totals, negative or fractional totals and NaN are not modelled. A block read by a solver without a total fails with `NoCost`, where the source would compute NaN.
- The aggregator returns either a finite total or a non-finite value. Unwrapping an array result to its first element (index.js:325-329) is folded into that function.
- The `hops` arrays that `spfa()` and `kosaraju()` return (index.js:373-377, 460-464) are not modelled. `analyze()` ignores them.
- Debug logging (`debug(...)`) is not modelled.
- The per-block scratch fields (`spfa_dist`, `spfa_in_queue`, `spfa_hop`, `kosaraju_seen`, `kosaraju_scc`, `opt_marked`) become local maps and sets of the methods.
- `forEachPrev` (index.js:242-249) is inlined into `MaxPath.Dfs2`. `forEachNext` (index.js:233-240) is inlined into each pass that walks successors.
- The source's state after a thrown error is not modelled. The model reports the error, and the fields may differ from the partially updated objects the source leaves behind.
- Optimize.MergeChains: the merge loop of `optimize()` may not terminate on every graph, so it takes a `fuel` bound and fails with `OutOfFuel` when the bound is spent. Its contract states the shape of the new registry, not which blocks were welded, and not that the records of the merged blocks are conserved. Nor does it state that the new registry holds only blocks reachable from the entry: a reverse weld renames a block (index.js:295) without updating the old registry, and the lookups at index.js:235 and 272 still go through it, so a block already absorbed can be reached again through its old label and be kept under a label that is already kept (index.js:301).
- MaxSearch.Search: the relaxation over components takes a `fuel` bound with an `OutOfFuel` failure.
- MaxSearch.Kosaraju: the maximum is proved to bound only playthroughs that visit no block twice. That components are maximal strongly connected sets is not proved; the bound holds for any partition the second pass builds.
- Optimize.ComputeIncoming: its exactness needs every registered block to start without recorded incoming labels, as on a first `optimize()` call. A second call on the same graph is not covered.
- Counter.StripParams: the JavaScript `.` in `/\(.*\)/` does not match line terminators. The model treats every character as matched, and states only that the name is unchanged without parentheses and never grows.
- MaxPath.Dfs1: the contract says that every newly seen block is appended to the postorder. It does not say that each block comes after its successors. `Kosaraju` does not rely on that order, because the maximum it proves holds for any partition the second pass builds.
- At index.js:187, `line.substring(len)` is passed the parent's indentation string, not its length, so it removes nothing. The model follows the code. A frame therefore settles at the whole leading whitespace of its first body line. That is what the later `startsWith(top.indent)` checks (index.js:200) expect.

=== FILE: blocks.dfy ===
/**
 * Basic blocks of the control-flow graph (class BasicBlock, index.js:3-30).
 *
 * A block is a value here; the graph keeps blocks in an arena and replaces the
 * entry of a block when one of these operations updates it in place.
 */
module Blocks {
  import opened Common

  /** What the injected line classifier returns for a content line. */
  datatype Record =
    | Utterance(speaker: string, says: string, extras: nat)
    | Pause(ticks: nat)
    | Scene
    | Show

  /**
   * `name` is the block's label, `text` its records, `next` its successor
   * labels in order (duplicates allowed).
   */
  datatype Block = Block(name: string, text: seq<Record>, next: seq<string>, disabled: bool, deadend: bool)

  /** `new BasicBlock(label)` */
  function NewBlock(name: string): (b: Block)
    ensures b.name == name && b.text == [] && b.next == []
    ensures !b.disabled && !b.deadend
  {
    Block(name, [], [], false, false)
  }

  /** `say(obj)`: append one record. */
  function Say(b: Block, r: Record): (b': Block)
    ensures b'.text == b.text + [r]
    ensures b'.name == b.name && b'.next == b.next
    ensures b'.disabled == b.disabled && b'.deadend == b.deadend
  {
    b.(text := b.text + [r])
  }

  /** `end(dead)`: only the first call has an effect. */
  function End(b: Block, dead: bool): (b': Block)
    ensures b.disabled ==> b' == b
    ensures !b.disabled ==> b'.disabled && b'.deadend == dead
    ensures b'.name == b.name && b'.text == b.text && b'.next == b.next
  {
    if b.disabled then b else b.(disabled := true, deadend := dead)
  }

  /**
   * `jump(lbl, force)`: fails on a jump to the block's own label, before the
   * disabled check; a disabled block is left unchanged; otherwise exactly one
   * label is appended and `force` disables the block.
   */
  function Jump(b: Block, target: string, force: bool): (r: Result<Block>)
    ensures r.Err? <==> target == b.name
    ensures r.Err? ==> r.error == SelfJump(target)
    ensures r.Ok? && b.disabled ==> r.value == b
    ensures r.Ok? && !b.disabled ==> r.value.next == b.next + [target] && r.value.disabled == force
    ensures r.Ok? ==> r.value.name == b.name && r.value.text == b.text && r.value.deadend == b.deadend
  {
    if target == b.name then Err(SelfJump(target))
    else if b.disabled then Ok(b)
    else Ok(b.(next := b.next + [target], disabled := force))
  }

  /** A block never lists its own label as a successor. */
  predicate NoSelfEdge(b: Block)
  {
    b.name !in b.next
  }

  /** One call on a block, as the builder issues them. */
  datatype Op = SayOp(r: Record) | EndOp(dead: bool) | JumpOp(target: string, force: bool)

  /** Runs a sequence of calls; `None` once a call throws. */
  function Apply(b: Block, ops: seq<Op>): Option<Block>
    decreases |ops|
  {
    if ops == [] then Some(b)
    else
      match ops[0]
      case SayOp(r) => Apply(Say(b, r), ops[1..])
      case EndOp(dead) => Apply(End(b, dead), ops[1..])
      case JumpOp(t, force) =>
        var j := Jump(b, t, force);
        if j.Err? then None else Apply(j.value, ops[1..])
  }

  /** Once disabled, a block's successors and flags never change again. */
  lemma {:induction false} DisabledIsFrozen(b: Block, ops: seq<Op>)
    requires b.disabled
    ensures var r := Apply(b, ops);
      r.Some? ==> r.value.next == b.next && r.value.disabled && r.value.deadend == b.deadend && r.value.name == b.name
    decreases |ops|
  {
    if ops != [] {
      match ops[0]
      case SayOp(r) => DisabledIsFrozen(Say(b, r), ops[1..]);
      case EndOp(dead) => DisabledIsFrozen(End(b, dead), ops[1..]);
      case JumpOp(t, force) =>
        var j := Jump(b, t, force);
        if j.Ok? { DisabledIsFrozen(j.value, ops[1..]); }
    }
  }

  /** No sequence of calls gives a block an edge to itself. */
  lemma {:induction false} SelfEdgeNeverAdded(b: Block, ops: seq<Op>)
    requires NoSelfEdge(b)
    ensures var r := Apply(b, ops); r.Some? ==> NoSelfEdge(r.value) && r.value.name == b.name
    decreases |ops|
  {
    if ops != [] {
      match ops[0]
      case SayOp(r) => SelfEdgeNeverAdded(Say(b, r), ops[1..]);
      case EndOp(dead) => SelfEdgeNeverAdded(End(b, dead), ops[1..]);
      case JumpOp(t, force) =>
        var j := Jump(b, t, force);
        if j.Ok? { SelfEdgeNeverAdded(j.value, ops[1..]); }
    }
  }

  /** The records said to a block survive every later call, in order. */
  lemma {:induction false} TextOnlyGrows(b: Block, ops: seq<Op>)
    ensures var r := Apply(b, ops); r.Some? ==> |r.value.text| >= |b.text| && r.value.text[..|b.text|] == b.text
    decreases |ops|
  {
    if ops != [] {
      match ops[0]
      case SayOp(r) =>
        var b' := Say(b, r);
        TextOnlyGrows(b', ops[1..]);
        var res := Apply(b', ops[1..]);
        if res.Some? { assert b'.text[..|b.text|] == b.text; assert res.value.text[..|b.text|] == res.value.text[..|b'.text|][..|b.text|]; }
      case EndOp(dead) => TextOnlyGrows(End(b, dead), ops[1..]);
      case JumpOp(t, force) =>
        var j := Jump(b, t, force);
        if j.Ok? { TextOnlyGrows(j.value, ops[1..]); }
    }
  }
}

=== FILE: cfg.dfy ===
/**
 * The control-flow graph as the optimizer and the solvers see it: an arena of
 * blocks, a registry from labels to arena indices, and the block totals
 * computed by the optimizer. An edge follows a successor label through the
 * registry, as `forEachNext` does (index.js:233-240).
 */
module Cfg {
  import opened Common
  import opened Blocks

  /** Every registry entry names a block of the arena. */
  predicate WellFormed(blocks: seq<Block>, reg: map<string, nat>)
  {
    forall l :: l in reg ==> reg[l] < |blocks|
  }

  /** The numbers below `n`: the indices of an arena of `n` blocks. */
  function Below(n: nat): (s: set<nat>)
    ensures forall x: nat :: x in s <==> x < n
  {
    if n == 0 then {} else Below(n - 1) + {n - 1}
  }

  /** Every registry entry's block carries the label it is registered under. */
  predicate Named(blocks: seq<Block>, reg: map<string, nat>)
  {
    forall l :: l in reg ==> reg[l] < |blocks| && blocks[reg[l]].name == l
  }

  /** The `i`-th successor label of `u` resolves to `v`. */
  predicate EdgeAt(blocks: seq<Block>, reg: map<string, nat>, u: nat, i: nat, v: nat)
  {
    u < |blocks| && i < |blocks[u].next| && blocks[u].next[i] in reg && reg[blocks[u].next[i]] == v
  }

  predicate Edge(blocks: seq<Block>, reg: map<string, nat>, u: nat, v: nat)
  {
    u < |blocks| && exists i :: 0 <= i < |blocks[u].next| && EdgeAt(blocks, reg, u, i, v)
  }

  /** A non-empty walk along edges. */
  predicate IsWalk(blocks: seq<Block>, reg: map<string, nat>, p: seq<nat>)
  {
    && |p| > 0
    && (forall k :: 0 <= k < |p| ==> p[k] < |blocks|)
    && (forall k :: 0 <= k < |p| - 1 ==> Edge(blocks, reg, p[k], p[k + 1]))
  }

  /** A walk from the entry block, the one registered under the empty label. */
  predicate Rooted(blocks: seq<Block>, reg: map<string, nat>, p: seq<nat>)
  {
    IsWalk(blocks, reg, p) && "" in reg && p[0] == reg[""]
  }

  ghost predicate Reachable(blocks: seq<Block>, reg: map<string, nat>, v: nat)
  {
    exists p :: Rooted(blocks, reg, p) && p[|p| - 1] == v
  }

  /** Falling off this block is a valid end of a playthrough. */
  predicate Terminal(b: Block)
  {
    |b.next| == 0 && !b.deadend
  }

  /** All successor labels of `u` are registered. */
  predicate Resolved(blocks: seq<Block>, reg: map<string, nat>, u: nat)
  {
    u < |blocks| && forall i :: 0 <= i < |blocks[u].next| ==> blocks[u].next[i] in reg
  }

  /** A path total; `PosInf` and `NegInf` stand for JavaScript's `Infinity` and `-Infinity`. */
  datatype Extended = PosInf | NegInf | Fin(n: nat)

  function Cost(totals: map<nat, nat>, v: nat): nat
  {
    if v in totals then totals[v] else 0
  }

  /** The summed totals of the blocks on a walk, both ends included. */
  function WalkCost(totals: map<nat, nat>, p: seq<nat>): nat
  {
    if p == [] then 0 else WalkCost(totals, p[..|p| - 1]) + Cost(totals, p[|p| - 1])
  }

  predicate Distinct<T(==)>(p: seq<T>)
  {
    forall i, j :: 0 <= i < j < |p| ==> p[i] != p[j]
  }

  /** `Set.prototype.add` on an insertion-ordered set: a value already present keeps its place. */
  function Insert<T(==,!new)>(s: seq<T>, x: T): (s': seq<T>)
    ensures forall y :: y in s' <==> y in s || y == x
    ensures Distinct(s) ==> Distinct(s')
  {
    if x in s then s else s + [x]
  }

  /** Walks extend by one edge. */
  lemma WalkExtend(blocks: seq<Block>, reg: map<string, nat>, p: seq<nat>, v: nat)
    requires IsWalk(blocks, reg, p) && v < |blocks| && Edge(blocks, reg, p[|p| - 1], v)
    ensures IsWalk(blocks, reg, p + [v])
  {
    var q := p + [v];
    forall k | 0 <= k < |q| - 1 ensures Edge(blocks, reg, q[k], q[k + 1]) {
      if k < |p| - 1 { assert q[k] == p[k] && q[k + 1] == p[k + 1]; }
    }
  }

  /** Any prefix of a walk is a walk. */
  lemma WalkPrefix(blocks: seq<Block>, reg: map<string, nat>, p: seq<nat>, n: nat)
    requires IsWalk(blocks, reg, p) && 0 < n <= |p|
    ensures IsWalk(blocks, reg, p[..n])
  {
    var q := p[..n];
    forall k | 0 <= k < |q| - 1 ensures Edge(blocks, reg, q[k], q[k + 1]) {
      assert q[k] == p[k] && q[k + 1] == p[k + 1];
    }
  }

  /**
   * Cutting the loop between two visits of the same block keeps a walk with
   * the same ends.
   */
  lemma WalkCut(blocks: seq<Block>, reg: map<string, nat>, p: seq<nat>, i: nat, j: nat)
    requires IsWalk(blocks, reg, p) && i < j < |p| && p[i] == p[j]
    ensures IsWalk(blocks, reg, p[..i] + p[j..])
    ensures var q := p[..i] + p[j..]; |q| < |p| && q[0] == p[0] && q[|q| - 1] == p[|p| - 1]
  {
    var q := p[..i] + p[j..];
    forall k | 0 <= k < |q| - 1 ensures Edge(blocks, reg, q[k], q[k + 1]) {
      if k < i - 1 {
        assert q[k] == p[k] && q[k + 1] == p[k + 1];
      } else if k == i - 1 {
        assert q[k] == p[i - 1] && q[k + 1] == p[j] == p[i];
      } else {
        assert q[k] == p[k - i + j] && q[k + 1] == p[k - i + j + 1];
      }
    }
  }

  /** Every walk can be shortened to one that visits no block twice. */
  lemma {:induction false} SimpleWalk(blocks: seq<Block>, reg: map<string, nat>, p: seq<nat>) returns (q: seq<nat>)
    requires IsWalk(blocks, reg, p)
    ensures IsWalk(blocks, reg, q) && Distinct(q)
    ensures q[0] == p[0] && q[|q| - 1] == p[|p| - 1]
    decreases |p|
  {
    if Distinct(p) {
      q := p;
    } else {
      var i, j :| 0 <= i < j < |p| && p[i] == p[j];
      WalkCut(blocks, reg, p, i, j);
      q := SimpleWalk(blocks, reg, p[..i] + p[j..]);
    }
  }

  lemma WalkCostLast(totals: map<nat, nat>, p: seq<nat>)
    requires |p| > 0
    ensures WalkCost(totals, p) == WalkCost(totals, p[..|p| - 1]) + Cost(totals, p[|p| - 1])
  {
  }

  lemma WalkCostAppend(totals: map<nat, nat>, p: seq<nat>, v: nat)
    ensures WalkCost(totals, p + [v]) == WalkCost(totals, p) + Cost(totals, v)
  {
    assert (p + [v])[..|p|] == p;
  }
  /** One more edge from a reachable block reaches its successor. */
  lemma ReachableStep(blocks: seq<Block>, reg: map<string, nat>, u: nat, i: nat, v: nat)
    requires Reachable(blocks, reg, u) && EdgeAt(blocks, reg, u, i, v) && v < |blocks|
    ensures Reachable(blocks, reg, v)
  {
    var p :| Rooted(blocks, reg, p) && p[|p| - 1] == u;
    assert Edge(blocks, reg, u, v);
    WalkExtend(blocks, reg, p, v);
    assert (p + [v])[|p + [v]| - 1] == v;
  }

  /** A set of blocks closed under edges holds every block of a walk that starts in it. */
  lemma {:induction false} ClosedSetCoversWalk(blocks: seq<Block>, reg: map<string, nat>, s: set<nat>, p: seq<nat>, k: nat)
    requires IsWalk(blocks, reg, p) && k < |p| && p[0] in s
    requires forall x, v :: x in s && Edge(blocks, reg, x, v) ==> v in s
    ensures p[k] in s
    decreases k
  {
    if k > 0 {
      ClosedSetCoversWalk(blocks, reg, s, p, k - 1);
      assert Edge(blocks, reg, p[k - 1], p[k]);
    }
  }
  /** Walk totals add up over concatenation. */
  lemma {:induction false} WalkCostConcat(totals: map<nat, nat>, a: seq<nat>, b: seq<nat>)
    ensures WalkCost(totals, a + b) == WalkCost(totals, a) + WalkCost(totals, b)
    decreases |b|
  {
    if b != [] {
      var b' := b[..|b| - 1];
      assert (a + b)[..|a + b| - 1] == a + b';
      WalkCostConcat(totals, a, b');
    } else {
      assert a + b == a;
    }
  }

  /** A repetition-free list drawn from `m` totals at most what `m` totals. */
  lemma {:induction false} WalkCostSubset(totals: map<nat, nat>, q: seq<nat>, m: seq<nat>)
    requires Distinct(q) && forall k :: 0 <= k < |q| ==> q[k] in m
    ensures WalkCost(totals, q) <= WalkCost(totals, m)
    decreases |q|
  {
    if q != [] {
      var x := q[|q| - 1];
      var q' := q[..|q| - 1];
      var i :| 0 <= i < |m| && m[i] == x;
      var m' := m[..i] + m[i + 1..];
      forall k | 0 <= k < |q'| ensures q'[k] in m' {
        assert q'[k] != x;
        var j :| 0 <= j < |m| && m[j] == q'[k];
        if j < i { assert m'[j] == m[j]; } else { assert m'[j - 1] == m[j]; }
      }
      WalkCostSubset(totals, q', m');
      assert m == m[..i] + [x] + m[i + 1..];
      WalkCostConcat(totals, m[..i] + [x], m[i + 1..]);
      WalkCostConcat(totals, m[..i], m[i + 1..]);
      WalkCostAppend(totals, m[..i], x);
    }
  }
  /** Every block on a walk from the entry is reachable. */
  lemma WalkReaches(blocks: seq<Block>, reg: map<string, nat>, p: seq<nat>, k: nat)
    requires Rooted(blocks, reg, p) && k < |p|
    ensures Reachable(blocks, reg, p[k])
  {
    WalkPrefix(blocks, reg, p, k + 1);
    assert Rooted(blocks, reg, p[..k + 1]);
  }

  /** A block reachable along edges is registered: edges only lead to registry entries. */
  lemma ReachableRegistered(blocks: seq<Block>, reg: map<string, nat>, v: nat)
    requires Reachable(blocks, reg, v)
    ensures exists l :: l in reg && reg[l] == v
  {
    var p :| Rooted(blocks, reg, p) && p[|p| - 1] == v;
    if |p| > 1 {
      assert Edge(blocks, reg, p[|p| - 2], v);
    } else {
      assert reg[""] == v;
    }
  }

  /** Following any edge out of a reachable block stays reachable. */
  lemma ReachableEdge(blocks: seq<Block>, reg: map<string, nat>, u: nat, v: nat)
    requires Reachable(blocks, reg, u) && Edge(blocks, reg, u, v) && v < |blocks|
    ensures Reachable(blocks, reg, v)
  {
    var i :| 0 <= i < |blocks[u].next| && EdgeAt(blocks, reg, u, i, v);
    ReachableStep(blocks, reg, u, i, v);
  }

  /** The entry block is reachable from itself. */
  lemma EntryReachable(blocks: seq<Block>, reg: map<string, nat>)
    requires "" in reg && reg[""] < |blocks|
    ensures Reachable(blocks, reg, reg[""])
  {
    assert Rooted(blocks, reg, [reg[""]]);
  }
}

=== FILE: common.dfy ===
/** Shared helper types and string utilities of the model. */
module Common {

  datatype Option<+T> = None | Some(value: T)

  /** The ways the core fails: each one is a thrown Error in index.js. */
  datatype Error =
    | SelfJump(target: string)         // "Do not jump yourself"
    | WrongIndent(line: nat)           // "Wrong indent, blame pYtHoN"
    | NoScope                          // "No scope available."
    | MisplacedElse                    // 'Incorrect "else" location'
    | MissingLabel(name: string)       // "Cannot find label ..."
    | MismatchedLabel(name: string)    // "Not matching label ..."
    | InvalidAggregate                 // "Invalid aggregator return"
    | NoCost(block: nat)               // a block read before optimize gave it a total
    | Undefined                        // a property read on `undefined` (TypeError)
    | OutOfFuel                        // the loop did not settle within the given budget

  datatype Result<+T> = Ok(value: T) | Err(error: Error)

  /** The characters matched by the `\s` class of JavaScript regular expressions. */
  predicate IsSpace(c: char)
  {
    c == ' ' || c == '\t' || c == '\n' || c == '\r' || c == '\U{000B}' || c == '\U{000C}'
    || c == '\U{00A0}' || c == '\U{1680}' || ('\U{2000}' <= c <= '\U{200A}')
    || c == '\U{2028}' || c == '\U{2029}' || c == '\U{202F}' || c == '\U{205F}'
    || c == '\U{3000}' || c == '\U{FEFF}'
  }

  predicate AllSpace(s: string)
  {
    forall i :: 0 <= i < |s| ==> IsSpace(s[i])
  }

  /** `s.startsWith(p)` */
  predicate StartsWith(s: string, p: string)
  {
    |p| <= |s| && s[..|p|] == p
  }

  /** The longest all-whitespace prefix of `s` (the `^\s*` match). */
  function LeadingSpace(s: string): (r: string)
    ensures StartsWith(s, r) && AllSpace(r)
    ensures |r| < |s| ==> !IsSpace(s[|r|])
  {
    if |s| > 0 && IsSpace(s[0]) then [s[0]] + LeadingSpace(s[1..]) else ""
  }

  /** `/^\S/.test(s)`: the string has a first character and it is not whitespace. */
  predicate StartsSolid(s: string)
  {
    |s| > 0 && !IsSpace(s[0])
  }

  lemma {:induction false} LeadingSpaceExtends(s: string, p: string)
    requires StartsWith(s, p) && AllSpace(p)
    ensures StartsWith(LeadingSpace(s), p)
    decreases |p|
  {
    if |p| > 0 {
      assert s[0] == p[0];
      assert s[1..][..|p| - 1] == p[1..];
      LeadingSpaceExtends(s[1..], p[1..]);
    }
  }

  lemma StartsWithTrans(s: string, p: string, q: string)
    requires StartsWith(s, p) && StartsWith(p, q)
    ensures StartsWith(s, q)
  {
    assert s[..|q|] == s[..|p|][..|q|];
  }

  function DigitChar(d: nat): (c: char)
    requires d < 10
    ensures '0' <= c <= '9'
  {
    ['0', '1', '2', '3', '4', '5', '6', '7', '8', '9'][d]
  }

  /** Decimal rendering of a line number, as a template literal does. */
  function NatToString(n: nat): (r: string)
    ensures |r| > 0
    ensures forall i :: 0 <= i < |r| ==> '0' <= r[i] <= '9'
  {
    if n < 10 then [DigitChar(n)] else NatToString(n / 10) + [DigitChar(n % 10)]
  }
}

=== FILE: counter.dfy ===
/**
 * The graph builder `RenpyCounter` (index.js:32-231, 251-252, 467-469): a
 * stack machine over indentation frames that allocates blocks and wires
 * edges line by line, and the entry points that run the optimizer and the
 * two solvers on the graph it built.
 *
 * Blocks live in the arena `blocks`; the registry and the frames refer to
 * them by index, so a frame keeps its block when `allocate` registers another
 * block under the same label. Collectible lists, which an `if` frame shares
 * with its arms, live in the arena `colls` and frames hold their index.
 */
module Counter {
  import opened Common
  import opened Blocks
  import opened Cfg
  import opened Optimize
  import MinPath
  import MaxSearch
  import MaxPath

  /** What the header, jump and return patterns (index.js:207, 213, 221) make of a line after its indentation. */
  datatype Shape =
    | Header(cmd: Option<string>, arg: Option<string>)
    | JumpTo(target: string)
    | Finish(dead: bool)
    | Other

  /** The `forking` tag of a frame: none, `regular` (a menu) or `parallel` (an if chain). */
  datatype Forking = Plain | Regular | Parallel

  /**
   * A scope frame. `name` is its label, `bb` its current block, `coll` the
   * collectible list it shares if any, `indent` its body indentation, `direct`
   * whether an if chain still falls through, `scope` the named label recorded
   * on it. Fields the source leaves unset are "" and false here, which the
   * source reads the same way.
   */
  datatype Frame = Frame(active: bool, name: string, forking: Forking, coll: Option<nat>, bb: nat,
                         indent: string, direct: bool, scope: string)

  function PushLabel(id: string): string { "#bb_" + id + "_push" }

  function PushIfLabel(id: string): string { "#bb_" + id + "_pushIf" }

  function PopLabel(id: string, it: string): string { "#bb_" + id + "_pop" + it }

  /** The first position of `c` in `s`. */
  function IndexOf(s: string, c: char): (r: Option<nat>)
    ensures r.Some? ==> r.value < |s| && s[r.value] == c && c !in s[..r.value]
    ensures r.None? ==> c !in s
  {
    if s == [] then None
    else if s[0] == c then Some(0)
    else var r := IndexOf(s[1..], c); if r.None? then None else Some(r.value + 1)
  }

  /** The last position of `c` in `s`. */
  function LastIndexOf(s: string, c: char): (r: Option<nat>)
    ensures r.Some? ==> r.value < |s| && s[r.value] == c && c !in s[r.value + 1..]
    ensures r.None? ==> c !in s
  {
    if s == [] then None
    else if s[|s| - 1] == c then Some(|s| - 1)
    else
      var r := LastIndexOf(s[..|s| - 1], c);
      assert forall i :: 0 <= i < |s| - 1 ==> s[..|s| - 1][i] == s[i];
      if r.None? then None else Some(r.value)
  }

  /**
   * `arg.replace(/\(.*\)/, '')` (index.js:95): the span from the first `(` to
   * the last `)` after it is dropped; without such a span nothing changes.
   */
  function StripParams(s: string): (r: string)
    ensures '(' !in s || ')' !in s ==> r == s
    ensures |r| <= |s|
  {
    var i := IndexOf(s, '(');
    var j := LastIndexOf(s, ')');
    if i.None? || j.None? || j.value < i.value then s else s[..i.value] + s[j.value + 1..]
  }

  /** A frame's block and collectible list exist, a forking frame has a list, and an if frame is never active. */
  predicate FrameOk(f: Frame, n: nat, m: nat)
  {
    && f.bb < n && (f.coll.Some? ==> f.coll.value < m) && (f.forking != Plain ==> f.coll.Some?)
    && (f.forking == Parallel ==> !f.active) && AllSpace(f.indent)
  }

  /** `top()`: the innermost open frame, or `init` when none is open. */
  function TopOf(stack: seq<Frame>, init: Frame): Frame
  {
    if stack == [] then init else stack[|stack| - 1]
  }

  /**
   * The frames point into arenas of `n` blocks and `m` lists. Frames are
   * pushed only on a settled frame, so only the innermost one can still wait
   * for its first body line, and a settled frame's body indentation extends
   * the one of the frame below it.
   */
  ghost predicate FramesOk(stack: seq<Frame>, init: Frame, n: nat, m: nat)
    decreases |stack|
  {
    if stack == [] then
      FrameOk(init, n, m) && init.forking == Plain && init.coll.None? && init.indent == "" && !init.active
    else
      var below := stack[..|stack| - 1];
      var t := stack[|stack| - 1];
      && FramesOk(below, init, n, m) && FrameOk(t, n, m) && !TopOf(below, init).active
      && (!t.active ==> StartsWith(t.indent, TopOf(below, init).indent))
  }

  /** Every collected block exists. */
  predicate CollsOk(colls: seq<seq<nat>>, n: nat)
  {
    forall c, j :: 0 <= c < |colls| && 0 <= j < |colls[c]| ==> colls[c][j] < n
  }

  /** The builder's invariant: every registered block carries its label, the entry label is registered, and the frames and lists are sound. */
  ghost predicate StateOk(blocks: seq<Block>, reg: map<string, nat>, stack: seq<Frame>, init: Frame, colls: seq<seq<nat>>)
  {
    Named(blocks, reg) && "" in reg && FramesOk(stack, init, |blocks|, |colls|) && CollsOk(colls, |blocks|)
  }

  /** The blocks of `b0` keep their labels in `b1`. */
  predicate NamesKept(b0: seq<Block>, b1: seq<Block>)
  {
    |b0| <= |b1| && forall x :: 0 <= x < |b0| ==> b1[x].name == b0[x].name
  }

  lemma NamedKept(b0: seq<Block>, b1: seq<Block>, reg: map<string, nat>)
    requires Named(b0, reg) && NamesKept(b0, b1)
    ensures Named(b1, reg)
  {
  }

  lemma NamedAlloc(blocks: seq<Block>, reg: map<string, nat>, name: string)
    requires Named(blocks, reg)
    ensures Named(blocks + [NewBlock(name)], reg[name := |blocks|])
  {
  }

  lemma {:induction false} FramesGrow(stack: seq<Frame>, init: Frame, n: nat, m: nat, n': nat, m': nat)
    requires FramesOk(stack, init, n, m) && n <= n' && m <= m'
    ensures FramesOk(stack, init, n', m')
    decreases |stack|
  {
    if stack != [] {
      FramesGrow(stack[..|stack| - 1], init, n, m, n', m');
    }
  }

  lemma CollsGrow(colls: seq<seq<nat>>, n: nat, n': nat)
    requires CollsOk(colls, n) && n <= n'
    ensures CollsOk(colls, n')
  {
  }

  /** Every frame points into the arenas, and every frame below the innermost is settled. */
  lemma {:induction false} FramesAt(stack: seq<Frame>, init: Frame, n: nat, m: nat, k: nat)
    requires FramesOk(stack, init, n, m) && k < |stack|
    ensures FrameOk(stack[k], n, m) && (k < |stack| - 1 ==> !stack[k].active)
    decreases |stack|
  {
    var below := stack[..|stack| - 1];
    if k < |below| {
      FramesAt(below, init, n, m, k);
      if k == |below| - 1 {
        assert TopOf(below, init) == stack[k];
      }
    }
  }

  /** The stack with its innermost frame (or `init`) replaced by `f`. */
  function SetTopStack(stack: seq<Frame>, f: Frame): seq<Frame>
  {
    if stack == [] then stack else stack[|stack| - 1 := f]
  }

  function SetTopInit(stack: seq<Frame>, init: Frame, f: Frame): Frame
  {
    if stack == [] then f else init
  }

  /** Changing the innermost frame's block, scope or fall-through flag keeps the frames sound. */
  lemma FramesSetTop(stack: seq<Frame>, init: Frame, n: nat, m: nat, f: Frame)
    requires FramesOk(stack, init, n, m) && f.bb < n
    requires f == TopOf(stack, init).(bb := f.bb, scope := f.scope, direct := f.direct)
    ensures FramesOk(SetTopStack(stack, f), SetTopInit(stack, init, f), n, m)
    ensures TopOf(SetTopStack(stack, f), SetTopInit(stack, init, f)) == f
  {
    if stack != [] {
      assert SetTopStack(stack, f)[..|stack| - 1] == stack[..|stack| - 1];
    }
  }

  /** The stack after closing its innermost frame; the frame below continues in block `b`. */
  function CloseStack(stack: seq<Frame>, init: Frame, b: nat): seq<Frame>
    requires stack != []
  {
    var below := stack[..|stack| - 1];
    SetTopStack(below, TopOf(below, init).(bb := b))
  }

  function CloseInit(stack: seq<Frame>, init: Frame, b: nat): Frame
    requires stack != []
  {
    var below := stack[..|stack| - 1];
    SetTopInit(below, init, TopOf(below, init).(bb := b))
  }

  lemma FramesClose(stack: seq<Frame>, init: Frame, n: nat, m: nat, b: nat)
    requires FramesOk(stack, init, n, m) && stack != [] && b < n
    ensures FramesOk(CloseStack(stack, init, b), CloseInit(stack, init, b), n, m)
    ensures Closed(stack, init, CloseStack(stack, init, b), CloseInit(stack, init, b))
    ensures var t := TopOf(CloseStack(stack, init, b), CloseInit(stack, init, b)); !t.active && t.bb == b
  {
    var below := stack[..|stack| - 1];
    FramesSetTop(below, init, n, m, TopOf(below, init).(bb := b));
  }

  lemma FramesDrop(stack: seq<Frame>, init: Frame, n: nat, m: nat)
    requires FramesOk(stack, init, n, m) && stack != []
    ensures FramesOk(stack[..|stack| - 1], init, n, m)
    ensures Closed(stack, init, stack[..|stack| - 1], init) && !TopOf(stack[..|stack| - 1], init).active
  {
  }

  lemma FramesPush(stack: seq<Frame>, init: Frame, n: nat, m: nat, f: Frame)
    requires FramesOk(stack, init, n, m) && !TopOf(stack, init).active && FrameOk(f, n, m)
    requires !f.active ==> StartsWith(f.indent, TopOf(stack, init).indent)
    ensures FramesOk(stack + [f], init, n, m)
  {
    assert (stack + [f])[..|stack|] == stack;
  }

  /** The first body line settles the waiting innermost frame at indentation `ind`. */
  lemma FramesSettle(stack: seq<Frame>, init: Frame, n: nat, m: nat, ind: string)
    requires FramesOk(stack, init, n, m) && stack != [] && AllSpace(ind)
    requires StartsWith(ind, TopOf(stack[..|stack| - 1], init).indent)
    ensures FramesOk(stack[|stack| - 1 := stack[|stack| - 1].(active := false, indent := ind)], init, n, m)
  {
    var s' := stack[|stack| - 1 := stack[|stack| - 1].(active := false, indent := ind)];
    assert s'[..|stack| - 1] == stack[..|stack| - 1];
  }

  /** Every settled frame's body indentation extends that of every frame below it. */
  lemma {:induction false} IndentsNest(stack: seq<Frame>, init: Frame, n: nat, m: nat, j: nat, k: nat)
    requires FramesOk(stack, init, n, m) && j <= k < |stack| && !stack[k].active
    ensures StartsWith(stack[k].indent, stack[j].indent)
    decreases |stack|
  {
    var below := stack[..|stack| - 1];
    if k < |below| {
      IndentsNest(below, init, n, m, j, k);
    } else if j < k {
      FramesAt(stack, init, n, m, k - 1);
      assert TopOf(below, init) == stack[k - 1];
      IndentsNest(below, init, n, m, j, k - 1);
      StartsWithTrans(stack[k].indent, stack[k - 1].indent, stack[j].indent);
    }
  }

  /** `n` copies of `lbl`: the edges that `n` jumps to `lbl` append. */
  function Repeat(lbl: string, n: nat): (r: seq<string>)
    ensures |r| == n && forall k :: 0 <= k < n ==> r[k] == lbl
  {
    if n == 0 then [] else Repeat(lbl, n - 1) + [lbl]
  }

  /** `b` is `a` after `n` jumps to `lbl` without `force`: an enabled block gains exactly `n` edges to it. */
  ghost predicate JumpedTo(a: Block, b: Block, lbl: string, n: nat)
  {
    b == if a.disabled then a else a.(next := a.next + Repeat(lbl, n))
  }

  /**
   * The arena `b1` extends `b0`: each block of `targets` has jumped to `lbl`
   * once per occurrence in `targets`, and every other block is unchanged.
   */
  ghost predicate Jumped(b0: seq<Block>, b1: seq<Block>, targets: seq<nat>, lbl: string)
  {
    && |b0| <= |b1|
    && (forall x :: 0 <= x < |b0| && x !in targets ==> b1[x] == b0[x])
    && (forall x :: 0 <= x < |b0| && x in targets ==> JumpedTo(b0[x], b1[x], lbl, multiset(targets)[x]))
  }

  lemma JumpedToTrans(a: Block, b: Block, c: Block, lbl: string, n1: nat, n2: nat)
    requires JumpedTo(a, b, lbl, n1) && JumpedTo(b, c, lbl, n2)
    ensures JumpedTo(a, c, lbl, n1 + n2)
  {
    if !a.disabled {
      assert Repeat(lbl, n1) + Repeat(lbl, n2) == Repeat(lbl, n1 + n2);
      assert c.next == a.next + Repeat(lbl, n1) + Repeat(lbl, n2);
    }
  }

  lemma JumpedTrans(b0: seq<Block>, b1: seq<Block>, b2: seq<Block>, t1: seq<nat>, t2: seq<nat>, lbl: string)
    requires Jumped(b0, b1, t1, lbl) && Jumped(b1, b2, t2, lbl)
    ensures Jumped(b0, b2, t1 + t2, lbl)
  {
    forall x | 0 <= x < |b0| && x in t1 + t2 ensures JumpedTo(b0[x], b2[x], lbl, multiset(t1 + t2)[x]) {
      assert multiset(t1 + t2)[x] == multiset(t1)[x] + multiset(t2)[x];
      if x in t1 && x in t2 {
        JumpedToTrans(b0[x], b1[x], b2[x], lbl, multiset(t1)[x], multiset(t2)[x]);
      } else if x in t1 {
        assert multiset(t2)[x] == 0;
      } else {
        assert multiset(t1)[x] == 0 && b1[x] == b0[x];
        assert b0[x].next + Repeat(lbl, 0) == b0[x].next;
      }
    }
  }

  /** A non-forced jump that succeeds is a `Jumped` step on its block. */
  lemma JumpStep(blocks: seq<Block>, x: nat, lbl: string)
    requires x < |blocks| && Jump(blocks[x], lbl, false).Ok?
    ensures Jumped(blocks, blocks[x := Jump(blocks[x], lbl, false).value], [x], lbl)
  {
    assert multiset([x])[x] == 1;
    assert Repeat(lbl, 1) == [lbl];
  }

  lemma JumpedAppend(b0: seq<Block>, b1: seq<Block>, targets: seq<nat>, lbl: string, b: Block)
    requires Jumped(b0, b1, targets, lbl)
    ensures Jumped(b0, b1 + [b], targets, lbl)
  {
    assert forall x :: 0 <= x < |b1| ==> (b1 + [b])[x] == b1[x];
  }

  /** Whether the source's `scope()` finds `s`: the innermost frame with a scope has it, or none has and `init` has it. */
  ghost predicate ScopeOf(stack: seq<Frame>, init: Frame, s: string)
  {
    || (exists k :: 0 <= k < |stack| && stack[k].scope == s && forall j :: k < j < |stack| ==> stack[j].scope == "")
    || ((forall k :: 0 <= k < |stack| ==> stack[k].scope == "") && init.scope == s)
  }

  /** There is at most one scope that is not empty. */
  lemma ScopeOfUnique(stack: seq<Frame>, init: Frame, s1: string, s2: string)
    requires s1 != "" && s2 != "" && ScopeOf(stack, init, s1) && ScopeOf(stack, init, s2)
    ensures s1 == s2
  {
    if exists k :: 0 <= k < |stack| && stack[k].scope == s1 && forall j :: k < j < |stack| ==> stack[j].scope == "" {
      var k1 :| 0 <= k1 < |stack| && stack[k1].scope == s1 && forall j :: k1 < j < |stack| ==> stack[j].scope == "";
      var k2 :| 0 <= k2 < |stack| && stack[k2].scope == s2 && forall j :: k2 < j < |stack| ==> stack[j].scope == "";
      assert !(k1 < k2) && !(k2 < k1);
    }
  }

  /**
   * `stack1`/`init1` is `stack0`/`init0` with the innermost frame closed: the
   * frame below is now innermost and at most its current block changed.
   */
  ghost predicate Closed(stack0: seq<Frame>, init0: Frame, stack1: seq<Frame>, init1: Frame)
  {
    && |stack0| > 0 && |stack1| == |stack0| - 1
    && (forall k :: 0 <= k < |stack1| - 1 ==> stack1[k] == stack0[k])
    && (if stack1 == [] then init1 == init0.(bb := init1.bb)
        else init1 == init0 && stack1[|stack1| - 1] == stack0[|stack1| - 1].(bb := stack1[|stack1| - 1].bb))
  }

  /** How many frames the dedent loop (index.js:200-201) leaves open for `line`. */
  function Surviving(stack: seq<Frame>, line: string): (d: nat)
    ensures d <= |stack|
    ensures d == 0 || StartsWith(line, stack[d - 1].indent)
    ensures forall k :: d <= k < |stack| ==> !StartsWith(line, stack[k].indent)
  {
    if stack == [] || StartsWith(line, stack[|stack| - 1].indent) then |stack|
    else Surviving(stack[..|stack| - 1], line)
  }

  /** The line after the dedent loop, with the indentation of the innermost open frame removed. */
  function Dedented(stack: seq<Frame>, line: string): string
  {
    var d := Surviving(stack, line);
    if d == 0 then line else line[|stack[d - 1].indent|..]
  }

  /** The number of open frames the dedent loop stops at is the one `Surviving` gives. */
  lemma SurvivingUnique(stack: seq<Frame>, line: string, d: nat)
    requires d <= |stack| && (d == 0 || StartsWith(line, stack[d - 1].indent))
    requires forall k :: d <= k < |stack| ==> !StartsWith(line, stack[k].indent)
    ensures d == Surviving(stack, line)
  {
    var s := Surviving(stack, line);
    if d < s {
      assert false;
    }
  }

  /**
   * One more frame closed by the dedent loop: the frames left keep their
   * indentation, and the line extends none of the closed ones.
   */
  lemma DedentStep(stack0: seq<Frame>, line: string, stack: seq<Frame>, init: Frame, stack': seq<Frame>, init': Frame)
    requires Closed(stack, init, stack', init') && !StartsWith(line, stack[|stack| - 1].indent)
    requires Outdented(stack0, line, stack)
    ensures Outdented(stack0, line, stack')
  {
  }

  /**
   * `stack1`/`init1` is `stack0`/`init0` with zero or more innermost frames
   * closed: the frames left are unchanged but for the current block of the
   * innermost one.
   */
  ghost predicate ClosedTo(stack0: seq<Frame>, init0: Frame, stack1: seq<Frame>, init1: Frame)
  {
    && |stack1| <= |stack0|
    && (|stack1| == |stack0| ==> stack1 == stack0 && init1 == init0)
    && (|stack1| < |stack0| ==> Closed(stack0[..|stack1| + 1], init0, stack1, init1))
  }

  lemma ClosedToStep(stack0: seq<Frame>, init0: Frame, stack: seq<Frame>, init: Frame, stack': seq<Frame>, init': Frame)
    requires ClosedTo(stack0, init0, stack, init) && Closed(stack, init, stack', init')
    ensures ClosedTo(stack0, init0, stack', init')
  {
    if |stack| == |stack0| {
      assert stack0[..|stack'| + 1] == stack0;
    } else {
      var n := |stack|;
      assert forall k :: 0 <= k < n - 1 ==> stack[k] == stack0[..n + 1][k];
    }
  }

  /**
   * From `b0`/`r0` to `b1`/`r1` only the labels `#bb_<id>_pop<k>`, `k < n`,
   * were registered or re-registered, and only blocks under those labels
   * were appended; every block keeps its label.
   */
  ghost predicate PopsOnly(b0: seq<Block>, r0: map<string, nat>, b1: seq<Block>, r1: map<string, nat>, id: string, n: nat)
  {
    && NamesKept(b0, b1) && r0.Keys <= r1.Keys
    && (forall l :: l in r1 && (l !in r0 || r1[l] != r0[l]) ==> exists k :: 0 <= k < n && l == PopLabel(id, NatToString(k)))
    && (forall x :: |b0| <= x < |b1| ==> exists k :: 0 <= k < n && b1[x].name == PopLabel(id, NatToString(k)))
  }

  lemma PopsStep(b0: seq<Block>, r0: map<string, nat>, s: Snapshot, id: string, n: nat, n': nat, s': Snapshot)
    requires PopsOnly(b0, r0, s.blocks, s.reg, id, n) && n' == n + 1
    requires PoppedTo(s, PopLabel(id, NatToString(n)), s')
    ensures PopsOnly(b0, r0, s'.blocks, s'.reg, id, n')
  {
    var b, r, b', r', colls := s.blocks, s.reg, s'.blocks, s'.reg, s.colls;
    var f := s.stack[|s.stack| - 1];
    if !(f.forking == Plain && f.coll.Some?) {
      var lbl := PopLabel(id, NatToString(n));
      JumpedKeepsNames(b, b', Ends(f, colls), lbl);
      assert b'[|b|].name == lbl;
      forall l | l in r' && (l !in r0 || r'[l] != r0[l])
        ensures exists k :: 0 <= k < n' && l == PopLabel(id, NatToString(k))
      {
        if l == lbl {
          assert 0 <= n < n';
        } else {
          var k :| 0 <= k < n && l == PopLabel(id, NatToString(k));
        }
      }
      forall x | |b0| <= x < |b'| ensures exists k :: 0 <= k < n' && b'[x].name == PopLabel(id, NatToString(k)) {
        if x == |b| {
          assert 0 <= n < n' && b'[x].name == lbl;
        } else {
          assert x < |b| && b'[x].name == b[x].name;
          var k :| 0 <= k < n && b[x].name == PopLabel(id, NatToString(k));
        }
      }
    } else {
      assert forall l :: l in r' && (l !in r0 || r'[l] != r0[l]) ==> exists k :: 0 <= k < n && l == PopLabel(id, NatToString(k));
    }
  }

  /** No open frame and not `init` records a named label: `scope()` throws. */
  ghost predicate NoScopeIn(stack: seq<Frame>, init: Frame)
  {
    init.scope == "" && forall k :: 0 <= k < |stack| ==> stack[k].scope == ""
  }

  /**
   * The blocks whose control flow the fresh block of `pop` joins when `f`
   * closes: the frame's own block, or for an if chain or a menu every
   * collected arm plus, while the chain may fall through, the chain's block.
   */
  function Ends(f: Frame, colls: seq<seq<nat>>): seq<nat>
    requires f.forking != Plain ==> f.coll.Some? && f.coll.value < |colls|
  {
    if f.forking == Plain then [f.bb]
    else colls[f.coll.value] + (if f.direct then [f.bb] else [])
  }

  /**
   * Whether `pop` throws when it closes `f` under `lbl` (index.js:22-23,
   * reached from 152, 164 and 169): an arm never does; any other frame does
   * exactly when one of its ends already carries `lbl`.
   */
  ghost predicate Clashes(blocks: seq<Block>, f: Frame, colls: seq<seq<nat>>, lbl: string)
  {
    && !(f.forking == Plain && f.coll.Some?)
    && (f.forking != Plain ==> f.coll.Some? && f.coll.value < |colls|)
    && exists k :: 0 <= k < |Ends(f, colls)| && Ends(f, colls)[k] < |blocks| && blocks[Ends(f, colls)[k]].name == lbl
  }

  /** A plain frame that is no arm clashes exactly when its own block carries the label. */
  lemma ClashesJoin(blocks: seq<Block>, f: Frame, colls: seq<seq<nat>>, lbl: string)
    requires f.forking == Plain && f.coll.None? && f.bb < |blocks|
    ensures Clashes(blocks, f, colls, lbl) <==> blocks[f.bb].name == lbl
  {
    assert Ends(f, colls)[0] == f.bb;
  }

  /** An if chain or a menu clashes exactly when a collected arm, or its own block while it falls through, carries the label. */
  lemma ClashesFork(blocks: seq<Block>, f: Frame, colls: seq<seq<nat>>, lbl: string)
    requires f.forking != Plain && f.coll.Some? && f.coll.value < |colls| && f.bb < |blocks|
    requires forall j :: 0 <= j < |colls[f.coll.value]| ==> colls[f.coll.value][j] < |blocks|
    ensures Clashes(blocks, f, colls, lbl) <==>
      || (exists k :: 0 <= k < |colls[f.coll.value]| && blocks[colls[f.coll.value][k]].name == lbl)
      || (f.direct && blocks[f.bb].name == lbl)
  {
    var arms := colls[f.coll.value];
    if exists k :: 0 <= k < |arms| && blocks[arms[k]].name == lbl {
      var k :| 0 <= k < |arms| && blocks[arms[k]].name == lbl;
      assert Ends(f, colls)[k] == arms[k];
    }
    if f.direct {
      assert Ends(f, colls)[|arms|] == f.bb;
    }
  }

  /**
   * Why `parseLine` rejects the indentation of a line that is not blank
   * (index.js:180-181, 185-186, 204-205): with no frame open it does not
   * start solid; as the first line of a waiting frame it does not extend the
   * indentation of the frame below; otherwise what is left after the dedent
   * loop does not start solid.
   */
  ghost predicate Misindented(stack: seq<Frame>, init: Frame, line: string)
  {
    if stack == [] then !StartsSolid(line)
    else if TopOf(stack, init).active then !StartsWith(line, TopOf(stack[..|stack| - 1], init).indent)
    else !StartsSolid(Dedented(stack, line))
  }

  /**
   * The text `parseLine` matches against the header, jump and return patterns:
   * the line after the indentation the frames account for.
   */
  function Body(stack: seq<Frame>, active: bool, line: string): string
  {
    if stack == [] then line
    else if active then line[|LeadingSpace(line)|..]
    else Dedented(stack, line)
  }

  /**
   * The shortest playthrough is never longer than the longest: the witness of
   * the minimum, cut down to a walk without repeated blocks, is bounded by the
   * maximum.
   */
  lemma MinAtMostMax(blocks: seq<Block>, reg: map<string, nat>, totals: map<nat, nat>, lo: nat, hi: Extended)
    requires exists p :: Rooted(blocks, reg, p) && Terminal(blocks[p[|p| - 1]]) && WalkCost(totals, p) == lo
    requires forall p :: Rooted(blocks, reg, p) && Terminal(blocks[p[|p| - 1]]) ==> lo <= WalkCost(totals, p)
    requires forall p: seq<nat> :: Rooted(blocks, reg, p) && Distinct(p) && Terminal(blocks[p[|p| - 1]]) ==>
               hi.Fin? && WalkCost(totals, p) <= hi.n
    ensures hi.Fin? && lo <= hi.n
  {
    var p :| Rooted(blocks, reg, p) && Terminal(blocks[p[|p| - 1]]) && WalkCost(totals, p) == lo;
    var q := SimpleWalk(blocks, reg, p);
    assert Rooted(blocks, reg, q) && Terminal(blocks[q[|q| - 1]]);
  }

  /** One more turn of `jumpAll`: the next target jumps to `lbl`. */
  lemma JumpedSnoc(bs: seq<Block>, cur: seq<Block>, targets: seq<nat>, i: nat, lbl: string)
    requires i < |targets| && targets[i] < |cur| && Jumped(bs, cur, targets[..i], lbl)
    requires Jump(cur[targets[i]], lbl, false).Ok?
    ensures Jumped(bs, cur[targets[i] := Jump(cur[targets[i]], lbl, false).value], targets[..i + 1], lbl)
  {
    JumpStep(cur, targets[i], lbl);
    JumpedTrans(bs, cur, cur[targets[i] := Jump(cur[targets[i]], lbl, false).value], targets[..i], [targets[i]], lbl);
    assert targets[..i + 1] == targets[..i] + [targets[i]];
  }

  /**
   * Every block of `targets` jumps to `lbl` in order, as the `forEach` of
   * index.js:163-165 does; the first self-jump stops the loop and `bs'` is the
   * arena as far as it got.
   */
  method JumpAll(bs: seq<Block>, targets: seq<nat>, lbl: string) returns (err: Option<Error>, bs': seq<Block>)
    requires forall k :: 0 <= k < |targets| ==> targets[k] < |bs|
    ensures |bs'| == |bs| && NamesKept(bs, bs')
    ensures err.Some? <==> exists k :: 0 <= k < |targets| && bs[targets[k]].name == lbl
    ensures err.Some? ==> err.value == SelfJump(lbl)
    ensures err.None? ==> Jumped(bs, bs', targets, lbl)
  {
    bs' := bs;
    var i := 0;
    while i < |targets|
      invariant 0 <= i <= |targets| && |bs'| == |bs|
      invariant forall k :: 0 <= k < i ==> bs[targets[k]].name != lbl
      invariant Jumped(bs, bs', targets[..i], lbl)
    {
      var x := targets[i];
      JumpedKeepsNames(bs, bs', targets[..i], lbl);
      var r := Jump(bs'[x], lbl, false);
      if r.Err? {
        return Some(r.error), bs';
      }
      JumpedSnoc(bs, bs', targets, i, lbl);
      bs' := bs'[x := r.value];
      i := i + 1;
    }
    assert targets[..i] == targets;
    JumpedKeepsNames(bs, bs', targets, lbl);
    err := None;
  }

  /** A `Jumped` arena keeps every label. */
  lemma JumpedKeepsNames(b0: seq<Block>, b1: seq<Block>, targets: seq<nat>, lbl: string)
    requires Jumped(b0, b1, targets, lbl)
    ensures NamesKept(b0, b1)
  {
    forall x | 0 <= x < |b0| ensures b1[x].name == b0[x].name {
      if x in targets {
        assert JumpedTo(b0[x], b1[x], lbl, multiset(targets)[x]);
      }
    }
  }

  /**
   * Closing a plain frame: its block `x` jumps to `lbl` (giving `jb`), the
   * fresh join block is allocated, and the frame below continues in it.
   */
  lemma JoinStep(blocks: seq<Block>, reg: map<string, nat>, stack: seq<Frame>, init: Frame, colls: seq<seq<nat>>,
                 lbl: string, jb: Block, blocks': seq<Block>, reg': map<string, nat>, stack': seq<Frame>, init': Frame)
    requires StateOk(blocks, reg, stack, init, colls) && stack != []
    requires var x := TopOf(stack, init).bb; x < |blocks| && Jump(blocks[x], lbl, false) == Ok(jb)
    requires blocks' == blocks[TopOf(stack, init).bb := jb] + [NewBlock(lbl)] && reg' == reg[lbl := |blocks|]
    requires stack' == CloseStack(stack, init, |blocks|) && init' == CloseInit(stack, init, |blocks|)
    ensures StateOk(blocks', reg', stack', init', colls)
    ensures Closed(stack, init, stack', init') && !TopOf(stack', init').active && TopOf(stack', init').bb == |blocks|
    ensures Jumped(blocks, blocks', [TopOf(stack, init).bb], lbl)
  {
    var x := TopOf(stack, init).bb;
    var n := |blocks|;
    var b1 := blocks[x := jb];
    JumpStep(blocks, x, lbl);
    JumpedAppend(blocks, b1, [x], lbl, NewBlock(lbl));
    NamedKept(blocks, b1, reg);
    NamedAlloc(b1, reg, lbl);
    FramesGrow(stack, init, n, |colls|, n + 1, |colls|);
    FramesClose(stack, init, n + 1, |colls|, n);
    CollsGrow(colls, n, n + 1);
  }

  /** A jump that keeps the block's label keeps the builder's invariant. */
  lemma StateJump(blocks: seq<Block>, reg: map<string, nat>, stack: seq<Frame>, init: Frame, colls: seq<seq<nat>>,
                  x: nat, b: Block)
    requires StateOk(blocks, reg, stack, init, colls) && x < |blocks| && b.name == blocks[x].name
    ensures StateOk(blocks[x := b], reg, stack, init, colls)
  {
    NamedKept(blocks, blocks[x := b], reg);
  }

  /** Dropping the innermost frame after a failed jump loop keeps the builder's invariant. */
  lemma DropStep(blocks: seq<Block>, reg: map<string, nat>, stack: seq<Frame>, init: Frame, colls: seq<seq<nat>>,
                 bs: seq<Block>, stack': seq<Frame>)
    requires StateOk(blocks, reg, stack, init, colls) && stack != [] && |bs| == |blocks| && NamesKept(blocks, bs)
    requires stack' == stack[..|stack| - 1]
    ensures StateOk(bs, reg, stack', init, colls)
  {
    NamedKept(blocks, bs, reg);
    FramesDrop(stack, init, |blocks|, |colls|);
  }

  /** Closing a fork frame after its arms have jumped: a fresh block is allocated and the frame below continues there. */
  lemma ForkAppend(blocks: seq<Block>, reg: map<string, nat>, stack: seq<Frame>, init: Frame, colls: seq<seq<nat>>,
                   lbl: string, bs: seq<Block>, b1: seq<Block>, reg': map<string, nat>, stack': seq<Frame>, init': Frame)
    requires StateOk(blocks, reg, stack, init, colls) && stack != []
    requires var f := TopOf(stack, init); f.forking != Plain && f.coll.Some? && f.coll.value < |colls|
    requires |bs| == |blocks| && Jumped(blocks, bs, colls[TopOf(stack, init).coll.value], lbl)
    requires b1 == bs + [NewBlock(lbl)] && reg' == reg[lbl := |blocks|]
    requires stack' == CloseStack(stack, init, |blocks|) && init' == CloseInit(stack, init, |blocks|)
    ensures StateOk(b1, reg', stack', init', colls)
    ensures Closed(stack, init, stack', init') && !TopOf(stack', init').active && TopOf(stack', init').bb == |blocks|
    ensures Jumped(blocks, b1, colls[TopOf(stack, init).coll.value], lbl)
  {
    var n := |blocks|;
    var arms := colls[TopOf(stack, init).coll.value];
    JumpedKeepsNames(blocks, bs, arms, lbl);
    JumpedAppend(blocks, bs, arms, lbl, NewBlock(lbl));
    NamedKept(blocks, bs, reg);
    NamedAlloc(bs, reg, lbl);
    FramesGrow(stack, init, n, |colls|, n + 1, |colls|);
    FramesClose(stack, init, n + 1, |colls|, n);
    CollsGrow(colls, n, n + 1);
  }

  /** The direct jump of a fork that still falls through, made after the fresh block is allocated. */
  lemma ForkDirect(blocks: seq<Block>, b1: seq<Block>, reg: map<string, nat>, stack: seq<Frame>, init: Frame,
                   colls: seq<seq<nat>>, arms: seq<nat>, x: nat, lbl: string, b: Block)
    requires StateOk(b1, reg, stack, init, colls) && Jumped(blocks, b1, arms, lbl)
    requires x < |blocks| < |b1| && Jump(b1[x], lbl, false) == Ok(b)
    ensures StateOk(b1[x := b], reg, stack, init, colls)
    ensures Jumped(blocks, b1[x := b], arms + [x], lbl)
    ensures b1[x := b][|blocks|] == b1[|blocks|]
  {
    JumpStep(b1, x, lbl);
    JumpedTrans(blocks, b1, b1[x := b], arms, [x], lbl);
    StateJump(b1, reg, stack, init, colls, x, b);
  }

  /**
   * Closing an if chain or a menu (index.js:159-171) on the builder's state:
   * every collected arm, and the chain's own block while it falls through,
   * jumps to a fresh block `lbl` that the frame below continues in.
   */
  method CloseFork(blocks: seq<Block>, reg: map<string, nat>, stack: seq<Frame>, init: Frame, colls: seq<seq<nat>>,
                   lbl: string)
    returns (err: Option<Error>, blocks': seq<Block>, reg': map<string, nat>, stack': seq<Frame>, init': Frame)
    requires StateOk(blocks, reg, stack, init, colls) && stack != [] && TopOf(stack, init).forking != Plain
    ensures StateOk(blocks', reg', stack', init', colls)
    ensures err.Some? <==> Clashes(blocks, TopOf(stack, init), colls, lbl)
    ensures err.Some? ==> err.value == SelfJump(lbl)
    ensures err.None? ==>
      && Closed(stack, init, stack', init') && !TopOf(stack', init').active && TopOf(stack', init').bb == |blocks|
      && |blocks'| == |blocks| + 1 && blocks'[|blocks|] == NewBlock(lbl) && reg' == reg[lbl := |blocks|]
      && Jumped(blocks, blocks', Ends(TopOf(stack, init), colls), lbl)
  {
    var f := TopOf(stack, init);
    var n := |blocks|;
    FramesAt(stack, init, n, |colls|, |stack| - 1);
    ClashesFork(blocks, f, colls, lbl);
    var e, bs := JumpAll(blocks, colls[f.coll.value], lbl);
    var arms := colls[f.coll.value];
    if e.Some? {
      DropStep(blocks, reg, stack, init, colls, bs, stack[..|stack| - 1]);
      return e, bs, reg, stack[..|stack| - 1], init;
    }
    var b1 := bs + [NewBlock(lbl)];
    reg', stack', init' := reg[lbl := n], CloseStack(stack, init, n), CloseInit(stack, init, n);
    ForkAppend(blocks, reg, stack, init, colls, lbl, bs, b1, reg', stack', init');
    blocks', err := b1, None;
    if f.direct {
      JumpedKeepsNames(blocks, bs, arms, lbl);
      assert b1[f.bb].name == blocks[f.bb].name;
      var r := Jump(b1[f.bb], lbl, false);
      if r.Ok? {
        ForkDirect(blocks, b1, reg', stack', init', colls, arms, f.bb, lbl, r.value);
        blocks' := b1[f.bb := r.value];
      } else {
        err := Some(r.error);
      }
    } else {
      assert arms + [] == arms;
    }
  }

  /** The innermost frame, or `init`, points into the arenas. */
  lemma TopOk(stack: seq<Frame>, init: Frame, n: nat, m: nat)
    requires FramesOk(stack, init, n, m)
    ensures FrameOk(TopOf(stack, init), n, m)
  {
  }

  /**
   * The innermost frame waits for its body in a fresh last block, registered
   * under its name, with no indentation, scope or fall-through yet.
   */
  ghost predicate OpenedIn(blocks: seq<Block>, reg: map<string, nat>, stack: seq<Frame>, name: string, forking: Forking)
  {
    && stack != []
    && var t := stack[|stack| - 1];
    && t.active && t.name == name && t.forking == forking && t.bb == |blocks| - 1
    && t.indent == "" && t.scope == "" && !t.direct
    && name in reg && reg[name] == t.bb && blocks[t.bb] == NewBlock(name)
  }

  /** A frame `push` opens (index.js:88-91): waiting in block `bb` for its first body line, with nothing else set. */
  function Waiting(name: string, forking: Forking, coll: Option<nat>, bb: nat): Frame
  {
    Frame(true, name, forking, coll, bb, "", false, "")
  }

  /**
   * `b1`/`r1` is `b0`/`r0` after block `x` jumped to `name` and a fresh block
   * registered under `name` was appended: the edge `push` adds into a new frame.
   */
  ghost predicate OpenedFrom(b0: seq<Block>, r0: map<string, nat>, x: nat, name: string, b1: seq<Block>, r1: map<string, nat>)
  {
    && x < |b0| && Jump(b0[x], name, false).Ok?
    && b1 == b0[x := Jump(b0[x], name, false).value] + [NewBlock(name)]
    && r1 == r0[name := |b0|]
  }

  /** Opening a frame adds the edge to its label on block `x` and changes no other existing block. */
  lemma OpenedFromJumped(b0: seq<Block>, r0: map<string, nat>, x: nat, name: string, b1: seq<Block>, r1: map<string, nat>)
    requires OpenedFrom(b0, r0, x, name, b1, r1)
    ensures Jumped(b0, b1, [x], name) && b1[|b0|] == NewBlock(name) && r1[name] == |b0|
  {
    JumpStep(b0, x, name);
    JumpedAppend(b0, b0[x := Jump(b0[x], name, false).value], [x], name, NewBlock(name));
  }

  /**
   * The edges `if` adds: block `x` jumps to a fresh block `#bb_<id>_pushIf`
   * and stops, and that block leads only to a fresh block `#bb_<id>_push`,
   * the first arm.
   */
  ghost predicate ChainFrom(b0: seq<Block>, r0: map<string, nat>, x: nat, id: string, b1: seq<Block>, r1: map<string, nat>)
  {
    && x < |b0| && Jump(b0[x], PushIfLabel(id), true).Ok?
    && b1 == b0[x := Jump(b0[x], PushIfLabel(id), true).value]
             + [NewBlock(PushIfLabel(id)).(next := [PushLabel(id)]), NewBlock(PushLabel(id))]
    && r1 == r0[PushIfLabel(id) := |b0|][PushLabel(id) := |b0| + 1]
  }

  /** The if frame of a chain opened from block `x`: `x` falls through to it. */
  ghost predicate ChainOpened(b0: seq<Block>, r0: map<string, nat>, x: nat, id: string, b1: seq<Block>, r1: map<string, nat>)
  {
    && x < |b0| && Jump(b0[x], PushIfLabel(id), true).Ok?
    && b1 == b0[x := Jump(b0[x], PushIfLabel(id), true).value] + [NewBlock(PushIfLabel(id))]
    && r1 == r0[PushIfLabel(id) := |b0|]
  }

  /** The two steps of `if`, the chain block and then its first arm, make up `ChainFrom`. */
  lemma ChainJoin(b0: seq<Block>, r0: map<string, nat>, x: nat, id: string, b1: seq<Block>, r1: map<string, nat>,
                  b2: seq<Block>, r2: map<string, nat>)
    requires ChainOpened(b0, r0, x, id, b1, r1)
    requires OpenedFrom(b1, r1, |b0|, PushLabel(id), b2, r2)
    ensures ChainFrom(b0, r0, x, id, b2, r2)
  {
    var pif := NewBlock(PushIfLabel(id));
    assert Jump(pif, PushLabel(id), false).value == pif.(next := [PushLabel(id)]);
    var a := b0[x := Jump(b0[x], PushIfLabel(id), true).value];
    assert b1[|b0| := pif.(next := [PushLabel(id)])] == a + [pif.(next := [PushLabel(id)])];
  }

  /** What a header opens: the if chain for `if`, a single frame under `name` for anything else. */
  ghost predicate HeaderFrom(cmd: Option<string>, id: string, b0: seq<Block>, r0: map<string, nat>, x: nat, name: string,
                             b1: seq<Block>, r1: map<string, nat>)
  {
    if cmd == Some("if") then ChainFrom(b0, r0, x, id, b1, r1) else OpenedFrom(b0, r0, x, name, b1, r1)
  }

  /** The join of `pop`: the blocks `ends` jumped to `lbl`, and a fresh block registered under `lbl` was appended. */
  ghost predicate JoinedFrom(b0: seq<Block>, r0: map<string, nat>, ends: seq<nat>, lbl: string,
                             b1: seq<Block>, r1: map<string, nat>)
  {
    && |b1| == |b0| + 1 && b1[|b0|] == NewBlock(lbl) && r1 == r0[lbl := |b0|]
    && Jumped(b0, b1, ends, lbl)
  }

  /**
   * `pop` closed the innermost frame of `stack0`: an arm handed its block to
   * the shared list and changed nothing else; any other frame joined its
   * ends in a fresh block `lbl`, which the frame below continues in.
   */
  ghost predicate Popped(b0: seq<Block>, r0: map<string, nat>, stack0: seq<Frame>, init0: Frame, colls0: seq<seq<nat>>,
                         lbl: string, b1: seq<Block>, r1: map<string, nat>, stack1: seq<Frame>, init1: Frame,
                         colls1: seq<seq<nat>>)
  {
    && stack0 != [] && Closed(stack0, init0, stack1, init1) && !TopOf(stack1, init1).active
    && var f := stack0[|stack0| - 1];
    && (f.coll.Some? ==> f.coll.value < |colls0|) && (f.forking != Plain ==> f.coll.Some?)
    && !Clashes(b0, f, colls0, lbl)
    && if f.forking == Plain && f.coll.Some? then
         && b1 == b0 && r1 == r0 && stack1 == stack0[..|stack0| - 1] && init1 == init0
         && colls1 == colls0[f.coll.value := colls0[f.coll.value] + [f.bb]]
       else
         && colls1 == colls0 && TopOf(stack1, init1).bb == |b0|
         && JoinedFrom(b0, r0, Ends(f, colls0), lbl, b1, r1)
  }

  /** What `parseLine` works on: the arena, the registry, the open frames, `init` and the shared collectible lists. */
  datatype Snapshot = Snapshot(blocks: seq<Block>, reg: map<string, nat>, stack: seq<Frame>, init: Frame,
                               colls: seq<seq<nat>>)

  /** `Popped` between two snapshots. */
  ghost predicate PoppedTo(s0: Snapshot, lbl: string, s1: Snapshot)
  {
    Popped(s0.blocks, s0.reg, s0.stack, s0.init, s0.colls, lbl, s1.blocks, s1.reg, s1.stack, s1.init, s1.colls)
  }

  /** The snapshot after position `k` of `ss` is the one at `k` after `pop(id, k)`. */
  ghost predicate PopAt(ss: seq<Snapshot>, id: string, k: nat)
    requires k + 1 < |ss|
  {
    PoppedTo(ss[k], PopLabel(id, NatToString(k)), ss[k + 1])
  }

  /** Each snapshot of `ss` but the first is the one before it after `pop(id, k)`, `k` the position of that one. */
  ghost predicate PopTrace(ss: seq<Snapshot>, id: string)
  {
    forall k: nat :: k + 1 < |ss| ==> PopAt(ss, id, k)
  }

  /**
   * `n` turns of the dedent loop (index.js:200-201) lead from `s0` to `s1`:
   * `pop(id, 0)`, ..., `pop(id, n - 1)`, each closing the innermost frame
   * the one before left.
   */
  ghost predicate PopChain(s0: Snapshot, id: string, n: nat, s1: Snapshot)
  {
    exists ss :: PopTrace(ss, id) && |ss| == n + 1 && ss[0] == s0 && ss[n] == s1
  }

  /** A step of a trace stays a step when the trace is extended. */
  lemma PopAtSnoc(ss: seq<Snapshot>, id: string, k: nat, s1: Snapshot)
    requires k + 1 < |ss| && PopAt(ss, id, k)
    ensures PopAt(ss + [s1], id, k)
  {
    assert (ss + [s1])[k] == ss[k] && (ss + [s1])[k + 1] == ss[k + 1];
  }

  /** A pop from the last snapshot of a trace is the last step of the extended trace. */
  lemma PopAtLast(ss: seq<Snapshot>, id: string, s1: Snapshot)
    requires ss != [] && PoppedTo(ss[|ss| - 1], PopLabel(id, NatToString(|ss| - 1)), s1)
    ensures PopAt(ss + [s1], id, |ss| - 1)
  {
    assert (ss + [s1])[|ss| - 1] == ss[|ss| - 1] && (ss + [s1])[|ss|] == s1;
  }

  lemma PopChainStep(s0: Snapshot, id: string, n: nat, n': nat, m: Snapshot, s1: Snapshot)
    requires PopChain(s0, id, n, m) && PoppedTo(m, PopLabel(id, NatToString(n)), s1) && n' == n + 1
    ensures PopChain(s0, id, n', s1)
  {
    var ss :| PopTrace(ss, id) && |ss| == n + 1 && ss[0] == s0 && ss[n] == m;
    var ss' := ss + [s1];
    forall k: nat | k + 1 < |ss'| ensures PopAt(ss', id, k) {
      if k < n {
        PopAtSnoc(ss, id, k, s1);
      } else {
        PopAtLast(ss, id, s1);
      }
    }
    assert ss'[0] == s0 && ss'[n'] == s1;
  }

  lemma PopChainNone(s0: Snapshot, id: string)
    ensures PopChain(s0, id, 0, s0)
  {
    assert PopTrace([s0], id);
  }

  /** A chain of `n + 1` pops is a chain of `n` pops followed by `pop(id, n)`. */
  lemma PopChainLast(s0: Snapshot, id: string, n: nat, s1: Snapshot) returns (m: Snapshot)
    requires PopChain(s0, id, n + 1, s1)
    ensures PopChain(s0, id, n, m) && PoppedTo(m, PopLabel(id, NatToString(n)), s1)
  {
    var ss :| PopTrace(ss, id) && |ss| == n + 2 && ss[0] == s0 && ss[n + 1] == s1;
    var tt := ss[..n + 1];
    forall k: nat | k + 1 < |tt| ensures PopAt(tt, id, k) {
      assert PopAt(ss, id, k) && tt[k] == ss[k] && tt[k + 1] == ss[k + 1];
    }
    assert PopAt(ss, id, n) && tt[0] == s0 && tt[n] == ss[n];
    m := ss[n];
  }

  /**
   * A chain of `n` pops closes the `n` innermost frames and leaves the others
   * as they were, and registers and appends only `#bb_<id>_pop<k>` labels,
   * `k < n`.
   */
  lemma {:induction false} ChainPopsOnly(s0: Snapshot, id: string, n: nat, s1: Snapshot)
    requires PopChain(s0, id, n, s1)
    ensures |s1.stack| + n == |s0.stack| && ClosedTo(s0.stack, s0.init, s1.stack, s1.init)
    ensures PopsOnly(s0.blocks, s0.reg, s1.blocks, s1.reg, id, n)
  {
    if n == 0 {
      var ss :| PopTrace(ss, id) && |ss| == 1 && ss[0] == s0 && ss[0] == s1;
    } else {
      var m := PopChainLast(s0, id, n - 1, s1);
      ChainPopsOnly(s0, id, n - 1, m);
      assert Closed(m.stack, m.init, s1.stack, s1.init);
      ClosedToStep(s0.stack, s0.init, m.stack, m.init, s1.stack, s1.init);
      PopsStep(s0.blocks, s0.reg, m, id, n - 1, n, s1);
    }
  }

  /** `pop` is a function of the state it starts from: two pops of the same state under the same label agree. */
  lemma PoppedUnique(s0: Snapshot, lbl: string, s1: Snapshot, s0': Snapshot, s2: Snapshot)
    requires PoppedTo(s0, lbl, s1) && PoppedTo(s0', lbl, s2) && s0' == s0
    ensures s1 == s2
  {
    var f := s0.stack[|s0.stack| - 1];
    if !(f.forking == Plain && f.coll.Some?) {
      var ends: seq<nat> := Ends(f, s0.colls);
      forall x: nat | x < |s1.blocks| ensures s1.blocks[x] == s2.blocks[x] {
        if x < |s0.blocks| && x in ends {
          assert JumpedTo(s0.blocks[x], s1.blocks[x], lbl, multiset(ends)[x]);
          assert JumpedTo(s0.blocks[x], s2.blocks[x], lbl, multiset(ends)[x]);
        }
      }
      assert s1.blocks == s2.blocks;
      var n := |s1.stack|;
      forall k | 0 <= k < n ensures s1.stack[k] == s2.stack[k] {
        if k == n - 1 {
          assert s1.stack[k].bb == TopOf(s1.stack, s1.init).bb == TopOf(s2.stack, s2.init).bb == s2.stack[k].bb;
        }
      }
      assert s1.stack == s2.stack;
    }
  }

  /** Two traces of the dedent loop from the same state agree at every turn both reach. */
  lemma {:induction false} TracesAgree(ss: seq<Snapshot>, tt: seq<Snapshot>, id: string, i: nat)
    requires PopTrace(ss, id) && PopTrace(tt, id) && ss != [] && tt != [] && ss[0] == tt[0]
    requires i < |ss| && i < |tt|
    ensures ss[i] == tt[i]
  {
    if i > 0 {
      TracesAgree(ss, tt, id, i - 1);
      assert PopAt(ss, id, i - 1) && PopAt(tt, id, i - 1);
      PoppedUnique(ss[i - 1], PopLabel(id, NatToString(i - 1)), ss[i], tt[i - 1], tt[i]);
    }
  }

  /** A chain of pops that goes past turn `k` did not clash at turn `k`. */
  lemma ChainPastStep(s0: Snapshot, id: string, k: nat, m: Snapshot, n: nat, s: Snapshot)
    requires PopChain(s0, id, k, m) && PopChain(s0, id, n, s) && k < n && m.stack != []
    ensures !Clashes(m.blocks, TopOf(m.stack, m.init), m.colls, PopLabel(id, NatToString(k)))
  {
    var tt :| PopTrace(tt, id) && |tt| == k + 1 && tt[0] == s0 && tt[k] == m;
    var ss :| PopTrace(ss, id) && |ss| == n + 1 && ss[0] == s0 && ss[n] == s;
    TracesAgree(ss, tt, id, k);
    assert PopAt(ss, id, k);
  }

  /**
   * The dedent loop from `s0` fails at its turn `k`: the line extends none of
   * the `k + 1` innermost frames, the first `k` pops went through, and the
   * frame then innermost clashes with `#bb_<id>_pop<k>`.
   */
  ghost predicate DedentClash(s0: Snapshot, line: string, id: string, e: Error)
  {
    exists k: nat, m: Snapshot ::
      && k < |s0.stack| && (forall j :: |s0.stack| - k - 1 <= j < |s0.stack| ==> !StartsWith(line, s0.stack[j].indent))
      && PopChain(s0, id, k, m) && m.stack != []
      && Clashes(m.blocks, TopOf(m.stack, m.init), m.colls, PopLabel(id, NatToString(k)))
      && e == SelfJump(PopLabel(id, NatToString(k)))
  }

  /** Besides the frames it closed, the line does not extend the innermost frame the dedent loop left either. */
  lemma OutdentedTop(stack0: seq<Frame>, line: string, stack: seq<Frame>)
    requires Outdented(stack0, line, stack) && stack != [] && !StartsWith(line, stack[|stack| - 1].indent)
    ensures forall j :: |stack| - 1 <= j < |stack0| ==> !StartsWith(line, stack0[j].indent)
  {
    assert stack[|stack| - 1].indent == stack0[|stack| - 1].indent;
  }

  /** The dedent loop from a state can fail in one way only: at the first turn that clashes. */
  lemma DedentClashUnique(s0: Snapshot, line: string, id: string, e: Error, e': Error)
    requires DedentClash(s0, line, id, e) && DedentClash(s0, line, id, e')
    ensures e == e'
  {
    var k: nat, m: Snapshot :| && k < |s0.stack| && PopChain(s0, id, k, m) && m.stack != []
                && Clashes(m.blocks, TopOf(m.stack, m.init), m.colls, PopLabel(id, NatToString(k)))
                && e == SelfJump(PopLabel(id, NatToString(k)));
    var k': nat, m': Snapshot :| && k' < |s0.stack| && PopChain(s0, id, k', m') && m'.stack != []
                  && Clashes(m'.blocks, TopOf(m'.stack, m'.init), m'.colls, PopLabel(id, NatToString(k')))
                  && e' == SelfJump(PopLabel(id, NatToString(k')));
    if k < k' {
      ChainPastStep(s0, id, k, m, k', m');
      assert false;
    } else if k' < k {
      ChainPastStep(s0, id, k', m', k, m);
      assert false;
    }
    assert k == k';
  }

  /**
   * While a turn of the dedent loop that clashes lies ahead, the loop cannot
   * stop: its innermost frame is one the line does not extend.
   */
  lemma DedentClashAhead(s0: Snapshot, line: string, id: string, e: Error, s: Snapshot)
    requires DedentClash(s0, line, id, e) && Dedenting(s0, line, id, s)
    ensures s.stack != [] && !StartsWith(line, s.stack[|s.stack| - 1].indent)
  {
    var k: nat, m: Snapshot :| && k < |s0.stack| && (forall j :: |s0.stack| - k - 1 <= j < |s0.stack| ==> !StartsWith(line, s0.stack[j].indent))
                && PopChain(s0, id, k, m) && m.stack != []
                && Clashes(m.blocks, TopOf(m.stack, m.init), m.colls, PopLabel(id, NatToString(k)))
                && e == SelfJump(PopLabel(id, NatToString(k)));
    var n := |s0.stack| - |s.stack|;
    if k < n {
      ChainPastStep(s0, id, k, m, n, s);
      assert false;
    }
    var j := |s.stack| - 1;
    assert |s0.stack| - k - 1 <= j < |s0.stack| && s.stack[j].indent == s0.stack[j].indent;
  }

  /** The dedent loop state `m` after `k` turns, whose next pop clashes, is a `DedentClash`. */
  lemma DedentClashAt(s0: Snapshot, line: string, id: string, k: nat, m: Snapshot, e: Error)
    requires |m.stack| + k == |s0.stack| && m.stack != []
    requires forall j :: |m.stack| - 1 <= j < |s0.stack| ==> !StartsWith(line, s0.stack[j].indent)
    requires PopChain(s0, id, k, m)
    requires Clashes(m.blocks, TopOf(m.stack, m.init), m.colls, PopLabel(id, NatToString(k)))
    requires e == SelfJump(PopLabel(id, NatToString(k)))
    ensures DedentClash(s0, line, id, e)
  {
  }

  /**
   * What the indentation handling of `parseLine` (index.js:179-206) does to
   * `s0` when it accepts `line`: nothing with no frame open; for the first
   * line of a waiting frame, settle it at the line's leading whitespace or,
   * for a line flush with the frame below, close it by `pop(id, 0)`;
   * otherwise close every frame the line does not extend.
   */
  ghost predicate Indented(s0: Snapshot, line: string, id: string, s1: Snapshot)
  {
    if s0.stack == [] then s1 == s0
    else if TopOf(s0.stack, s0.init).active then
      if LeadingSpace(line) != "" then
        s1 == s0.(stack := s0.stack[|s0.stack| - 1 := s0.stack[|s0.stack| - 1].(active := false, indent := LeadingSpace(line))])
      else PoppedTo(s0, PopLabel(id, "0"), s1)
    else PopChain(s0, id, |s0.stack| - Surviving(s0.stack, line), s1)
  }

  /** A dedent loop that stopped where `Surviving` says is the last case of `Indented`. */
  lemma DedentIndented(s0: Snapshot, line: string, id: string, s1: Snapshot)
    requires s0.stack != [] && !TopOf(s0.stack, s0.init).active
    requires Dedenting(s0, line, id, s1) && |s1.stack| == Surviving(s0.stack, line)
    ensures Indented(s0, line, id, s1)
  {
  }

  /** Why the indentation handling of `parseLine` fails with a self-jump: a `pop` it makes clashes. */
  ghost predicate IndentClash(s0: Snapshot, line: string, id: string, e: Error)
  {
    && s0.stack != []
    && if TopOf(s0.stack, s0.init).active then
         && StartsWith(line, TopOf(s0.stack[..|s0.stack| - 1], s0.init).indent) && LeadingSpace(line) == ""
         && Clashes(s0.blocks, TopOf(s0.stack, s0.init), s0.colls, PopLabel(id, "0"))
         && e == SelfJump(PopLabel(id, "0"))
       else DedentClash(s0, line, id, e)
  }

  /**
   * `ensureNoParallel(id)` (index.js:82-85) leads from `s0` to `s1`: an if
   * chain left open is closed by `pop` under `#bb_<id>_popIf`; otherwise
   * nothing changes.
   */
  ghost predicate NoParallel(s0: Snapshot, id: string, s1: Snapshot)
  {
    if TopOf(s0.stack, s0.init).forking == Parallel then PoppedTo(s0, PopLabel(id, "If"), s1) else s1 == s0
  }

  /** The state after `ensureNoParallel` is a function of the state before it. */
  lemma NoParallelUnique(s0: Snapshot, id: string, s1: Snapshot, s2: Snapshot)
    requires NoParallel(s0, id, s1) && NoParallel(s0, id, s2)
    ensures s1 == s2
  {
    if TopOf(s0.stack, s0.init).forking == Parallel {
      PoppedUnique(s0, PopLabel(id, "If"), s1, s0, s2);
    }
  }

  /** `ensureNoParallel(id)` throws in `s`: the if chain left open clashes with `#bb_<id>_popIf`. */
  ghost predicate IfClash(s: Snapshot, id: string)
  {
    TopOf(s.stack, s.init).forking == Parallel && Clashes(s.blocks, TopOf(s.stack, s.init), s.colls, PopLabel(id, "If"))
  }

  /**
   * `jump <target>` in `s` goes to `lbl` (index.js:216): the target itself,
   * or, with a leading dot, the target appended to the scope.
   */
  ghost predicate JumpsTo(s: Snapshot, target: string, lbl: string)
  {
    if StartsWith(target, ".") then exists sc :: sc != "" && ScopeOf(s.stack, s.init, sc) && lbl == sc + target
    else lbl == target
  }

  /**
   * A statement line of `shape` throws in `s` (index.js:214-218): only a
   * jump does, with a leading dot when there is no scope, and whenever the
   * current block already carries the label it goes to.
   */
  ghost predicate ActFails(s: Snapshot, shape: Shape)
  {
    && shape.JumpTo?
    && var x := TopOf(s.stack, s.init).bb;
    || (StartsWith(shape.target, ".") && NoScopeIn(s.stack, s.init))
    || exists lbl :: JumpsTo(s, shape.target, lbl) && x < |s.blocks| && s.blocks[x].name == lbl
  }

  /**
   * A statement line of `shape` leads from `s0` to `s1` with outcome `err`
   * (index.js:214-229): a jump adds its edge to the current block and stops
   * it, `return` stops it, any other line says `said`, if any, in it; only
   * the current block can change.
   */
  ghost predicate Acted(s0: Snapshot, shape: Shape, said: Option<Record>, err: Option<Error>, s1: Snapshot)
  {
    && s1.reg == s0.reg && s1.stack == s0.stack && s1.init == s0.init && s1.colls == s0.colls
    && TopOf(s0.stack, s0.init).bb < |s0.blocks|
    && var x := TopOf(s0.stack, s0.init).bb;
    match shape
    case JumpTo(target) =>
      if StartsWith(target, ".") && NoScopeIn(s0.stack, s0.init) then err == Some(NoScope) && s1.blocks == s0.blocks
      else exists lbl :: && JumpsTo(s0, target, lbl)
                         && if s0.blocks[x].name == lbl then err == Some(SelfJump(lbl)) && s1.blocks == s0.blocks
                            else err.None? && s1.blocks == s0.blocks[x := Jump(s0.blocks[x], lbl, true).value]
    case Finish(dead) => err.None? && s1.blocks == s0.blocks[x := End(s0.blocks[x], dead)]
    case Other => err.None? && s1.blocks == if said.Some? then s0.blocks[x := Say(s0.blocks[x], said.value)] else s0.blocks
    case Header(_, _) => false
  }

  /** A jump that goes to `target` once its scope is resolved leads from `s0` to `s1` as `Acted` says. */
  lemma JumpActed(s0: Snapshot, lbl: string, target: string, err: Option<Error>, s1: Snapshot)
    requires s1.reg == s0.reg && s1.stack == s0.stack && s1.init == s0.init && s1.colls == s0.colls
    requires TopOf(s0.stack, s0.init).bb < |s0.blocks| && JumpsTo(s0, lbl, target)
    requires !(StartsWith(lbl, ".") && NoScopeIn(s0.stack, s0.init))
    requires var x := TopOf(s0.stack, s0.init).bb;
      if s0.blocks[x].name == target then err == Some(SelfJump(target)) && s1.blocks == s0.blocks
      else err.None? && s1.blocks == s0.blocks[x := Jump(s0.blocks[x], target, true).value]
    ensures Acted(s0, JumpTo(lbl), None, err, s1)
  {
  }

  /**
   * A header `cmd`/`arg` other than `else` and `elif` throws in `s`, once no
   * if chain is open (index.js:93-139): `label` without a name, a dotted
   * label without a scope, or the current block already carrying the label
   * the header opens.
   */
  ghost predicate OpenFails(s: Snapshot, cmd: Option<string>, arg: Option<string>, id: string)
  {
    && TopOf(s.stack, s.init).bb < |s.blocks|
    && var cur := s.blocks[TopOf(s.stack, s.init).bb].name;
    if cmd == Some("label") then
      || arg.None?
      || (!StartsWith(StripParams(arg.value), ".") && cur == StripParams(arg.value))
      || (StartsWith(StripParams(arg.value), ".") && NoScopeIn(s.stack, s.init))
      || (StartsWith(StripParams(arg.value), ".") &&
          exists sc :: sc != "" && ScopeOf(s.stack, s.init, sc) && cur == sc + StripParams(arg.value))
    else cur == if cmd == Some("if") then PushIfLabel(id) else PushLabel(id)
  }

  /**
   * `label` fails as `OpenFails` says when its name `r` is resolved as
   * `LabelName` resolves it and the label then fails exactly on a clash.
   */
  lemma NamedFails(s0: Snapshot, arg: Option<string>, r: Result<string>, failed: bool)
    requires TopOf(s0.stack, s0.init).bb < |s0.blocks|
    requires arg.None? ==> r.Err?
    requires arg.Some? && !StartsWith(StripParams(arg.value), ".") ==> r == Ok(StripParams(arg.value))
    requires arg.Some? && StartsWith(StripParams(arg.value), ".") ==>
      && (r.Err? <==> NoScopeIn(s0.stack, s0.init))
      && (r.Ok? ==> forall sc :: sc != "" && ScopeOf(s0.stack, s0.init, sc) ==> r.value == sc + StripParams(arg.value))
      && (r.Ok? ==> exists sc :: sc != "" && ScopeOf(s0.stack, s0.init, sc) && r.value == sc + StripParams(arg.value))
    requires r.Err? ==> failed
    requires r.Ok? ==> (failed <==> s0.blocks[TopOf(s0.stack, s0.init).bb].name == r.value)
    ensures failed <==> OpenFails(s0, Some("label"), arg, "")
  {
  }

  /** `else` or `elif` throws in `s` (index.js:121-128): `else` outside an if chain, or a clash with `#bb_<id>_push`. */
  ghost predicate ArmFails(s: Snapshot, isElse: bool, id: string)
  {
    || (isElse && TopOf(s.stack, s.init).forking != Parallel)
    || (TopOf(s.stack, s.init).bb < |s.blocks| && s.blocks[TopOf(s.stack, s.init).bb].name == PushLabel(id))
  }

  /**
   * `s1` is `s` after the current block opened the waiting frame `f`
   * (index.js:135-139) on the frames `below`, with the lists `colls`: the
   * block jumps to `f`'s label and a fresh block is registered under it.
   */
  ghost predicate FramePushed(s: Snapshot, below: seq<Frame>, colls: seq<seq<nat>>, f: Frame, s1: Snapshot)
  {
    && OpenedFrom(s.blocks, s.reg, TopOf(s.stack, s.init).bb, f.name, s1.blocks, s1.reg)
    && f == Waiting(f.name, f.forking, f.coll, |s.blocks|)
    && s1.stack == below + [f] && s1.colls == colls
  }

  /** The list a header with no case of its own shares (index.js:130-131): the one of a menu it sits in. */
  function MenuColl(t: Frame): Option<nat>
  {
    if t.forking == Regular then t.coll else None
  }

  /**
   * `label <arg>:` leads from `s` to `s1` without throwing (index.js:94-100):
   * the name, its parameter list dropped, becomes the scope of the current
   * frame when it has no leading dot and is appended to the scope otherwise;
   * then a plain frame opens under it.
   */
  ghost predicate LabelPushed(s: Snapshot, arg: Option<string>, s1: Snapshot)
  {
    && arg.Some? && s1.stack != []
    && var t := TopOf(s.stack, s.init);
    && var name := s1.stack[|s1.stack| - 1].name;
    && var lbl := StripParams(arg.value);
    && if StartsWith(lbl, ".") then
         && (exists sc :: sc != "" && ScopeOf(s.stack, s.init, sc) && name == sc + lbl)
         && FramePushed(s, s.stack, s.colls, Waiting(name, Plain, None, |s.blocks|), s1) && s1.init == s.init
       else
         && name == lbl
         && FramePushed(s, SetTopStack(s.stack, t.(scope := lbl)), s.colls, Waiting(lbl, Plain, None, |s.blocks|), s1)
         && s1.init == SetTopInit(s.stack, s.init, t.(scope := lbl))
  }

  /**
   * `if <cond>:` leads from `s` to `s1` without throwing (index.js:107-119):
   * the edges of `ChainFrom`, a fresh list, the settled if frame at the
   * current indentation, still falling through, and its first arm on it.
   */
  ghost predicate ChainPushed(s: Snapshot, id: string, s1: Snapshot)
  {
    var t := TopOf(s.stack, s.init);
    var n := |s.blocks|;
    && ChainFrom(s.blocks, s.reg, t.bb, id, s1.blocks, s1.reg)
    && s1.init == s.init && s1.colls == s.colls + [[]]
    && s1.stack == s.stack + [Frame(false, PushIfLabel(id), Parallel, Some(|s.colls|), n, t.indent, true, ""),
                              Waiting(PushLabel(id), Plain, Some(|s.colls|), n + 1)]
  }

  /**
   * A header `cmd`/`arg` leads from `s` to `s1` without throwing
   * (index.js:87-139), `s` being the state after `ensureNoParallel` for any
   * header but an arm. `label` and `if` are `LabelPushed` and `ChainPushed`;
   * any other header opens one frame under `#bb_<id>_push`: `menu` a choice
   * frame with a fresh list, an arm a plain frame with the current frame's
   * list, `else` after stopping the chain from falling through, and any
   * other header a plain frame with `MenuColl`. No other frame, list or
   * block changes.
   */
  ghost predicate Pushed(s: Snapshot, cmd: Option<string>, arg: Option<string>, id: string, s1: Snapshot)
  {
    var t := TopOf(s.stack, s.init);
    var n := |s.blocks|;
    if cmd == Some("label") then LabelPushed(s, arg, s1)
    else if cmd == Some("if") then ChainPushed(s, id, s1)
    else
      && s1.init == s.init
      && if cmd == Some("menu") then FramePushed(s, s.stack, s.colls + [[]], Waiting(PushLabel(id), Regular, Some(|s.colls|), n), s1)
         else if cmd == Some("else") then
           s.stack != [] && FramePushed(s, SetTopStack(s.stack, t.(direct := false)), s.colls, Waiting(PushLabel(id), Plain, t.coll, n), s1)
         else if cmd == Some("elif") then FramePushed(s, s.stack, s.colls, Waiting(PushLabel(id), Plain, t.coll, n), s1)
         else FramePushed(s, s.stack, s.colls, Waiting(PushLabel(id), Plain, MenuColl(t), n), s1)
  }

  /**
   * Whether the body of a line of `shape` throws in `s` (index.js:207-229):
   * an arm throws as `ArmFails` says; any other line throws when closing the
   * open if chain clashes, and otherwise exactly when its header or its
   * statement throws once the chain is closed.
   */
  ghost predicate BodyOutcome(s: Snapshot, shape: Shape, id: string, failed: bool)
  {
    if shape.Header? && (shape.cmd == Some("else") || shape.cmd == Some("elif")) then
      failed == ArmFails(s, shape.cmd == Some("else"), id)
    else if IfClash(s, id) then failed
    else exists m :: && NoParallel(s, id, m)
                     && failed == if shape.Header? then OpenFails(m, shape.cmd, shape.arg, id) else ActFails(m, shape)
  }

  /** A header with no case of its own opens a plain frame sharing `MenuColl`. */
  lemma OtherPushed(s: Snapshot, cmd: Option<string>, id: string, s1: Snapshot)
    requires cmd !in {Some("label"), Some("menu"), Some("if"), Some("else"), Some("elif")} && s1.init == s.init
    requires FramePushed(s, s.stack, s.colls, Waiting(PushLabel(id), Plain, MenuColl(TopOf(s.stack, s.init)), |s.blocks|), s1)
    ensures Pushed(s, cmd, None, id, s1)
  {
  }

  /** An arm opens a plain frame sharing the current frame's list, after stopping the chain for `else`. */
  lemma ArmPushed(s: Snapshot, cmd: Option<string>, arg: Option<string>, id: string, s1: Snapshot)
    requires cmd == Some("else") || cmd == Some("elif")
    requires s1.init == s.init && (cmd == Some("else") ==> s.stack != [])
    requires var t := TopOf(s.stack, s.init);
      FramePushed(s, if cmd == Some("else") then SetTopStack(s.stack, t.(direct := false)) else s.stack, s.colls,
                  Waiting(PushLabel(id), Plain, t.coll, |s.blocks|), s1)
    ensures Pushed(s, cmd, arg, id, s1)
  {
  }

  /** `label` with a name without a leading dot records it as the scope, then opens a plain frame under it. */
  lemma PlainPushed(s: Snapshot, arg: string, s1: Snapshot)
    requires !StartsWith(StripParams(arg), ".")
    requires var f := TopOf(s.stack, s.init).(scope := StripParams(arg));
      && FramePushed(s, SetTopStack(s.stack, f), s.colls, Waiting(StripParams(arg), Plain, None, |s.blocks|), s1)
      && s1.init == SetTopInit(s.stack, s.init, f)
    ensures LabelPushed(s, Some(arg), s1)
  {
  }

  /** `label` with a dotted name opens a plain frame under the name appended to the scope `sc`. */
  lemma ScopedPushed(s: Snapshot, arg: string, sc: string, s1: Snapshot)
    requires StartsWith(StripParams(arg), ".") && sc != "" && ScopeOf(s.stack, s.init, sc) && s1.init == s.init
    requires FramePushed(s, s.stack, s.colls, Waiting(sc + StripParams(arg), Plain, None, |s.blocks|), s1)
    ensures LabelPushed(s, Some(arg), s1)
  {
  }

  /**
   * After a header the innermost frame waits for its body in a fresh block
   * registered under its name (`OpenedIn`), and the header added the edges
   * `HeaderFrom` states.
   */
  lemma PushedOpens(s: Snapshot, cmd: Option<string>, arg: Option<string>, id: string, s1: Snapshot)
    requires Pushed(s, cmd, arg, id, s1)
    ensures s1.stack != [] && TopOf(s1.stack, s1.init).active
    ensures OpenedIn(s1.blocks, s1.reg, s1.stack, TopOf(s1.stack, s1.init).name, TopOf(s1.stack, s1.init).forking)
    ensures cmd != Some("label") ==> TopOf(s1.stack, s1.init).name == PushLabel(id)
    ensures HeaderFrom(cmd, id, s.blocks, s.reg, TopOf(s.stack, s.init).bb, TopOf(s1.stack, s1.init).name, s1.blocks, s1.reg)
  {
    var t := TopOf(s.stack, s.init);
    var n := |s.blocks|;
    if cmd == Some("label") {
      var name := s1.stack[|s1.stack| - 1].name;
      var lbl := StripParams(arg.value);
      if StartsWith(lbl, ".") {
        FrameOpens(s, s.stack, s.colls, Waiting(name, Plain, None, n), s1);
      } else {
        FrameOpens(s, SetTopStack(s.stack, t.(scope := lbl)), s.colls, Waiting(lbl, Plain, None, n), s1);
      }
    } else if cmd == Some("if") {
      assert s1.stack[|s1.stack| - 1] == Waiting(PushLabel(id), Plain, Some(|s.colls|), n + 1);
    } else if cmd == Some("menu") {
      FrameOpens(s, s.stack, s.colls + [[]], Waiting(PushLabel(id), Regular, Some(|s.colls|), n), s1);
    } else if cmd == Some("else") {
      FrameOpens(s, SetTopStack(s.stack, t.(direct := false)), s.colls, Waiting(PushLabel(id), Plain, t.coll, n), s1);
    } else if cmd == Some("elif") {
      FrameOpens(s, s.stack, s.colls, Waiting(PushLabel(id), Plain, t.coll, n), s1);
    } else {
      FrameOpens(s, s.stack, s.colls, Waiting(PushLabel(id), Plain, MenuColl(t), n), s1);
    }
  }

  /** The frame `FramePushed` opens is the innermost one, waiting as `OpenedIn` says. */
  lemma FrameOpens(s: Snapshot, below: seq<Frame>, colls: seq<seq<nat>>, f: Frame, s1: Snapshot)
    requires FramePushed(s, below, colls, f, s1)
    ensures s1.stack != [] && s1.stack[|s1.stack| - 1] == f && OpenedIn(s1.blocks, s1.reg, s1.stack, f.name, f.forking)
  {
  }

  /**
   * The state after the body of a line of `shape` that did not throw
   * (index.js:207-229): an arm is pushed on `s`; any other header is pushed,
   * and any statement made, once the open if chain is closed.
   */
  ghost predicate BodyDone(s: Snapshot, shape: Shape, said: Option<Record>, id: string, s1: Snapshot)
  {
    if shape.Header? && (shape.cmd == Some("else") || shape.cmd == Some("elif")) then Pushed(s, shape.cmd, shape.arg, id, s1)
    else exists m :: && NoParallel(s, id, m)
                     && if shape.Header? then Pushed(m, shape.cmd, shape.arg, id, s1) else Acted(m, shape, said, None, s1)
  }

  /** A statement throws exactly when `ActFails` says so. */
  lemma ActedFails(s0: Snapshot, shape: Shape, said: Option<Record>, err: Option<Error>, s1: Snapshot)
    requires Acted(s0, shape, said, err, s1)
    ensures err.Some? <==> ActFails(s0, shape)
  {
    if shape.JumpTo? && !(StartsWith(shape.target, ".") && NoScopeIn(s0.stack, s0.init)) {
      var x := TopOf(s0.stack, s0.init).bb;
      var lbl :| && JumpsTo(s0, shape.target, lbl)
                 && if s0.blocks[x].name == lbl then err == Some(SelfJump(lbl)) && s1.blocks == s0.blocks
                    else err.None? && s1.blocks == s0.blocks[x := Jump(s0.blocks[x], lbl, true).value];
      forall lbl' | JumpsTo(s0, shape.target, lbl')
        ensures lbl' == lbl
      {
        if StartsWith(shape.target, ".") {
          var sc :| sc != "" && ScopeOf(s0.stack, s0.init, sc) && lbl == sc + shape.target;
          var sc' :| sc' != "" && ScopeOf(s0.stack, s0.init, sc') && lbl' == sc' + shape.target;
          ScopeOfUnique(s0.stack, s0.init, sc, sc');
        }
      }
    }
  }

  /**
   * `stack` is what is left of `stack0` once frames whose indentation `line`
   * does not extend were closed: the frames left keep their indentation.
   */
  ghost predicate Outdented(stack0: seq<Frame>, line: string, stack: seq<Frame>)
  {
    && |stack| <= |stack0|
    && (forall k :: 0 <= k < |stack| ==> stack[k].indent == stack0[k].indent)
    && (forall k :: |stack| <= k < |stack0| ==> !StartsWith(line, stack0[k].indent))
  }

  /**
   * The state `s` of the dedent loop after it popped from `s0` the frames
   * `s` no longer has, none of whose indentation `line` extends.
   */
  ghost predicate Dedenting(s0: Snapshot, line: string, id: string, s: Snapshot)
  {
    && Outdented(s0.stack, line, s.stack)
    && PopChain(s0, id, |s0.stack| - |s.stack|, s)
  }

  lemma DedentingStep(s0: Snapshot, line: string, id: string, n: nat, s: Snapshot, s': Snapshot)
    requires Dedenting(s0, line, id, s) && n == |s0.stack| - |s.stack|
    requires s.stack != [] && !StartsWith(line, s.stack[|s.stack| - 1].indent)
    requires PoppedTo(s, PopLabel(id, NatToString(n)), s')
    ensures Dedenting(s0, line, id, s') && n + 1 == |s0.stack| - |s'.stack|
  {
    assert Closed(s.stack, s.init, s'.stack, s'.init);
    assert n + 1 == |s0.stack| - |s'.stack|;
    DedentStep(s0.stack, line, s.stack, s.init, s'.stack, s'.init);
    PopChainStep(s0, id, n, n + 1, s, s');
  }

  /** Before its first turn, the dedent loop has popped nothing. */
  lemma DedentingStart(s0: Snapshot, line: string, id: string)
    ensures Dedenting(s0, line, id, s0)
  {
    PopChainNone(s0, id);
  }

  /** The dedent loop stops at the frames `Surviving` counts, and the line loses the indentation of the innermost. */
  lemma DedentingDone(s0: Snapshot, line: string, s: Snapshot)
    requires Outdented(s0.stack, line, s.stack)
    requires s.stack == [] || StartsWith(line, s.stack[|s.stack| - 1].indent)
    ensures |s.stack| == Surviving(s0.stack, line)
    ensures Dedented(s0.stack, line) == if s.stack == [] then line else line[|s.stack[|s.stack| - 1].indent|..]
  {
    SurvivingUnique(s0.stack, line, |s.stack|);
  }

  /**
   * Starting an if chain (index.js:109-117): the current block jumps to
   * `w.name` and stops (giving `jb`), a fresh block is registered under that
   * name, and the settled if frame `w` is pushed with a fresh list.
   */
  lemma ChainStep(blocks: seq<Block>, reg: map<string, nat>, stack: seq<Frame>, init: Frame, colls: seq<seq<nat>>,
                  w: Frame, jb: Block, blocks': seq<Block>, reg': map<string, nat>, stack': seq<Frame>,
                  colls': seq<seq<nat>>)
    requires StateOk(blocks, reg, stack, init, colls) && !TopOf(stack, init).active
    requires var x := TopOf(stack, init).bb; x < |blocks| && Jump(blocks[x], w.name, true) == Ok(jb)
    requires w == Frame(false, w.name, Parallel, Some(|colls|), |blocks|, TopOf(stack, init).indent, true, "")
    requires blocks' == blocks[TopOf(stack, init).bb := jb] + [NewBlock(w.name)] && reg' == reg[w.name := |blocks|]
    requires stack' == stack + [w] && colls' == colls + [[]]
    ensures StateOk(blocks', reg', stack', init, colls') && !TopOf(stack', init).active
  {
    var x := TopOf(stack, init).bb;
    var n := |blocks|;
    var b1 := blocks[x := jb];
    NamedKept(blocks, b1, reg);
    NamedAlloc(b1, reg, w.name);
    TopOk(stack, init, n, |colls|);
    FramesGrow(stack, init, n, |colls|, n + 1, |colls| + 1);
    FramesPush(stack, init, n + 1, |colls| + 1, w);
    assert CollsOk(colls', n + 1);
  }

  /**
   * Opening a frame `f` (index.js:135-139): the current block `x` jumps to
   * `f.name` (giving `jb`), a fresh block is registered under that name, and
   * `f` is pushed waiting for its first body line.
   */
  lemma OpenStep(blocks: seq<Block>, reg: map<string, nat>, stack: seq<Frame>, init: Frame, colls: seq<seq<nat>>,
                 f: Frame, jb: Block, blocks': seq<Block>, reg': map<string, nat>, stack': seq<Frame>)
    requires StateOk(blocks, reg, stack, init, colls) && !TopOf(stack, init).active
    requires var x := TopOf(stack, init).bb; x < |blocks| && Jump(blocks[x], f.name, false) == Ok(jb)
    requires f == Waiting(f.name, f.forking, f.coll, |blocks|) && f.forking != Parallel
    requires (f.coll.Some? ==> f.coll.value < |colls|) && (f.forking != Plain ==> f.coll.Some?)
    requires blocks' == blocks[TopOf(stack, init).bb := jb] + [NewBlock(f.name)] && reg' == reg[f.name := |blocks|]
    requires stack' == stack + [f]
    ensures StateOk(blocks', reg', stack', init, colls)
    ensures Jumped(blocks, blocks', [TopOf(stack, init).bb], f.name)
    ensures OpenedIn(blocks', reg', stack', f.name, f.forking) && stack'[..|stack'| - 1] == stack
  {
    var x := TopOf(stack, init).bb;
    var n := |blocks|;
    var b1 := blocks[x := jb];
    JumpStep(blocks, x, f.name);
    JumpedAppend(blocks, b1, [x], f.name, NewBlock(f.name));
    NamedKept(blocks, b1, reg);
    NamedAlloc(b1, reg, f.name);
    FramesGrow(stack, init, n, |colls|, n + 1, |colls|);
    FramesPush(stack, init, n + 1, |colls|, f);
    CollsGrow(colls, n, n + 1);
  }

  /**
   * The builder. `parser` stands for the text parser handed to the
   * constructor, `shapeOf` for the three line patterns of `parseLine`, and
   * `aggregator` for the text aggregator.
   */
  class RenpyCounter {
    var blocks: seq<Block>
    var registry: map<string, nat>
    var stack: seq<Frame>
    var init: Frame
    var colls: seq<seq<nat>>
    var incoming: Incoming
    var totals: map<nat, nat>
    const parser: string -> Option<Record>
    const shapeOf: string -> Shape
    const aggregator: seq<Record> -> Aggregate

    ghost predicate Valid()
      reads this
    {
      StateOk(blocks, registry, stack, init, colls)
    }

    /** index.js:33-42: the entry block under the empty label, and no open frame. */
    constructor (parser: string -> Option<Record>, shapeOf: string -> Shape, aggregator: seq<Record> -> Aggregate)
      ensures Valid()
      ensures blocks == [NewBlock("")] && registry == map["" := 0] && stack == [] && colls == []
      ensures init == Frame(false, "", Plain, None, 0, "", false, "")
      ensures this.parser == parser && this.shapeOf == shapeOf && this.aggregator == aggregator
    {
      this.parser := parser;
      this.shapeOf := shapeOf;
      this.aggregator := aggregator;
      blocks := [NewBlock("")];
      registry := map["" := 0];
      stack := [];
      init := Frame(false, "", Plain, None, 0, "", false, "");
      colls := [];
      incoming := map[];
      totals := map[];
    }

    /** The builder's state as a value. */
    ghost function State(): Snapshot
      reads this
    {
      Snapshot(blocks, registry, stack, init, colls)
    }

    /** `top()`: the innermost open frame, or `init`, which never waits for a body. */
    function Top(): (f: Frame)
      reads this
      requires Valid()
      ensures f == TopOf(stack, init) && FrameOk(f, |blocks|, |colls|)
      ensures f.active ==> stack != [] && f == stack[|stack| - 1]
    {
      TopOf(stack, init)
    }

    /** `empty()`: no frame is open, so the current frame is `init`. */
    function Empty(): (e: bool)
      reads this
      requires Valid()
      ensures e ==> Top() == init
      ensures !e ==> |stack| > 0 && Top() == stack[|stack| - 1]
    {
      stack == []
    }

    /** `bbSize()`: the number of registered labels; the entry label is always among them. */
    function BbSize(): (n: nat)
      reads this
      requires Valid()
      ensures n >= 1
    {
      assert "" in registry;
      |registry|
    }

    /** `allocate(label)`: a fresh block registered under `name`, replacing any earlier entry. */
    method Allocate(name: string) returns (b: nat)
      requires Valid()
      modifies this`blocks, this`registry
      ensures b == |old(blocks)| && blocks == old(blocks) + [NewBlock(name)]
      ensures registry == old(registry)[name := b]
      ensures Valid()
    {
      b := |blocks|;
      NamedAlloc(blocks, registry, name);
      FramesGrow(stack, init, b, |colls|, b + 1, |colls|);
      CollsGrow(colls, b, b + 1);
      blocks := blocks + [NewBlock(name)];
      registry := registry[name := b];
    }

    /** Updates the current frame's block, scope or fall-through flag. */
    method SetTop(f: Frame)
      requires Valid() && f.bb < |blocks| && f == TopOf(stack, init).(bb := f.bb, scope := f.scope, direct := f.direct)
      modifies this`stack, this`init
      ensures if old(stack) == [] then init == f && stack == old(stack)
              else stack == old(stack)[|old(stack)| - 1 := f] && init == old(init)
      ensures Valid()
    {
      FramesSetTop(stack, init, |blocks|, |colls|, f);
      stack, init := SetTopStack(stack, f), SetTopInit(stack, init, f);
    }

    /** A new, empty collectible list. */
    method NewColl() returns (c: nat)
      requires Valid()
      modifies this`colls
      ensures c == |old(colls)| && colls == old(colls) + [[]] && Valid()
    {
      c := |colls|;
      FramesGrow(stack, init, |blocks|, c, |blocks|, c + 1);
      colls := colls + [[]];
    }

    /** `jump(lbl, force)` on block `x` (index.js:21-29). */
    method JumpFrom(x: nat, lbl: string, force: bool) returns (err: Option<Error>)
      requires Valid() && x < |blocks|
      modifies this`blocks
      ensures Valid()
      ensures err.Some? <==> old(blocks)[x].name == lbl
      ensures err.Some? ==> err.value == SelfJump(lbl) && blocks == old(blocks)
      ensures err.None? ==> blocks == old(blocks)[x := Jump(old(blocks)[x], lbl, force).value]
    {
      var r := Jump(blocks[x], lbl, force);
      if r.Err? {
        return Some(r.error);
      }
      NamedKept(blocks, blocks[x := r.value], registry);
      blocks := blocks[x := r.value];
      err := None;
    }

    /**
     * `scope()` (index.js:60-67): the named label recorded on the innermost
     * frame that has one, else on `init`; an empty label counts as none.
     */
    method Scope() returns (r: Result<string>)
      requires Valid()
      ensures r.Err? <==> NoScopeIn(stack, init)
      ensures r.Err? ==> r.error == NoScope
      ensures r.Ok? ==> r.value != "" && ScopeOf(stack, init, r.value)
    {
      var i := |stack|;
      while i > 0
        invariant 0 <= i <= |stack|
        invariant forall k :: i <= k < |stack| ==> stack[k].scope == ""
      {
        if stack[i - 1].scope != "" {
          return Ok(stack[i - 1].scope);
        }
        i := i - 1;
      }
      if init.scope != "" {
        return Ok(init.scope);
      }
      return Err(NoScope);
    }

    /** The first body line of the waiting frame fixes its indentation `m` (index.js:190-194). */
    method Settle(m: string)
      requires Valid() && stack != [] && TopOf(stack, init).active && AllSpace(m)
      requires StartsWith(m, TopOf(stack[..|stack| - 1], init).indent)
      modifies this`stack
      ensures stack == old(stack)[|old(stack)| - 1 := TopOf(old(stack), old(init)).(active := false, indent := m)]
      ensures Valid()
    {
      FramesSettle(stack, init, |blocks|, |colls|, m);
      stack := stack[|stack| - 1 := Top().(active := false, indent := m)];
    }

    /**
     * `pop(id, it)` (index.js:142-173): closes the innermost frame. An arm of
     * an if chain or a menu choice hands its block to the shared list; any
     * other frame joins its ends (`Ends`) in a fresh block
     * `#bb_<id>_pop<it>`, which becomes the current block of the frame below.
     */
    method Pop(id: string, it: string) returns (err: Option<Error>)
      requires Valid() && stack != []
      modifies this`blocks, this`registry, this`stack, this`init, this`colls
      ensures Valid()
      ensures err.Some? <==> Clashes(old(blocks), TopOf(old(stack), old(init)), old(colls), PopLabel(id, it))
      ensures err.Some? ==> err.value == SelfJump(PopLabel(id, it))
      ensures err.None? ==>
        Popped(old(blocks), old(registry), old(stack), old(init), old(colls), PopLabel(id, it),
               blocks, registry, stack, init, colls)
    {
      var f := stack[|stack| - 1];
      TopOk(stack, init, |blocks|, |colls|);
      if f.forking == Plain && f.coll.None? {
        ClashesJoin(blocks, f, colls, PopLabel(id, it));
      }
      if f.forking == Plain && f.coll.Some? {
        PopArm();
        err := None;
      } else if f.forking == Plain {
        err := PopJoin(PopLabel(id, it));
      } else {
        err := PopFork(PopLabel(id, it));
      }
    }

    /** An arm of an if chain or a menu choice: its block joins the shared list (index.js:146-149). */
    method PopArm()
      requires Valid() && stack != [] && TopOf(stack, init).forking == Plain && TopOf(stack, init).coll.Some?
      modifies this`stack, this`colls
      ensures Valid() && Closed(old(stack), old(init), stack, init) && !TopOf(stack, init).active
      ensures stack == old(stack)[..|old(stack)| - 1]
      ensures colls == old(colls)[TopOf(old(stack), old(init)).coll.value := old(colls)[TopOf(old(stack), old(init)).coll.value] + [TopOf(old(stack), old(init)).bb]]
    {
      var f := Top();
      var c := f.coll.value;
      FramesDrop(stack, init, |blocks|, |colls|);
      stack, colls := stack[..|stack| - 1], colls[c := colls[c] + [f.bb]];
    }

    /** A plain frame: its block jumps to a fresh block `lbl` that the frame below continues in (index.js:150-156). */
    method PopJoin(lbl: string) returns (err: Option<Error>)
      requires Valid() && stack != [] && TopOf(stack, init).forking == Plain && TopOf(stack, init).coll.None?
      modifies this`blocks, this`registry, this`stack, this`init
      ensures Valid()
      ensures err.Some? <==> old(blocks)[TopOf(old(stack), old(init)).bb].name == lbl
      ensures err.Some? ==> err.value == SelfJump(lbl)
      ensures err.None? ==> Closed(old(stack), old(init), stack, init) && !TopOf(stack, init).active
      ensures err.None? ==>
        && |blocks| == |old(blocks)| + 1 && TopOf(stack, init).bb == |old(blocks)| && blocks[TopOf(stack, init).bb] == NewBlock(lbl)
        && registry == old(registry)[lbl := |old(blocks)|]
        && Jumped(old(blocks), blocks, [TopOf(old(stack), old(init)).bb], lbl)
    {
      var f := Top();
      var r := Jump(blocks[f.bb], lbl, false);
      if r.Err? {
        return Some(r.error);
      }
      var n := |blocks|;
      blocks, registry := blocks[f.bb := r.value] + [NewBlock(lbl)], registry[lbl := n];
      stack, init := CloseStack(stack, init, n), CloseInit(stack, init, n);
      JoinStep(old(blocks), old(registry), old(stack), old(init), colls, lbl, r.value, blocks, registry, stack, init);
      err := None;
    }

    /**
     * An if chain or a menu: every collected arm, and the chain's own block
     * while it falls through, jumps to a fresh block `lbl` that the frame below
     * continues in (index.js:159-171).
     */
    method PopFork(lbl: string) returns (err: Option<Error>)
      requires Valid() && stack != [] && TopOf(stack, init).forking != Plain
      modifies this`blocks, this`registry, this`stack, this`init
      ensures Valid()
      ensures err.Some? <==> Clashes(old(blocks), TopOf(old(stack), old(init)), colls, lbl)
      ensures err.Some? ==> err.value == SelfJump(lbl)
      ensures err.None? ==>
        && Closed(old(stack), old(init), stack, init) && !TopOf(stack, init).active
        && TopOf(stack, init).bb == |old(blocks)|
        && |blocks| == |old(blocks)| + 1 && blocks[|old(blocks)|] == NewBlock(lbl)
        && registry == old(registry)[lbl := |old(blocks)|]
        && Jumped(old(blocks), blocks, Ends(TopOf(old(stack), old(init)), colls), lbl)
    {
      var b, r, st, i;
      err, b, r, st, i := CloseFork(blocks, registry, stack, init, colls, lbl);
      blocks, registry, stack, init := b, r, st, i;
    }

    /** `ensureNoParallel(id)` (index.js:82-85): an if chain still open is closed first. */
    method EnsureNoParallel(id: string) returns (err: Option<Error>)
      requires Valid()
      modifies this`blocks, this`registry, this`stack, this`init
      ensures Valid()
      ensures TopOf(old(stack), old(init)).forking != Parallel ==>
        err.None? && blocks == old(blocks) && registry == old(registry) && stack == old(stack)
        && init == old(init) && colls == old(colls)
      ensures TopOf(old(stack), old(init)).forking == Parallel ==>
        (err.Some? <==> Clashes(old(blocks), TopOf(old(stack), old(init)), colls, PopLabel(id, "If")))
      ensures TopOf(old(stack), old(init)).forking == Parallel && err.Some? ==> err.value == SelfJump(PopLabel(id, "If"))
      ensures TopOf(old(stack), old(init)).forking == Parallel && err.None? ==>
        && Closed(old(stack), old(init), stack, init) && TopOf(stack, init).bb == |old(blocks)|
        && JoinedFrom(old(blocks), old(registry), Ends(TopOf(old(stack), old(init)), colls), PopLabel(id, "If"),
                      blocks, registry)
      ensures err.None? && !TopOf(old(stack), old(init)).active ==> !TopOf(stack, init).active
      ensures err.Some? <==> IfClash(old(State()), id)
      ensures err.None? ==> NoParallel(old(State()), id, State())
    {
      if Top().forking == Parallel {
        err := PopFork(PopLabel(id, "If"));
      } else {
        err := None;
      }
    }
  
    /** Replaces block `x` by `b`, an update in place that keeps the label. */
    method Update(x: nat, b: Block)
      requires Valid() && x < |blocks| && b.name == blocks[x].name
      modifies this`blocks
      ensures blocks == old(blocks)[x := b] && Valid()
    {
      StateJump(blocks, registry, stack, init, colls, x, b);
      blocks := blocks[x := b];
    }

    /**
     * The tail of `push` (index.js:135-139): the current block jumps to
     * `name`, a fresh block is registered under it, and a frame waiting for
     * its first body line is pushed.
     */
    method Open(name: string, forking: Forking, coll: Option<nat>) returns (err: Option<Error>)
      requires Valid() && !TopOf(stack, init).active && forking != Parallel
      requires (coll.Some? ==> coll.value < |colls|) && (forking == Regular ==> coll.Some?)
      modifies this`blocks, this`registry, this`stack
      ensures Valid()
      ensures err.Some? <==> old(blocks)[TopOf(old(stack), init).bb].name == name
      ensures err.Some? ==>
        err.value == SelfJump(name) && blocks == old(blocks) && registry == old(registry) && stack == old(stack)
      ensures err.None? ==>
        && OpenedFrom(old(blocks), old(registry), TopOf(old(stack), init).bb, name, blocks, registry)
        && stack == old(stack) + [Frame(true, name, forking, coll, |old(blocks)|, "", false, "")]
      ensures err.None? ==> Opened(name, forking) && stack[..|stack| - 1] == old(stack)
    {
      TopOk(stack, init, |blocks|, |colls|);
      var x := TopOf(stack, init).bb;
      var r := Jump(blocks[x], name, false);
      if r.Err? {
        return Some(r.error);
      }
      var n := |blocks|;
      var f := Frame(true, name, forking, coll, n, "", false, "");
      blocks, registry, stack := blocks[x := r.value] + [NewBlock(name)], registry[name := n], stack + [f];
      OpenStep(old(blocks), old(registry), old(stack), init, colls, f, r.value, blocks, registry, stack);
      err := None;
    }
  
    /** After a successful `push`: the innermost frame waits for its body in a fresh block registered under its name. */
    ghost predicate Opened(name: string, forking: Forking)
      reads this
    {
      OpenedIn(blocks, registry, stack, name, forking)
    }

    /** The current block takes no further statement. */
    ghost predicate CurrentDisabled()
      reads this
    {
      TopOf(stack, init).bb < |blocks| && blocks[TopOf(stack, init).bb].disabled
    }

    /** The last record of the current block is `r`. */
    ghost predicate CurrentSays(r: Record)
      reads this
    {
      && TopOf(stack, init).bb < |blocks|
      && var text := blocks[TopOf(stack, init).bb].text;
      |text| > 0 && text[|text| - 1] == r
    }

    /**
     * The label a `label <name>:` header opens (index.js:95-99): the
     * parameter list is dropped; a name without a leading dot becomes the
     * scope of the current frame, one with a leading dot is appended to the
     * scope `scope()` finds.
     */
    method LabelName(arg: Option<string>) returns (r: Result<string>)
      requires Valid() && !TopOf(stack, init).active
      modifies this`stack, this`init
      ensures Valid() && !TopOf(stack, init).active && TopOf(stack, init).bb == TopOf(old(stack), old(init)).bb
      ensures arg.None? ==> r == Err(Undefined)
      ensures arg.Some? && !StartsWith(StripParams(arg.value), ".") ==>
        && r == Ok(StripParams(arg.value))
        && stack == SetTopStack(old(stack), TopOf(old(stack), old(init)).(scope := StripParams(arg.value)))
        && init == SetTopInit(old(stack), old(init), TopOf(old(stack), old(init)).(scope := StripParams(arg.value)))
      ensures arg.Some? && StartsWith(StripParams(arg.value), ".") ==>
        && stack == old(stack) && init == old(init)
        && (r.Err? <==> NoScopeIn(stack, init)) && (r.Err? ==> r.error == NoScope)
        && (r.Ok? ==> exists sc :: sc != "" && ScopeOf(stack, init, sc) && r.value == sc + StripParams(arg.value))
        && (r.Ok? ==> forall sc :: sc != "" && ScopeOf(stack, init, sc) ==> r.value == sc + StripParams(arg.value))
    {
      if arg.None? {
        return Err(Undefined);
      }
      var name := StripParams(arg.value);
      if !StartsWith(name, ".") {
        TopOk(stack, init, |blocks|, |colls|);
        SetTop(TopOf(stack, init).(scope := name));
        return Ok(name);
      }
      var sc := Scope();
      if sc.Err? {
        return Err(sc.error);
      }
      forall s | s != "" && ScopeOf(stack, init, s) ensures s == sc.value {
        ScopeOfUnique(stack, init, s, sc.value);
      }
      return Ok(sc.value + name);
    }

    /**
     * `label <name>:` after `ensureNoParallel` (index.js:94-100): a plain
     * frame under the label `LabelName` gives.
     */
    method PushNamed(arg: Option<string>) returns (err: Option<Error>)
      requires Valid() && !TopOf(stack, init).active
      modifies this`blocks, this`registry, this`stack, this`init
      ensures Valid()
      ensures arg.None? ==> err == Some(Undefined)
      ensures err.Some? ==>
        || (err.value == Undefined && arg.None?)
        || (err.value == NoScope && arg.Some? && StartsWith(StripParams(arg.value), "."))
        || err.value.SelfJump?
      ensures var x := TopOf(old(stack), old(init)).bb;
        arg.Some? && !StartsWith(StripParams(arg.value), ".") ==> (err.Some? <==> old(blocks)[x].name == StripParams(arg.value))
      ensures arg.Some? && StartsWith(StripParams(arg.value), ".") ==>
        (err == Some(NoScope) <==> NoScopeIn(old(stack), old(init)))
      ensures var x := TopOf(old(stack), old(init)).bb;
        arg.Some? && StartsWith(StripParams(arg.value), ".") ==>
          forall sc :: sc != "" && ScopeOf(old(stack), old(init), sc) ==>
            (err.Some? <==> old(blocks)[x].name == sc + StripParams(arg.value))
      ensures err.Some? <==> OpenFails(old(State()), Some("label"), arg, "")
      ensures err.None? ==> LabelPushed(old(State()), arg, State())
    {
      if arg.None? {
        NamedFails(old(State()), arg, Err(Undefined), true);
        return Some(Undefined);
      }
      if StartsWith(StripParams(arg.value), ".") {
        err := PushScoped(arg.value);
      } else {
        err := PushPlain(arg.value);
      }
    }

    /** `label` with a name without a leading dot: it becomes the scope, then the label opens. */
    method PushPlain(arg: string) returns (err: Option<Error>)
      requires Valid() && !TopOf(stack, init).active && !StartsWith(StripParams(arg), ".")
      modifies this`blocks, this`registry, this`stack, this`init
      ensures Valid()
      ensures err.Some? <==> old(blocks)[TopOf(old(stack), old(init)).bb].name == StripParams(arg)
      ensures err.Some? ==> err.value == SelfJump(StripParams(arg))
      ensures err.Some? <==> OpenFails(old(State()), Some("label"), Some(arg), "")
      ensures err.None? ==> LabelPushed(old(State()), Some(arg), State())
    {
      var name := LabelName(Some(arg));
      err := Open(name.value, Plain, None);
      NamedFails(old(State()), Some(arg), name, err.Some?);
      if err.None? {
        PlainPushed(old(State()), arg, State());
      }
    }

    /** `label` with a dotted name: it is appended to the scope, then the label opens. */
    method PushScoped(arg: string) returns (err: Option<Error>)
      requires Valid() && !TopOf(stack, init).active && StartsWith(StripParams(arg), ".")
      modifies this`blocks, this`registry, this`stack, this`init
      ensures Valid()
      ensures err == Some(NoScope) <==> NoScopeIn(old(stack), old(init))
      ensures err.Some? ==> err.value == NoScope || err.value.SelfJump?
      ensures var x := TopOf(old(stack), old(init)).bb;
        forall sc :: sc != "" && ScopeOf(old(stack), old(init), sc) ==>
          (err.Some? <==> old(blocks)[x].name == sc + StripParams(arg))
      ensures err.Some? <==> OpenFails(old(State()), Some("label"), Some(arg), "")
      ensures err.None? ==> LabelPushed(old(State()), Some(arg), State())
    {
      var name := LabelName(Some(arg));
      if name.Err? {
        NamedFails(old(State()), Some(arg), name, true);
        return Some(name.error);
      }
      ghost var sc :| sc != "" && ScopeOf(stack, init, sc) && name.value == sc + StripParams(arg);
      err := Open(name.value, Plain, None);
      NamedFails(old(State()), Some(arg), name, err.Some?);
      if err.None? {
        ScopedPushed(old(State()), arg, sc, State());
      }
    }

    /** `menu:` after `ensureNoParallel` (index.js:102-104): a choice frame with a fresh, empty collectible list. */
    method PushMenu(id: string) returns (err: Option<Error>)
      requires Valid() && !TopOf(stack, init).active
      modifies this`blocks, this`registry, this`stack, this`colls
      ensures Valid()
      ensures err.Some? <==> old(blocks)[TopOf(old(stack), init).bb].name == PushLabel(id)
      ensures err.Some? ==>
        err.value == SelfJump(PushLabel(id)) && blocks == old(blocks) && registry == old(registry) && stack == old(stack)
      ensures err.None? ==> Pushed(old(State()), Some("menu"), None, id, State())
    {
      var c := NewColl();
      err := Open(PushLabel(id), Regular, Some(c));
    }

    /**
     * The start of an if chain (index.js:109-117): the current block jumps
     * to a fresh block `#bb_<id>_pushIf` and stops, and a settled if frame
     * in that block, at the current indentation, with a fresh collectible
     * list and still falling through, is pushed.
     */
    method OpenChain(id: string) returns (err: Option<Error>)
      requires Valid() && !TopOf(stack, init).active
      modifies this`blocks, this`registry, this`stack, this`colls
      ensures Valid() && !TopOf(stack, init).active
      ensures var x := TopOf(old(stack), init).bb;
        err.Some? <==> old(blocks)[x].name == PushIfLabel(id)
      ensures err.Some? ==> err.value == SelfJump(PushIfLabel(id))
      ensures var x := TopOf(old(stack), init).bb;
        err.None? ==>
          && ChainOpened(old(blocks), old(registry), x, id, blocks, registry) && colls == old(colls) + [[]]
          && stack == old(stack) + [Frame(false, PushIfLabel(id), Parallel, Some(|old(colls)|), |old(blocks)|,
                                          TopOf(old(stack), init).indent, true, "")]
    {
      var wrapper := PushIfLabel(id);
      TopOk(stack, init, |blocks|, |colls|);
      var t := TopOf(stack, init);
      var r := Jump(blocks[t.bb], wrapper, true);
      if r.Err? {
        return Some(r.error);
      }
      var n := |blocks|;
      var w := Frame(false, wrapper, Parallel, Some(|colls|), n, t.indent, true, "");
      blocks, registry := blocks[t.bb := r.value] + [NewBlock(wrapper)], registry[wrapper := n];
      stack, colls := stack + [w], colls + [[]];
      ChainStep(old(blocks), old(registry), old(stack), init, old(colls), w, r.value, blocks, registry, stack, colls);
      err := None;
    }

    /**
     * `if <cond>:` after `ensureNoParallel` (index.js:107-120): an if frame
     * for the chain is pushed (`OpenChain`) and its first arm, sharing its
     * collectible list, is opened on it.
     */
    method PushIf(id: string) returns (err: Option<Error>)
      requires Valid() && !TopOf(stack, init).active
      modifies this`blocks, this`registry, this`stack, this`colls
      ensures Valid()
      ensures err.Some? <==> old(blocks)[TopOf(old(stack), init).bb].name == PushIfLabel(id)
      ensures err.Some? ==> err.value == SelfJump(PushIfLabel(id))
      ensures err.None? ==> colls == old(colls) + [[]] && Pushed(old(State()), Some("if"), None, id, State())
    {
      err := OpenChain(id);
      if err.Some? {
        return;
      }
      var w := stack[|stack| - 1];
      ghost var b1, r1 := blocks, registry;
      assert |PushIfLabel(id)| != |PushLabel(id)|;
      err := Open(PushLabel(id), Plain, w.coll);
      if err.None? {
        ChainJoin(old(blocks), old(registry), TopOf(old(stack), init).bb, id, b1, r1, blocks, registry);
      }
    }

    /**
     * `else:` and `elif <cond>:` (index.js:121-128): a new arm sharing the
     * current frame's collectible list; `else` must sit in an if chain and
     * stops the chain from falling through.
     */
    method PushArm(cmd: Option<string>, arg: Option<string>, id: string) returns (err: Option<Error>)
      requires Valid() && !TopOf(stack, init).active && (cmd == Some("else") || cmd == Some("elif"))
      modifies this`blocks, this`registry, this`stack, this`init
      ensures Valid() && init == old(init)
      ensures cmd == Some("else") && TopOf(old(stack), old(init)).forking != Parallel ==>
        err == Some(MisplacedElse) && blocks == old(blocks) && registry == old(registry) && stack == old(stack)
      ensures !(cmd == Some("else") && TopOf(old(stack), old(init)).forking != Parallel) ==>
        (err.Some? <==> old(blocks)[TopOf(old(stack), old(init)).bb].name == PushLabel(id))
      ensures err == Some(MisplacedElse) <==> cmd == Some("else") && TopOf(old(stack), old(init)).forking != Parallel
      ensures err.Some? ==> err.value == MisplacedElse || err.value == SelfJump(PushLabel(id))
      ensures err.None? ==> Pushed(old(State()), cmd, arg, id, State())
    {
      TopOk(stack, init, |blocks|, |colls|);
      var f := TopOf(stack, init);
      if cmd == Some("elif") {
        err := Open(PushLabel(id), Plain, f.coll);
        if err.None? {
          ArmPushed(old(State()), cmd, arg, id, State());
        }
      } else if f.forking != Parallel {
        err := Some(MisplacedElse);
      } else {
        err := PushElse(arg, id);
      }
    }

    /** The `else` arm of an open if chain: the chain no longer falls through, then a plain frame opens. */
    method PushElse(arg: Option<string>, id: string) returns (err: Option<Error>)
      requires Valid() && !TopOf(stack, init).active && TopOf(stack, init).forking == Parallel
      modifies this`blocks, this`registry, this`stack, this`init
      ensures Valid() && init == old(init)
      ensures err.Some? <==> old(blocks)[TopOf(old(stack), old(init)).bb].name == PushLabel(id)
      ensures err.Some? ==> err.value == SelfJump(PushLabel(id))
      ensures err.None? ==> Pushed(old(State()), Some("else"), arg, id, State())
    {
      TopOk(stack, init, |blocks|, |colls|);
      var f := TopOf(stack, init);
      SetTop(f.(direct := false));
      assert TopOf(stack, init) == f.(direct := false);
      TopOk(stack, init, |blocks|, |colls|);
      err := Open(PushLabel(id), Plain, f.coll);
      if err.None? {
        ArmPushed(old(State()), Some("else"), arg, id, State());
      }
    }

    /**
     * Any other header after `ensureNoParallel` (index.js:130-132): a plain
     * frame; a choice of a menu shares the menu's collectible list.
     */
    method PushOther(cmd: Option<string>, id: string) returns (err: Option<Error>)
      requires Valid() && !TopOf(stack, init).active
      requires cmd !in {Some("label"), Some("menu"), Some("if"), Some("else"), Some("elif")}
      modifies this`blocks, this`registry, this`stack
      ensures Valid()
      ensures err.Some? <==> old(blocks)[TopOf(old(stack), init).bb].name == PushLabel(id)
      ensures err.Some? ==> err.value == SelfJump(PushLabel(id))
      ensures err.None? ==> Pushed(old(State()), cmd, None, id, State())
    {
      TopOk(stack, init, |blocks|, |colls|);
      err := Open(PushLabel(id), Plain, MenuColl(TopOf(stack, init)));
      if err.None? {
        OtherPushed(old(State()), cmd, id, State());
      }
    }

    /**
     * The choice of frame in `push` once no if chain is left open
     * (index.js:93-133): `label`, `menu` and `if` have their own frames, any
     * other header a plain one.
     */
    method OpenHeader(cmd: Option<string>, arg: Option<string>, id: string) returns (err: Option<Error>)
      requires Valid() && !TopOf(stack, init).active && cmd != Some("else") && cmd != Some("elif")
      modifies this`blocks, this`registry, this`stack, this`init, this`colls
      ensures Valid()
      ensures err.None? ==> TopOf(stack, init).active
      ensures err.None? && cmd != Some("label") ==> TopOf(stack, init).name == PushLabel(id)
      ensures cmd == Some("label") && arg.None? ==> err == Some(Undefined)
      ensures err.Some? ==>
        || (err.value == Undefined && cmd == Some("label") && arg.None?)
        || (err.value == NoScope && cmd == Some("label") && arg.Some? && StartsWith(StripParams(arg.value), "."))
        || err.value.SelfJump?
      ensures cmd != Some("label") ==>
        (err.Some? <==> old(blocks)[TopOf(old(stack), old(init)).bb].name == (if cmd == Some("if") then PushIfLabel(id) else PushLabel(id)))
      ensures err.Some? <==> OpenFails(old(State()), cmd, arg, id)
      ensures err.None? ==>
        HeaderFrom(cmd, id, old(blocks), old(registry), TopOf(old(stack), old(init)).bb, TopOf(stack, init).name, blocks, registry)
      ensures err.None? ==> Pushed(old(State()), cmd, arg, id, State())
    {
      if cmd == Some("label") {
        TopOk(stack, init, |blocks|, |colls|);
        err := PushNamed(arg);
      } else {
        err := PushUnnamed(cmd, id);
      }
      if err.None? {
        PushedOpens(old(State()), cmd, arg, id, State());
      }
    }

    /** A header other than `label`: `menu`, `if` or any other block, each under `#bb_<id>_push`. */
    method PushUnnamed(cmd: Option<string>, id: string) returns (err: Option<Error>)
      requires Valid() && !TopOf(stack, init).active && cmd !in {Some("label"), Some("else"), Some("elif")}
      modifies this`blocks, this`registry, this`stack, this`init, this`colls
      ensures Valid()
      ensures err.Some? ==> err.value.SelfJump?
      ensures err.Some? <==>
        old(blocks)[TopOf(old(stack), old(init)).bb].name == (if cmd == Some("if") then PushIfLabel(id) else PushLabel(id))
      ensures err.Some? <==> OpenFails(old(State()), cmd, None, id)
      ensures err.None? ==> Pushed(old(State()), cmd, None, id, State())
    {
      TopOk(stack, init, |blocks|, |colls|);
      if cmd == Some("menu") {
        err := PushMenu(id);
      } else if cmd == Some("if") {
        err := PushIf(id);
      } else {
        err := PushOther(cmd, id);
      }
    }

    /** `push({cmd, arg}, id)` (index.js:87-140): a header line opens a frame waiting for its body. */
    method Push(cmd: Option<string>, arg: Option<string>, id: string) returns (err: Option<Error>)
      requires Valid() && !TopOf(stack, init).active
      modifies this`blocks, this`registry, this`stack, this`init, this`colls
      ensures Valid()
      ensures err.None? ==> TopOf(stack, init).active
      ensures err.None? && cmd != Some("label") ==> TopOf(stack, init).name == PushLabel(id)
      ensures err == Some(MisplacedElse) <==> cmd == Some("else") && TopOf(old(stack), old(init)).forking != Parallel
      ensures cmd == Some("label") && arg.None? ==> err.Some?
      ensures err.Some? ==> err.value in {MisplacedElse, Undefined, NoScope} || err.value.SelfJump?
      ensures err == Some(Undefined) ==> cmd == Some("label") && arg.None?
      ensures err == Some(NoScope) ==> cmd == Some("label") && arg.Some? && StartsWith(StripParams(arg.value), ".")
      ensures (cmd == Some("else") || cmd == Some("elif")) && !(cmd == Some("else") && TopOf(old(stack), old(init)).forking != Parallel) ==>
        (err.Some? <==> old(blocks)[TopOf(old(stack), old(init)).bb].name == PushLabel(id))
      ensures (cmd == Some("else") || cmd == Some("elif")) && err.None? ==>
        OpenedFrom(old(blocks), old(registry), TopOf(old(stack), old(init)).bb, PushLabel(id), blocks, registry)
      ensures cmd == Some("else") || cmd == Some("elif") ==> (err.Some? <==> ArmFails(old(State()), cmd == Some("else"), id))
      ensures (cmd == Some("else") || cmd == Some("elif")) && err.None? ==> Pushed(old(State()), cmd, arg, id, State())
      ensures !(cmd == Some("else") || cmd == Some("elif") || cmd == Some("label")) && TopOf(old(stack), old(init)).forking != Parallel ==>
        (err.Some? <==> old(blocks)[TopOf(old(stack), old(init)).bb].name == (if cmd == Some("if") then PushIfLabel(id) else PushLabel(id)))
      ensures !(cmd == Some("else") || cmd == Some("elif")) && TopOf(old(stack), old(init)).forking != Parallel && err.None? ==>
        HeaderFrom(cmd, id, old(blocks), old(registry), TopOf(old(stack), old(init)).bb, TopOf(stack, init).name, blocks, registry)
      ensures !(cmd == Some("else") || cmd == Some("elif")) && TopOf(old(stack), old(init)).forking == Parallel && err.None? ==>
        exists b, r ::
          && JoinedFrom(old(blocks), old(registry), Ends(TopOf(old(stack), old(init)), old(colls)), PopLabel(id, "If"), b, r)
          && HeaderFrom(cmd, id, b, r, |old(blocks)|, TopOf(stack, init).name, blocks, registry)
      ensures !(cmd == Some("else") || cmd == Some("elif")) && IfClash(old(State()), id) ==>
        err == Some(SelfJump(PopLabel(id, "If")))
      ensures !(cmd == Some("else") || cmd == Some("elif")) && !IfClash(old(State()), id) ==>
        exists m :: && NoParallel(old(State()), id, m) && (err.Some? <==> OpenFails(m, cmd, arg, id))
                    && (err.None? ==> Pushed(m, cmd, arg, id, State()))
    {
      if cmd == Some("else") || cmd == Some("elif") {
        TopOk(stack, init, |blocks|, |colls|);
        err := PushArm(cmd, arg, id);
      } else {
        err := PushHeader(cmd, arg, id);
      }
    }

    /**
     * A header other than an arm (index.js:93-133): the open if chain is
     * closed by `ensureNoParallel`, then `OpenHeader` opens the frame.
     */
    method PushHeader(cmd: Option<string>, arg: Option<string>, id: string) returns (err: Option<Error>)
      requires Valid() && !TopOf(stack, init).active && cmd != Some("else") && cmd != Some("elif")
      modifies this`blocks, this`registry, this`stack, this`init, this`colls
      ensures Valid()
      ensures err.None? ==> TopOf(stack, init).active
      ensures err.None? && cmd != Some("label") ==> TopOf(stack, init).name == PushLabel(id)
      ensures cmd == Some("label") && arg.None? ==> err.Some?
      ensures err.Some? ==> err.value in {Undefined, NoScope} || err.value.SelfJump?
      ensures err == Some(Undefined) ==> cmd == Some("label") && arg.None?
      ensures err == Some(NoScope) ==> cmd == Some("label") && arg.Some? && StartsWith(StripParams(arg.value), ".")
      ensures cmd != Some("label") && TopOf(old(stack), old(init)).forking != Parallel ==>
        (err.Some? <==> old(blocks)[TopOf(old(stack), old(init)).bb].name == (if cmd == Some("if") then PushIfLabel(id) else PushLabel(id)))
      ensures TopOf(old(stack), old(init)).forking != Parallel && err.None? ==>
        HeaderFrom(cmd, id, old(blocks), old(registry), TopOf(old(stack), old(init)).bb, TopOf(stack, init).name, blocks, registry)
      ensures TopOf(old(stack), old(init)).forking == Parallel && err.None? ==>
        exists b, r ::
          && JoinedFrom(old(blocks), old(registry), Ends(TopOf(old(stack), old(init)), old(colls)), PopLabel(id, "If"), b, r)
          && HeaderFrom(cmd, id, b, r, |old(blocks)|, TopOf(stack, init).name, blocks, registry)
      ensures IfClash(old(State()), id) ==> err == Some(SelfJump(PopLabel(id, "If")))
      ensures !IfClash(old(State()), id) ==>
        exists m :: && NoParallel(old(State()), id, m) && (err.Some? <==> OpenFails(m, cmd, arg, id))
                    && (err.None? ==> Pushed(m, cmd, arg, id, State()))
    {
      err := EnsureNoParallel(id);
      if err.Some? {
        return;
      }
      ghost var b1, r1 := blocks, registry;
      ghost var m := State();
      err := OpenHeader(cmd, arg, id);
      assert NoParallel(old(State()), id, m) && (err.Some? <==> OpenFails(m, cmd, arg, id))
             && (err.None? ==> Pushed(m, cmd, arg, id, State()));
      if err.None? && TopOf(old(stack), old(init)).forking == Parallel {
        assert HeaderFrom(cmd, id, b1, r1, |old(blocks)|, TopOf(stack, init).name, blocks, registry);
      }
    }

    /**
     * A line that opens no frame (index.js:212-229), after `ensureNoParallel`:
     * `jump` adds an edge and stops the current block, `return` stops it, and
     * any other line goes to the text parser, whose record, if any, is said
     * in the current block.
     */
    method Act(shape: Shape, line: string) returns (err: Option<Error>)
      requires Valid() && !shape.Header?
      modifies this`blocks
      ensures Valid()
      ensures var x := TopOf(stack, init).bb;
        shape.JumpTo? && !StartsWith(shape.target, ".") ==>
          && (err.Some? <==> old(blocks)[x].name == shape.target)
          && (err.Some? ==> err.value == SelfJump(shape.target) && blocks == old(blocks))
          && (err.None? ==> blocks == old(blocks)[x := Jump(old(blocks)[x], shape.target, true).value])
      ensures var x := TopOf(stack, init).bb;
        shape.JumpTo? && StartsWith(shape.target, ".") ==>
          && (NoScopeIn(stack, init) <==> err == Some(NoScope))
          && (forall sc :: sc != "" && ScopeOf(stack, init, sc) ==> (err.Some? <==> old(blocks)[x].name == sc + shape.target))
          && (err.None? ==>
                exists sc :: (&& sc != "" && ScopeOf(stack, init, sc) && Jump(old(blocks)[x], sc + shape.target, true).Ok?
                              && blocks == old(blocks)[x := Jump(old(blocks)[x], sc + shape.target, true).value]))
      ensures var x := TopOf(stack, init).bb;
        shape.Finish? ==> err.None? && blocks == old(blocks)[x := End(old(blocks)[x], shape.dead)]
      ensures var x := TopOf(stack, init).bb;
        shape.Other? ==>
          && err.None?
          && blocks == if parser(line).Some? then old(blocks)[x := Say(old(blocks)[x], parser(line).value)] else old(blocks)
      ensures shape.JumpTo? || shape.Finish? ==> err.None? ==> CurrentDisabled()
      ensures shape.Other? && parser(line).Some? ==> CurrentSays(parser(line).value)
      ensures err.Some? ==>
        shape.JumpTo? && ((err.value == NoScope && StartsWith(shape.target, ".")) || err.value.SelfJump?)
      ensures Acted(old(State()), shape, parser(line), err, State())
    {
      TopOk(stack, init, |blocks|, |colls|);
      var x := TopOf(stack, init).bb;
      match shape
      case JumpTo(lbl) =>
        err := ActJump(lbl);
      case Finish(dead) =>
        Update(x, End(blocks[x], dead));
        err := None;
      case Other =>
        var r := parser(line);
        if r.Some? {
          Update(x, Say(blocks[x], r.value));
        }
        err := None;
    }

    /**
     * `jump <lbl>` (index.js:214-219): a leading dot appends the label to
     * the scope `scope()` finds; the current block gets the edge and stops.
     */
    method ActJump(lbl: string) returns (err: Option<Error>)
      requires Valid()
      modifies this`blocks
      ensures Valid()
      ensures var x := TopOf(stack, init).bb;
        !StartsWith(lbl, ".") ==>
          && (err.Some? <==> old(blocks)[x].name == lbl)
          && (err.Some? ==> err.value == SelfJump(lbl) && blocks == old(blocks))
          && (err.None? ==> blocks == old(blocks)[x := Jump(old(blocks)[x], lbl, true).value])
      ensures var x := TopOf(stack, init).bb;
        StartsWith(lbl, ".") ==>
          && (NoScopeIn(stack, init) <==> err == Some(NoScope))
          && (forall sc :: sc != "" && ScopeOf(stack, init, sc) ==> (err.Some? <==> old(blocks)[x].name == sc + lbl))
          && (err.None? ==>
                exists sc :: (&& sc != "" && ScopeOf(stack, init, sc) && Jump(old(blocks)[x], sc + lbl, true).Ok?
                              && blocks == old(blocks)[x := Jump(old(blocks)[x], sc + lbl, true).value]))
      ensures err.None? ==> CurrentDisabled()
      ensures err.Some? ==> (err.value == NoScope && StartsWith(lbl, ".")) || err.value.SelfJump?
      ensures Acted(old(State()), JumpTo(lbl), None, err, State())
    {
      TopOk(stack, init, |blocks|, |colls|);
      var x := TopOf(stack, init).bb;
      var target := lbl;
      if StartsWith(lbl, ".") {
        var sc := Scope();
        if sc.Err? {
          return Some(sc.error);
        }
        forall s | s != "" && ScopeOf(stack, init, s) ensures s == sc.value {
          ScopeOfUnique(stack, init, s, sc.value);
        }
        target := sc.value + lbl;
      }
      err := JumpFrom(x, target, true);
      JumpActed(old(State()), lbl, target, err, State());
    }

    /**
     * The first line of the waiting innermost frame (index.js:182-198): it
     * must extend the indentation of the frame below; if it is indented it
     * settles the frame at its whole leading whitespace, which it then
     * loses, otherwise the frame is closed by `pop(id, 0)`.
     */
    method FirstLine(line: string, id: nat) returns (err: Option<Error>, rest: string)
      requires Valid() && stack != [] && TopOf(stack, init).active
      modifies this`blocks, this`registry, this`stack, this`init, this`colls
      ensures Valid()
      ensures !StartsWith(line, TopOf(old(stack)[..|old(stack)| - 1], old(init)).indent) ==>
        err == Some(WrongIndent(id)) && blocks == old(blocks) && stack == old(stack) && init == old(init)
      ensures err == Some(WrongIndent(id)) ==>
        && !StartsWith(line, TopOf(old(stack)[..|old(stack)| - 1], old(init)).indent)
        && registry == old(registry) && colls == old(colls)
      ensures err.Some? ==> err.value == WrongIndent(id) || err.value == SelfJump(PopLabel(NatToString(id), "0"))
      ensures err.None? ==> !TopOf(stack, init).active && rest == line[|LeadingSpace(line)|..]
      ensures err.None? && LeadingSpace(line) != "" ==>
        && stack == old(stack)[|old(stack)| - 1 := old(stack)[|old(stack)| - 1].(active := false, indent := LeadingSpace(line))]
        && blocks == old(blocks) && registry == old(registry) && init == old(init) && colls == old(colls)
      ensures err.None? && LeadingSpace(line) == "" ==>
        Popped(old(blocks), old(registry), old(stack), old(init), old(colls), PopLabel(NatToString(id), "0"),
               blocks, registry, stack, init, colls)
      ensures StartsWith(line, TopOf(old(stack)[..|old(stack)| - 1], old(init)).indent) && LeadingSpace(line) != "" ==>
        err.None?
      ensures StartsWith(line, TopOf(old(stack)[..|old(stack)| - 1], old(init)).indent) && LeadingSpace(line) == "" ==>
        (err.Some? <==> Clashes(old(blocks), TopOf(old(stack), old(init)), old(colls), PopLabel(NatToString(id), "0")))
    {
      var parent := TopOf(stack[..|stack| - 1], init).indent;
      if !StartsWith(line, parent) {
        return Some(WrongIndent(id)), line;
      }
      var m := LeadingSpace(line);
      rest := line[|m|..];
      if m != "" {
        FramesDrop(stack, init, |blocks|, |colls|);
        TopOk(stack[..|stack| - 1], init, |blocks|, |colls|);
        LeadingSpaceExtends(line, parent);
        Settle(m);
        err := None;
      } else {
        err := Pop(NatToString(id), "0");
      }
    }

    /** One turn of the dedent loop: `pop(id, n)` on a frame whose indentation the line does not extend. */
    method DedentPop(ghost s0: Snapshot, line: string, id: string, n: nat) returns (err: Option<Error>)
      requires Valid() && stack != [] && !StartsWith(line, TopOf(stack, init).indent)
      requires Dedenting(s0, line, id, State()) && n == |s0.stack| - |stack|
      modifies this`blocks, this`registry, this`stack, this`init, this`colls
      ensures Valid()
      ensures err.Some? <==> Clashes(old(blocks), TopOf(old(stack), old(init)), old(colls), PopLabel(id, NatToString(n)))
      ensures err.Some? ==> err.value == SelfJump(PopLabel(id, NatToString(n))) && DedentClash(s0, line, id, err.value)
      ensures err.None? ==> !TopOf(stack, init).active && Dedenting(s0, line, id, State()) && n + 1 == |s0.stack| - |stack|
    {
      ghost var m := State();
      err := Pop(id, NatToString(n));
      if err.None? {
        DedentingStep(s0, line, id, n, m, State());
      } else {
        OutdentedTop(s0.stack, line, m.stack);
        DedentClashAt(s0, line, id, n, m, err.value);
      }
    }

    /**
     * Any later line (index.js:199-206): the frames whose indentation the
     * line does not extend are closed, innermost first, by
     * `pop(id, 0)`, `pop(id, 1)`, ...; the line then loses the indentation
     * of the innermost frame left.
     */
    method Dedent(line: string, id: nat) returns (err: Option<Error>, rest: string)
      requires Valid() && !TopOf(stack, init).active
      modifies this`blocks, this`registry, this`stack, this`init, this`colls
      ensures Valid()
      ensures err.Some? ==> DedentClash(old(State()), line, NatToString(id), err.value)
      ensures forall e :: DedentClash(old(State()), line, NatToString(id), e) ==> err == Some(e)
      ensures err.None? ==>
        && !TopOf(stack, init).active && |stack| == Surviving(old(stack), line)
        && rest == Dedented(old(stack), line)
      ensures err.None? ==> Dedenting(old(State()), line, NatToString(id), State())
    {
      err := DedentLoop(old(State()), line, NatToString(id));
      forall e | DedentClash(old(State()), line, NatToString(id), e) ensures err == Some(e) {
        if err.Some? {
          DedentClashUnique(old(State()), line, NatToString(id), err.value, e);
        } else {
          DedentClashAhead(old(State()), line, NatToString(id), e, State());
          assert false;
        }
      }
      if err.Some? {
        return err, line;
      }
      DedentingDone(old(State()), line, State());
      rest := if stack == [] then line else line[|TopOf(stack, init).indent|..];
    }

    /** The dedent loop itself (index.js:200-201), from `s0`. */
    method DedentLoop(ghost s0: Snapshot, line: string, id: string) returns (err: Option<Error>)
      requires Valid() && !TopOf(stack, init).active && s0 == State()
      modifies this`blocks, this`registry, this`stack, this`init, this`colls
      ensures Valid()
      ensures err.Some? ==> DedentClash(s0, line, id, err.value)
      ensures err.None? ==>
        && !TopOf(stack, init).active && Dedenting(s0, line, id, State())
        && (stack == [] || StartsWith(line, TopOf(stack, init).indent))
    {
      DedentingStart(s0, line, id);
      var it := 0;
      while stack != [] && !StartsWith(line, TopOf(stack, init).indent)
        invariant Valid() && !TopOf(stack, init).active
        invariant Dedenting(s0, line, id, State()) && it == |s0.stack| - |stack|
        decreases |stack|
      {
        err := DedentPop(s0, line, id, it);
        if err.Some? {
          return;
        }
        it := it + 1;
      }
      err := None;
    }

    /**
     * The indentation handling of `parseLine` for a line that is not blank
     * (index.js:179-206): with no frame open the line must start solid; the
     * first line of a waiting frame goes through `FirstLine`, any other
     * through `Dedent` and must then start solid. `line` is what is left
     * for the header, jump and return patterns.
     */
    method Indentation(line0: string, id: nat) returns (err: Option<Error>, line: string)
      requires Valid()
      modifies this`blocks, this`registry, this`stack, this`init, this`colls
      ensures Valid()
      ensures old(stack) == [] && !StartsSolid(line0) ==>
        err == Some(WrongIndent(id)) && blocks == old(blocks) && stack == old(stack) && init == old(init)
      ensures (&& old(stack) != [] && TopOf(old(stack), old(init)).active
               && !StartsWith(line0, TopOf(old(stack)[..|old(stack)| - 1], old(init)).indent))
              ==> err == Some(WrongIndent(id)) && blocks == old(blocks) && stack == old(stack) && init == old(init)
      ensures old(stack) != [] && !TopOf(old(stack), old(init)).active && !StartsSolid(Dedented(old(stack), line0)) ==>
        err.Some? && (err.value == WrongIndent(id) || err.value.SelfJump?)
      ensures err == Some(WrongIndent(id)) ==> Misindented(old(stack), old(init), line0)
      ensures err == Some(WrongIndent(id)) ==>
        if old(stack) != [] && !TopOf(old(stack), old(init)).active
        then Indented(old(State()), line0, NatToString(id), State())
        else State() == old(State())
      ensures err.Some? ==> err.value == WrongIndent(id) || err.value.SelfJump?
      ensures err.Some? && err.value.SelfJump? ==> IndentClash(old(State()), line0, NatToString(id), err.value)
      ensures forall e :: IndentClash(old(State()), line0, NatToString(id), e) ==> err == Some(e)
      ensures err.None? ==>
        && !TopOf(stack, init).active && line == Body(old(stack), TopOf(old(stack), old(init)).active, line0)
        && Indented(old(State()), line0, NatToString(id), State())
    {
      line := line0;
      if stack == [] {
        err := if StartsSolid(line) then None else Some(WrongIndent(id));
      } else if TopOf(stack, init).active {
        err, line := FirstLine(line0, id);
      } else {
        ghost var s0 := State();
        err, line := Dedent(line0, id);
        if err.None? {
          DedentIndented(s0, line0, NatToString(id), State());
        }
        if err.None? && !StartsSolid(line) {
          err := Some(WrongIndent(id));
        }
      }
    }

    /**
     * The part of `parseLine` after the indentation (index.js:207-229): a
     * header opens a frame; anything else is a statement, made after
     * `ensureNoParallel`.
     */
    method ParseBody(line: string, id: nat) returns (err: Option<Error>)
      requires Valid() && !TopOf(stack, init).active
      modifies this`blocks, this`registry, this`stack, this`init, this`colls
      ensures Valid()
      ensures err.Some? ==> !err.value.WrongIndent?
      ensures err == Some(MisplacedElse) ==> shapeOf(line).Header? && shapeOf(line).cmd == Some("else")
      ensures err == Some(Undefined) ==> shapeOf(line) == Header(Some("label"), None)
      ensures var shape := shapeOf(line);
        err == Some(NoScope) ==>
          || (shape.Header? && shape.cmd == Some("label") && shape.arg.Some? && StartsWith(StripParams(shape.arg.value), "."))
          || (shape.JumpTo? && StartsWith(shape.target, "."))
      ensures err.None? ==> (TopOf(stack, init).active <==> shapeOf(line).Header?)
      ensures err.None? && shapeOf(line).Header? && shapeOf(line).cmd != Some("label") ==>
        TopOf(stack, init).name == PushLabel(NatToString(id))
      ensures err.None? && (shapeOf(line).JumpTo? || shapeOf(line).Finish?) ==> CurrentDisabled()
      ensures err.None? && shapeOf(line).Other? && parser(line).Some? ==> CurrentSays(parser(line).value)
      ensures BodyOutcome(old(State()), shapeOf(line), NatToString(id), err.Some?)
      ensures err.None? ==> BodyDone(old(State()), shapeOf(line), parser(line), NatToString(id), State())
    {
      var shape := shapeOf(line);
      if shape.Header? {
        err := Push(shape.cmd, shape.arg, NatToString(id));
      } else {
        err := Statement(shape, line, id);
        if !IfClash(old(State()), NatToString(id)) {
          var m :| NoParallel(old(State()), NatToString(id), m) && Acted(m, shape, parser(line), err, State());
          ActedFails(m, shape, parser(line), err, State());
        }
      }
    }

    /** A line that opens no frame (index.js:211-229): `ensureNoParallel`, then `Act`. */
    method Statement(shape: Shape, line: string, id: nat) returns (err: Option<Error>)
      requires Valid() && !TopOf(stack, init).active && !shape.Header?
      modifies this`blocks, this`registry, this`stack, this`init
      ensures Valid()
      ensures err.Some? ==>
        (err.value == NoScope && shape.JumpTo? && StartsWith(shape.target, ".")) || err.value.SelfJump?
      ensures err.None? ==> !TopOf(stack, init).active
      ensures err.None? && (shape.JumpTo? || shape.Finish?) ==> CurrentDisabled()
      ensures err.None? && shape.Other? && parser(line).Some? ==> CurrentSays(parser(line).value)
      ensures IfClash(old(State()), NatToString(id)) ==> err == Some(SelfJump(PopLabel(NatToString(id), "If")))
      ensures !IfClash(old(State()), NatToString(id)) ==>
        exists m :: NoParallel(old(State()), NatToString(id), m) && Acted(m, shape, parser(line), err, State())
    {
      err := EnsureNoParallel(NatToString(id));
      if err.None? {
        ghost var m := State();
        err := Act(shape, line);
        assert NoParallel(old(State()), NatToString(id), m) && Acted(m, shape, parser(line), err, State());
      }
    }

    /**
     * `parseLine(line0, id)` (index.js:175-231): a blank line does nothing;
     * otherwise `Indentation` checks and strips the indentation and
     * `ParseBody` handles the rest.
     */
    method ParseLine(line0: string, id: nat) returns (err: Option<Error>)
      requires Valid()
      modifies this`blocks, this`registry, this`stack, this`init, this`colls
      ensures Valid()
      ensures AllSpace(line0) ==>
        && err.None? && blocks == old(blocks) && registry == old(registry) && stack == old(stack)
        && init == old(init) && colls == old(colls)
      ensures !AllSpace(line0) && old(stack) == [] && !StartsSolid(line0) ==>
        err == Some(WrongIndent(id)) && blocks == old(blocks) && stack == old(stack) && init == old(init)
      ensures (&& !AllSpace(line0) && old(stack) != [] && TopOf(old(stack), old(init)).active
               && !StartsWith(line0, TopOf(old(stack)[..|old(stack)| - 1], old(init)).indent))
              ==> err == Some(WrongIndent(id)) && blocks == old(blocks) && stack == old(stack) && init == old(init)
      ensures (&& !AllSpace(line0) && old(stack) != [] && !TopOf(old(stack), old(init)).active
               && !StartsSolid(Dedented(old(stack), line0)))
              ==> err.Some? && (err.value == WrongIndent(id) || err.value.SelfJump?)
      ensures err == Some(WrongIndent(id)) ==> !AllSpace(line0) && Misindented(old(stack), old(init), line0)
      ensures var shape := shapeOf(Body(old(stack), TopOf(old(stack), old(init)).active, line0));
        err == Some(MisplacedElse) ==> shape.Header? && shape.cmd == Some("else")
      ensures var shape := shapeOf(Body(old(stack), TopOf(old(stack), old(init)).active, line0));
        err == Some(Undefined) ==> shape == Header(Some("label"), None)
      ensures var shape := shapeOf(Body(old(stack), TopOf(old(stack), old(init)).active, line0));
        err == Some(NoScope) ==>
          || (shape.Header? && shape.cmd == Some("label") && shape.arg.Some? && StartsWith(StripParams(shape.arg.value), "."))
          || (shape.JumpTo? && StartsWith(shape.target, "."))
      ensures err.None? && !AllSpace(line0) ==>
        (TopOf(stack, init).active <==> shapeOf(Body(old(stack), TopOf(old(stack), old(init)).active, line0)).Header?)
      ensures var shape := shapeOf(Body(old(stack), TopOf(old(stack), old(init)).active, line0));
        err.None? && !AllSpace(line0) && shape.Header? && shape.cmd != Some("label") ==>
          TopOf(stack, init).name == PushLabel(NatToString(id))
      ensures var shape := shapeOf(Body(old(stack), TopOf(old(stack), old(init)).active, line0));
        err.None? && !AllSpace(line0) && (shape.JumpTo? || shape.Finish?) ==> CurrentDisabled()
      ensures var body := Body(old(stack), TopOf(old(stack), old(init)).active, line0);
        err.None? && !AllSpace(line0) && shapeOf(body).Other? && parser(body).Some? ==> CurrentSays(parser(body).value)
      ensures !AllSpace(line0) ==> forall e :: IndentClash(old(State()), line0, NatToString(id), e) ==> err == Some(e)
      ensures !AllSpace(line0) && err.Some? && err.value.SelfJump? ==>
        || IndentClash(old(State()), line0, NatToString(id), err.value)
        || exists m :: && Indented(old(State()), line0, NatToString(id), m)
                       && BodyOutcome(m, shapeOf(Body(old(stack), TopOf(old(stack), old(init)).active, line0)), NatToString(id), true)
      ensures !AllSpace(line0) && err.None? ==>
        exists m :: && Indented(old(State()), line0, NatToString(id), m)
                    && BodyOutcome(m, shapeOf(Body(old(stack), TopOf(old(stack), old(init)).active, line0)), NatToString(id), false)
                    && var body := Body(old(stack), TopOf(old(stack), old(init)).active, line0);
                       BodyDone(m, shapeOf(body), parser(body), NatToString(id), State())
    {
      if AllSpace(line0) {
        return None;
      }
      var line;
      err, line := Indentation(line0, id);
      if err.Some? {
        return;
      }
      ghost var m := State();
      err := ParseBody(line, id);
      assert Indented(old(State()), line0, NatToString(id), m) && BodyOutcome(m, shapeOf(line), NatToString(id), err.Some?)
             && (err.None? ==> BodyDone(m, shapeOf(line), parser(line), NatToString(id), State()));
    }

    /**
     * `optimize()` (index.js:251-341): an if chain still open is closed
     * under `#bb_Inf_popIf`, then the merged graph replaces the builder's and
     * every block reachable from the entry carries its aggregate as total.
     */
    method Optimize(fuel: nat) returns (err: Option<Error>)
      requires Valid()
      modifies this`blocks, this`registry, this`stack, this`init, this`incoming, this`totals
      ensures Valid()
      ensures err.None? ==> Exact(blocks, registry, incoming)
      ensures err.None? ==> forall u: nat :: Reachable(blocks, registry, u) ==>
                Resolved(blocks, registry, u) && u in totals && aggregator(blocks[u].text) == Total(totals[u])
      ensures IfClash(old(State()), "Inf") ==> err == Some(SelfJump(PopLabel("Inf", "If")))
      ensures !IfClash(old(State()), "Inf") ==>
        exists m :: && NoParallel(old(State()), "Inf", m)
                    && stack == m.stack && init == m.init && colls == m.colls
                    && (err.None? ==> |blocks| == |m.blocks| && "" in registry)
                    && (err.Some? ==> PassError(m.blocks, m.reg, err.value))
    {
      err := EnsureNoParallel("Inf");
      if err.Some? {
        return;
      }
      ghost var m := State();
      err := Rebuild(fuel);
      assert NoParallel(old(State()), "Inf", m);
    }

    /**
     * The passes of `optimize()` after the open if chain is closed
     * (index.js:253-340): the merged graph replaces the builder's, with the
     * incoming labels and the totals of the reachable blocks.
     */
    method Rebuild(fuel: nat) returns (err: Option<Error>)
      requires Valid()
      modifies this`blocks, this`registry, this`incoming, this`totals
      ensures Valid()
      ensures err.None? ==> |blocks| == |old(blocks)| && "" in registry
      ensures err.Some? ==> PassError(old(blocks), old(registry), err.value)
      ensures err.None? ==> Exact(blocks, registry, incoming)
      ensures err.None? ==> forall u: nat :: Reachable(blocks, registry, u) ==>
                Resolved(blocks, registry, u) && u in totals && aggregator(blocks[u].text) == Total(totals[u])
    {
      var r := Passes(blocks, registry, incoming, totals, aggregator, fuel);
      if r.Err? {
        return Some(r.error);
      }
      FramesGrow(stack, init, |blocks|, |colls|, |r.value.blocks|, |colls|);
      blocks, registry, incoming, totals := r.value.blocks, r.value.reg, r.value.inc, r.value.totals;
      err := None;
    }

    /**
     * `analyze()` (index.js:467-469): the totals of the cheapest and of the
     * dearest playthrough. The minimum is the total of some walk from the
     * entry to a terminal block and no such walk is cheaper, so it is
     * infinite exactly when there is none; the maximum bounds every such walk
     * that repeats no block, so it is never below the minimum.
     */
    method Analyze(fuel: nat) returns (r: Result<(Extended, Extended)>, ghost cd: MaxPath.Condensation)
      requires Valid()
      ensures r.Ok? ==> "" in registry && MaxPath.Condensed(blocks, registry, totals, cd) && registry[""] in cd.comp
      ensures r.Ok? && r.value.1.Fin? ==>
                exists w :: MaxPath.Ending(cd.sccs, cd.comp[registry[""]], w) && MaxPath.CompCost(cd.sccs, w) == r.value.1.n
      ensures r.Ok? ==> forall w :: MaxPath.Ending(cd.sccs, cd.comp[registry[""]], w) ==>
                r.value.1.Fin? && MaxPath.CompCost(cd.sccs, w) <= r.value.1.n
      ensures r.Ok? ==> r.value.0 != NegInf && r.value.1 != PosInf
      ensures r.Ok? && r.value.0.Fin? ==>
                exists p :: Rooted(blocks, registry, p) && Terminal(blocks[p[|p| - 1]]) && WalkCost(totals, p) == r.value.0.n
      ensures r.Ok? ==> forall p :: Rooted(blocks, registry, p) && Terminal(blocks[p[|p| - 1]]) ==>
                r.value.0.Fin? && r.value.0.n <= WalkCost(totals, p)
      ensures r.Ok? ==> forall p: seq<nat> :: Rooted(blocks, registry, p) && Distinct(p) && Terminal(blocks[p[|p| - 1]]) ==>
                r.value.1.Fin? && WalkCost(totals, p) <= r.value.1.n
      ensures r.Ok? && r.value.0.Fin? ==> r.value.1.Fin? && r.value.0.n <= r.value.1.n
      ensures r.Err? ==>
        || (exists v :: Reachable(blocks, registry, v) && (v !in totals || !Resolved(blocks, registry, v)))
        || (&& (forall v :: Reachable(blocks, registry, v) ==> v in totals && Resolved(blocks, registry, v))
            && (|| MaxPath.CondenseFailure(blocks, registry, incoming, totals, r.error)
                || r.error == OutOfFuel
                || (&& r.error == Undefined && "" in registry && registry[""] in cd.comp
                    && exists w :: && MaxPath.CompWalk(cd.sccs, w) && w[0] == cd.comp[registry[""]]
                                   && MaxPath.Stray in cd.sccs[w[|w| - 1]].next)))
    {
      var lo := MinPath.Spfa(blocks, registry, totals);
      if lo.Err? {
        r, cd := Err(lo.error), MaxPath.Condensation(map[], []);
        return;
      }
      var hi;
      hi, cd := MaxSearch.Kosaraju(blocks, registry, incoming, totals, fuel);
      if hi.Err? {
        r := Err(hi.error);
        return;
      }
      if lo.value.Fin? {
        MinAtMostMax(blocks, registry, totals, lo.value.n, hi.value);
      }
      r := Ok((lo.value, hi.value));
    }
  }
}

=== FILE: maxpath.dfy ===
/**
 * The maximum solver `kosaraju` (index.js:380-465): Kosaraju's two
 * depth-first passes split the blocks reachable from the entry into
 * components, each component gets the summed totals of its members and the
 * set of components it leads to, and a label-correcting search over the
 * components finds the largest summed total of a component walk that can end
 * a playthrough. Visited marks and component links live in method-local sets
 * and maps instead of the fields `kosaraju_seen`, `kosaraju_scc`.
 */
module MaxPath {
  import opened Common
  import opened Blocks
  import opened Cfg

  /** All successor labels of `x` are registered and their blocks are already seen. */
  ghost predicate Closed(blocks: seq<Block>, reg: map<string, nat>, seen: set<nat>, x: nat)
  {
    Resolved(blocks, reg, x) && forall i :: 0 <= i < |blocks[x].next| ==> reg[blocks[x].next[i]] in seen
  }

  /** Every block on the postorder is seen and closed. */
  ghost predicate Finished(blocks: seq<Block>, reg: map<string, nat>, seen: set<nat>, post: seq<nat>)
  {
    forall k :: 0 <= k < |post| ==> post[k] in seen && Closed(blocks, reg, seen, post[k])
  }

  ghost predicate AllReachable(blocks: seq<Block>, reg: map<string, nat>, seen: set<nat>)
  {
    forall x :: x in seen ==> x < |blocks| && Reachable(blocks, reg, x)
  }

  lemma FinishedGrows(blocks: seq<Block>, reg: map<string, nat>, seen: set<nat>, seen': set<nat>, post: seq<nat>)
    requires Finished(blocks, reg, seen, post) && seen <= seen'
    ensures Finished(blocks, reg, seen', post)
  {
    forall k | 0 <= k < |post| ensures post[k] in seen' && Closed(blocks, reg, seen', post[k]) {
      assert Closed(blocks, reg, seen, post[k]);
    }
  }

  /** The state of the successor loop of `dfs1` on `u` after its first `i` labels. */
  ghost predicate Dfs1Inv(blocks: seq<Block>, reg: map<string, nat>, u: nat, seen: set<nat>, post: seq<nat>,
                          seen': set<nat>, post': seq<nat>, i: nat)
  {
    && u < |blocks| && i <= |blocks[u].next|
    && seen <= seen' && u in seen' && AllReachable(blocks, reg, seen')
    && |post| <= |post'| && post'[..|post|] == post
    && Finished(blocks, reg, seen', post')
    && (forall x :: x in seen' && x !in seen && x != u ==> x in post')
    && (forall j :: 0 <= j < i ==> blocks[u].next[j] in reg && reg[blocks[u].next[j]] in seen')
  }

  /**
   * `dfs1`: marks every block reachable from `u` that is not seen yet and
   * appends each to the postorder once all its successors are finished;
   * reports the first unregistered label it meets.
   */
  method Dfs1(blocks: seq<Block>, reg: map<string, nat>, u: nat, seen: set<nat>, post: seq<nat>)
    returns (missing: Option<string>, seen': set<nat>, post': seq<nat>)
    requires WellFormed(blocks, reg) && u < |blocks| && Reachable(blocks, reg, u)
    requires AllReachable(blocks, reg, seen) && Finished(blocks, reg, seen, post)
    ensures seen <= seen' && AllReachable(blocks, reg, seen')
    ensures |post| <= |post'| && post'[..|post|] == post
    ensures missing.None? ==> u in seen' && Finished(blocks, reg, seen', post')
    ensures missing.None? ==> forall x :: x in seen' && x !in seen ==> x in post'
    ensures missing.Some? ==>
      exists x: nat :: Reachable(blocks, reg, x) && x < |blocks| && missing.value in blocks[x].next && missing.value !in reg
    decreases Below(|blocks|) - seen
  {
    if u in seen {
      return None, seen, post;
    }
    seen', post' := seen + {u}, post;
    FinishedGrows(blocks, reg, seen, seen', post);
    var i := 0;
    while i < |blocks[u].next|
      invariant Dfs1Inv(blocks, reg, u, seen, post, seen', post', i)
    {
      var l := blocks[u].next[i];
      if l !in reg {
        return Some(l), seen', post';
      }
      assert EdgeAt(blocks, reg, u, i, reg[l]);
      ReachableStep(blocks, reg, u, i, reg[l]);
      ghost var seen1, post1 := seen', post';
      missing, seen', post' := Dfs1(blocks, reg, reg[l], seen', post');
      if missing.Some? {
        return;
      }
      assert post'[..|post|] == post1[..|post|];
      i := i + 1;
    }
    assert Closed(blocks, reg, seen', u);
    post' := post' + [u];
    assert post'[..|post|] == post;
    missing := None;
  }
  /** `comp'` keeps every assignment of `comp`. */
  ghost predicate Extends(comp: map<nat, nat>, comp': map<nat, nat>)
  {
    forall x :: x in comp ==> x in comp' && comp'[x] == comp[x]
  }

  /** `members` lists, without repetition, blocks that `comp` assigns to component `c`. */
  ghost predicate Gathers(comp: map<nat, nat>, c: nat, members: seq<nat>)
  {
    Distinct(members) && forall k :: 0 <= k < |members| ==> members[k] in comp && comp[members[k]] == c
  }

  ghost predicate KeysIn(comp: map<nat, nat>, n: nat)
  {
    forall x :: x in comp ==> x < n
  }

  /** Why a walk over the `incoming` labels throws. */
  ghost predicate PrevFailure(blocks: seq<Block>, reg: map<string, nat>, incoming: map<nat, seq<string>>, e: Error)
  {
    || (e.MissingLabel? && e.name !in reg && exists x :: x in incoming && e.name in incoming[x])
    || (e == Undefined && exists x: nat :: x < |blocks| && x !in incoming)
  }

  /** The state of the predecessor loop of `dfs2` on `v` after its first `i` labels. */
  ghost predicate Dfs2Inv(blocks: seq<Block>, comp: map<nat, nat>, c: nat, members: seq<nat>,
                          comp': map<nat, nat>, members': seq<nat>)
  {
    && Extends(comp, comp') && KeysIn(comp', |blocks|)
    && |members| <= |members'| && members'[..|members|] == members && Gathers(comp', c, members')
    && (forall k :: |members| <= k < |members'| ==> members'[k] !in comp)
    && (forall x :: x in comp' && x !in comp ==> comp'[x] == c && x in members')
  }

  lemma Dfs2InvTrans(blocks: seq<Block>, comp: map<nat, nat>, c: nat, members: seq<nat>,
                     comp1: map<nat, nat>, members1: seq<nat>, comp2: map<nat, nat>, members2: seq<nat>)
    requires Dfs2Inv(blocks, comp, c, members, comp1, members1) && Dfs2Inv(blocks, comp1, c, members1, comp2, members2)
    ensures Dfs2Inv(blocks, comp, c, members, comp2, members2)
  {
    assert members2[..|members|] == members1[..|members|];
    forall k | |members| <= k < |members2| ensures members2[k] !in comp {
      if k < |members1| { assert members2[k] == members1[k]; }
    }
  }

  /**
   * Every block that `comp'` assigns beyond `comp` has its `incoming` labels
   * registered, and the blocks they name are assigned too.
   */
  ghost predicate BackClosed(reg: map<string, nat>, incoming: map<nat, seq<string>>,
                             comp: map<nat, nat>, comp': map<nat, nat>)
  {
    forall x :: x in comp' && x !in comp ==>
      x in incoming && forall j :: 0 <= j < |incoming[x]| ==> incoming[x][j] in reg && reg[incoming[x][j]] in comp'
  }

  lemma BackClosedTrans(reg: map<string, nat>, incoming: map<nat, seq<string>>,
                        comp: map<nat, nat>, comp1: map<nat, nat>, comp2: map<nat, nat>)
    requires BackClosed(reg, incoming, comp, comp1) && BackClosed(reg, incoming, comp1, comp2)
    requires comp.Keys <= comp1.Keys <= comp2.Keys
    ensures BackClosed(reg, incoming, comp, comp2)
  {
  }

  /**
   * `dfs2`: assigns component `c` to `v` and, following the `incoming`
   * labels backwards, to every block it meets that has no component yet,
   * appending each to the member list.
   */
  method Dfs2(blocks: seq<Block>, reg: map<string, nat>, incoming: map<nat, seq<string>>, v: nat, c: nat,
              comp: map<nat, nat>, members: seq<nat>)
    returns (err: Option<Error>, comp': map<nat, nat>, members': seq<nat>)
    requires WellFormed(blocks, reg) && v < |blocks| && KeysIn(comp, |blocks|) && Gathers(comp, c, members)
    ensures Dfs2Inv(blocks, comp, c, members, comp', members')
    ensures err.None? ==> v in comp' && BackClosed(reg, incoming, comp, comp')
    ensures err.Some? ==> PrevFailure(blocks, reg, incoming, err.value)
    decreases Below(|blocks|) - comp.Keys
  {
    if v in comp {
      assert members[..|members|] == members;
      return None, comp, members;
    }
    comp', members' := comp[v := c], members + [v];
    assert members'[..|members|] == members;
    if v !in incoming {
      return Some(Undefined), comp', members';
    }
    var ins := incoming[v];
    for i := 0 to |ins|
      invariant Dfs2Inv(blocks, comp, c, members, comp', members')
      invariant Backing(reg, incoming, v, c, comp, comp', ins, i)
    {
      if ins[i] !in reg {
        return Some(MissingLabel(ins[i])), comp', members';
      }
      ghost var comp1, members1 := comp', members';
      err, comp', members' := Dfs2(blocks, reg, incoming, reg[ins[i]], c, comp', members');
      Dfs2InvTrans(blocks, comp, c, members, comp1, members1, comp', members');
      if err.Some? {
        return;
      }
      BackingStep(reg, incoming, v, c, comp, comp1, comp', ins, i);
    }
    BackingDone(reg, incoming, v, c, comp, comp');
    err := None;
  }
  /**
   * The state of the loop over the `incoming` labels of `v` in `Dfs2`: the
   * first `i` of them name assigned blocks.
   */
  ghost predicate Backing(reg: map<string, nat>, incoming: map<nat, seq<string>>, v: nat, c: nat,
                          comp: map<nat, nat>, comp': map<nat, nat>, ins: seq<string>, i: nat)
  {
    && i <= |ins| && (comp[v := c]).Keys <= comp'.Keys
    && BackClosed(reg, incoming, comp[v := c], comp')
    && forall j :: 0 <= j < i ==> ins[j] in reg && reg[ins[j]] in comp'
  }

  lemma BackingStep(reg: map<string, nat>, incoming: map<nat, seq<string>>, v: nat, c: nat,
                    comp: map<nat, nat>, comp1: map<nat, nat>, comp2: map<nat, nat>, ins: seq<string>, i: nat)
    requires Backing(reg, incoming, v, c, comp, comp1, ins, i) && i < |ins|
    requires BackClosed(reg, incoming, comp1, comp2) && comp1.Keys <= comp2.Keys
    requires ins[i] in reg && reg[ins[i]] in comp2
    ensures Backing(reg, incoming, v, c, comp, comp2, ins, i + 1)
  {
    BackClosedTrans(reg, incoming, comp[v := c], comp1, comp2);
  }

  lemma BackingDone(reg: map<string, nat>, incoming: map<nat, seq<string>>, v: nat, c: nat,
                    comp: map<nat, nat>, comp': map<nat, nat>)
    requires v !in comp && v in incoming
    requires Backing(reg, incoming, v, c, comp, comp', incoming[v], |incoming[v]|)
    ensures v in comp' && BackClosed(reg, incoming, comp, comp')
  {
  }

  /**
   * `comp` assigns each of its blocks to a component whose member list holds
   * it, and the member lists are non-empty and hold nothing else.
   */
  ghost predicate Partition(blocks: seq<Block>, comp: map<nat, nat>, groups: seq<seq<nat>>)
  {
    && KeysIn(comp, |blocks|)
    && (forall x :: x in comp ==> comp[x] < |groups| && x in groups[comp[x]])
    && (forall c :: 0 <= c < |groups| ==> |groups[c]| > 0 && Gathers(comp, c, groups[c]))
  }

  lemma PartitionAdd(blocks: seq<Block>, comp: map<nat, nat>, groups: seq<seq<nat>>,
                     comp': map<nat, nat>, members: seq<nat>, v: nat)
    requires Partition(blocks, comp, groups) && Dfs2Inv(blocks, comp, |groups|, [], comp', members)
    requires v in comp' && v !in comp
    ensures Partition(blocks, comp', groups + [members])
  {
    var groups' := groups + [members];
    forall c | 0 <= c < |groups'| ensures |groups'[c]| > 0 && Gathers(comp', c, groups'[c]) {
      if c < |groups| {
        assert Gathers(comp, c, groups[c]);
      }
    }
  }

  /**
   * The second pass of `kosaraju` (index.js:403-408): walks the postorder
   * from its end and starts a new component at each block that has none yet.
   */
  method Assign(blocks: seq<Block>, reg: map<string, nat>, incoming: map<nat, seq<string>>, post: seq<nat>)
    returns (err: Option<Error>, comp: map<nat, nat>, groups: seq<seq<nat>>)
    requires WellFormed(blocks, reg) && forall k :: 0 <= k < |post| ==> post[k] < |blocks|
    ensures err.None? ==> Partition(blocks, comp, groups) && forall k :: 0 <= k < |post| ==> post[k] in comp
    ensures err.None? ==> BackClosed(reg, incoming, map[], comp)
    ensures err.Some? ==> PrevFailure(blocks, reg, incoming, err.value)
  {
    comp, groups := map[], [];
    var i: nat := |post|;
    while i > 0
      invariant i <= |post| && Partition(blocks, comp, groups)
      invariant BackClosed(reg, incoming, map[], comp)
      invariant forall k :: i <= k < |post| ==> post[k] in comp
    {
      i := i - 1;
      if post[i] !in comp {
        var comp', members;
        err, comp', members := Dfs2(blocks, reg, incoming, post[i], |groups|, comp, []);
        if err.Some? {
          return;
        }
        PartitionAdd(blocks, comp, groups, comp', members, post[i]);
        BackClosedTrans(reg, incoming, map[], comp, comp');
        comp, groups := comp', groups + [members];
      }
    }
    err := None;
  }
  /** An entry of a component's `next` set: another component, the end of a playthrough, or `undefined`. */
  datatype Target = Into(c: nat) | Return | Stray

  /** A component: its members in discovery order, their summed totals and its `next` set in insertion order. */
  datatype Scc = Scc(members: seq<nat>, cost: nat, next: seq<Target>)

  /** The `kosaraju_scc` of block `v`, read as a `next` entry. */
  function TargetOf(comp: map<nat, nat>, v: nat): Target
  {
    if v in comp then Into(comp[v]) else Stray
  }

  /** The `j`-th successor label of `x` is registered and leads out of component `c` to `t`. */
  ghost predicate LeadsVia(blocks: seq<Block>, reg: map<string, nat>, comp: map<nat, nat>, c: nat, x: nat, j: nat, t: Target)
  {
    && x < |blocks| && j < |blocks[x].next| && blocks[x].next[j] in reg
    && t == TargetOf(comp, reg[blocks[x].next[j]]) && t != Into(c)
  }

  /** Member `x` of component `c` puts `t` into the component's `next` set. */
  ghost predicate Leads(blocks: seq<Block>, reg: map<string, nat>, comp: map<nat, nat>, c: nat, x: nat, t: Target)
  {
    || (t == Return && x < |blocks| && Terminal(blocks[x]))
    || exists j :: LeadsVia(blocks, reg, comp, c, x, j, t)
  }

  /**
   * The `forEachNext` call of one member `x` of component `c`
   * (index.js:421-425): adds the component of every successor that lies
   * outside `c`.
   */
  method AddSuccessors(blocks: seq<Block>, reg: map<string, nat>, comp: map<nat, nat>, c: nat, x: nat, ts0: seq<Target>)
    returns (r: Result<seq<Target>>)
    requires x < |blocks| && Distinct(ts0)
    ensures r.Ok? ==> Resolved(blocks, reg, x) && Distinct(r.value)
    ensures r.Ok? ==> forall t :: t in r.value <==> t in ts0 || exists j :: LeadsVia(blocks, reg, comp, c, x, j, t)
    ensures r.Err? ==> r.error.MissingLabel? && r.error.name in blocks[x].next && r.error.name !in reg
  {
    var ts := ts0;
    for i := 0 to |blocks[x].next|
      invariant Distinct(ts) && forall j :: 0 <= j < i ==> blocks[x].next[j] in reg
      invariant forall t :: t in ts <==> t in ts0 || exists j: nat :: j < i && LeadsVia(blocks, reg, comp, c, x, j, t)
    {
      var l := blocks[x].next[i];
      if l !in reg {
        return Err(MissingLabel(l));
      }
      var t := TargetOf(comp, reg[l]);
      if t != Into(c) {
        assert LeadsVia(blocks, reg, comp, c, x, i, t);
        ts := Insert(ts, t);
      }
    }
    return Ok(ts);
  }

  /**
   * The summary of one component (index.js:410-428): its members' totals
   * summed, and its `next` set gathered from every member.
   */
  method Summarize(blocks: seq<Block>, reg: map<string, nat>, totals: map<nat, nat>, comp: map<nat, nat>,
                   c: nat, members: seq<nat>)
    returns (r: Result<Scc>)
    requires forall k :: 0 <= k < |members| ==> members[k] < |blocks|
    ensures r.Ok? ==> r.value.members == members && r.value.cost == WalkCost(totals, members)
    ensures r.Ok? ==> forall k :: 0 <= k < |members| ==> members[k] in totals && Resolved(blocks, reg, members[k])
    ensures r.Ok? ==> Distinct(r.value.next)
    ensures r.Ok? ==> forall t :: t in r.value.next <==> exists k :: 0 <= k < |members| && Leads(blocks, reg, comp, c, members[k], t)
    ensures r.Err? ==>
      || (exists k :: 0 <= k < |members| && members[k] !in totals && r.error == NoCost(members[k]))
      || (r.error.MissingLabel? && r.error.name !in reg && exists k :: 0 <= k < |members| && r.error.name in blocks[members[k]].next)
  {
    var ts: seq<Target> := [];
    var cost := 0;
    for m := 0 to |members|
      invariant cost == WalkCost(totals, members[..m]) && Distinct(ts)
      invariant forall k :: 0 <= k < m ==> members[k] in totals && Resolved(blocks, reg, members[k])
      invariant forall t :: t in ts <==> exists k :: 0 <= k < m && Leads(blocks, reg, comp, c, members[k], t)
    {
      var x := members[m];
      if x !in totals {
        return Err(NoCost(x));
      }
      assert members[..m + 1][..m] == members[..m];
      cost := cost + totals[x];
      ghost var ts0 := ts;
      if |blocks[x].next| > 0 {
        var added := AddSuccessors(blocks, reg, comp, c, x, ts);
        if added.Err? {
          return Err(added.error);
        }
        ts := added.value;
      } else {
        if !blocks[x].deadend {
          ts := Insert(ts, Return);
        }
        assert Resolved(blocks, reg, x);
      }
      forall t ensures t in ts <==> exists k :: 0 <= k < m + 1 && Leads(blocks, reg, comp, c, members[k], t) {
        if t in ts && t !in ts0 { assert Leads(blocks, reg, comp, c, members[m], t); }
      }
    }
    assert members[..|members|] == members;
    return Ok(Scc(members, cost, ts));
  }
  /** The member lists of the components, in component order. */
  function Groups(sccs: seq<Scc>): (gs: seq<seq<nat>>)
    ensures |gs| == |sccs| && forall c :: 0 <= c < |sccs| ==> gs[c] == sccs[c].members
  {
    seq(|sccs|, c requires 0 <= c < |sccs| => sccs[c].members)
  }

  /** The components of a graph with their block assignment `comp`. */
  datatype Condensation = Condensation(comp: map<nat, nat>, sccs: seq<Scc>)

  /**
   * What `kosaraju` has built before its search: every reachable block has
   * exactly one component; each component lists its members, sums their
   * totals, and its `next` set holds exactly what its members lead to.
   */
  ghost predicate Condensed(blocks: seq<Block>, reg: map<string, nat>, totals: map<nat, nat>, cd: Condensation)
  {
    && Partition(blocks, cd.comp, Groups(cd.sccs))
    && (forall v :: Reachable(blocks, reg, v) ==> v in cd.comp)
    && (forall c :: 0 <= c < |cd.sccs| ==> SccOk(blocks, reg, totals, cd.comp, c, cd.sccs[c]))
  }

  ghost predicate SccOk(blocks: seq<Block>, reg: map<string, nat>, totals: map<nat, nat>, comp: map<nat, nat>, c: nat, s: Scc)
  {
    && s.cost == WalkCost(totals, s.members) && Distinct(s.next)
    && (forall k :: 0 <= k < |s.members| ==> s.members[k] in totals && Resolved(blocks, reg, s.members[k]))
    && (forall t :: t in s.next <==> exists k :: 0 <= k < |s.members| && Leads(blocks, reg, comp, c, s.members[k], t))
  }

  /** Appending the summary of the next member list keeps every summary so far sound. */
  lemma SummaryAppend(blocks: seq<Block>, reg: map<string, nat>, totals: map<nat, nat>, comp: map<nat, nat>,
                      groups: seq<seq<nat>>, sccs: seq<Scc>, s: Scc)
    requires |sccs| < |groups|
    requires forall d :: 0 <= d < |sccs| ==> sccs[d].members == groups[d] && SccOk(blocks, reg, totals, comp, d, sccs[d])
    requires s.members == groups[|sccs|] && s.cost == WalkCost(totals, s.members) && Distinct(s.next)
    requires forall k :: 0 <= k < |s.members| ==> s.members[k] in totals && Resolved(blocks, reg, s.members[k])
    requires forall t :: t in s.next <==> exists k :: 0 <= k < |s.members| && Leads(blocks, reg, comp, |sccs|, s.members[k], t)
    ensures forall d :: 0 <= d < |sccs| + 1 ==>
      (sccs + [s])[d].members == groups[d] && SccOk(blocks, reg, totals, comp, d, (sccs + [s])[d])
  {
    assert SccOk(blocks, reg, totals, comp, |sccs|, s);
  }

  /** Why the component-building part of `kosaraju` throws. */
  ghost predicate CondenseFailure(blocks: seq<Block>, reg: map<string, nat>, incoming: map<nat, seq<string>>,
                                  totals: map<nat, nat>, e: Error)
  {
    || ("" !in reg && e == Undefined)
    || PrevFailure(blocks, reg, incoming, e)
    || (e.MissingLabel? && e.name !in reg && exists x: nat :: x < |blocks| && e.name in blocks[x].next)
    || (e.NoCost? && e.block < |blocks| && e.block !in totals)
  }

  /** After the first pass from the entry, the postorder holds every reachable block. */
  lemma PostorderCovers(blocks: seq<Block>, reg: map<string, nat>, seen: set<nat>, post: seq<nat>)
    requires WellFormed(blocks, reg) && "" in reg && reg[""] in seen
    requires Finished(blocks, reg, seen, post) && forall x :: x in seen ==> x in post
    ensures forall v :: Reachable(blocks, reg, v) ==> v in post
  {
    forall x, v | x in seen && Edge(blocks, reg, x, v) ensures v in seen {
      var k :| 0 <= k < |post| && post[k] == x;
      assert Closed(blocks, reg, seen, x);
      var i :| 0 <= i < |blocks[x].next| && EdgeAt(blocks, reg, x, i, v);
    }
    forall v | Reachable(blocks, reg, v) ensures v in post {
      var p :| Rooted(blocks, reg, p) && p[|p| - 1] == v;
      ClosedSetCoversWalk(blocks, reg, seen, p, |p| - 1);
    }
  }

  /**
   * The component-building part of `kosaraju` (index.js:381-428): the
   * postorder pass from the entry, the backward pass in reverse postorder,
   * and the summary of each component.
   */
  method Condense(blocks: seq<Block>, reg: map<string, nat>, incoming: map<nat, seq<string>>, totals: map<nat, nat>)
    returns (r: Result<Condensation>)
    requires WellFormed(blocks, reg)
    ensures r.Ok? ==> "" in reg && Condensed(blocks, reg, totals, r.value)
    ensures r.Err? ==> CondenseFailure(blocks, reg, incoming, totals, r.error)
  {
    if "" !in reg {
      return Err(Undefined);
    }
    var root := reg[""];
    assert Rooted(blocks, reg, [root]);
    var missing, seen, post := Dfs1(blocks, reg, root, {}, []);
    if missing.Some? {
      return Err(MissingLabel(missing.value));
    }
    PostorderCovers(blocks, reg, seen, post);
    var err, comp, groups := Assign(blocks, reg, incoming, post);
    if err.Some? {
      return Err(err.value);
    }
    var sccs: seq<Scc> := [];
    for c := 0 to |groups|
      invariant |sccs| == c
      invariant forall d :: 0 <= d < c ==> sccs[d].members == groups[d] && SccOk(blocks, reg, totals, comp, d, sccs[d])
    {
      var s := Summarize(blocks, reg, totals, comp, c, groups[c]);
      if s.Err? {
        return Err(s.error);
      }
      SummaryAppend(blocks, reg, totals, comp, groups, sccs, s.value);
      sccs := sccs + [s.value];
    }
    assert Groups(sccs) == groups;
    return Ok(Condensation(comp, sccs));
  }
  /** Every `Into` entry names a component, and no component leads to itself. */
  predicate WellLinked(sccs: seq<Scc>)
  {
    forall c, t :: 0 <= c < |sccs| && t in sccs[c].next && t.Into? ==> t.c < |sccs| && t.c != c
  }

  /** A non-empty walk over components along their `next` entries. */
  predicate CompWalk(sccs: seq<Scc>, w: seq<nat>)
  {
    && |w| > 0
    && (forall k :: 0 <= k < |w| ==> w[k] < |sccs|)
    && (forall k :: 0 <= k < |w| - 1 ==> Into(w[k + 1]) in sccs[w[k]].next)
  }

  /** The summed costs of the components on a walk. */
  function CompCost(sccs: seq<Scc>, w: seq<nat>): nat
    requires forall k :: 0 <= k < |w| ==> w[k] < |sccs|
  {
    if w == [] then 0 else CompCost(sccs, w[..|w| - 1]) + sccs[w[|w| - 1]].cost
  }

  /** A component walk from `c0` that can end a playthrough. */
  predicate Ending(sccs: seq<Scc>, c0: nat, w: seq<nat>)
  {
    CompWalk(sccs, w) && w[0] == c0 && Return in sccs[w[|w| - 1]].next
  }
}

=== FILE: maxsearch.dfy ===
/**
 * The search half of `kosaraju` (index.js:430-464): a FIFO label-correcting
 * search for the largest summed component cost from the entry's component
 * to a component that can end a playthrough, and the whole solver built from
 * the condensation and this search. Distances, queue membership and hops
 * live in method-local values instead of the fields `spfa_dist`,
 * `spfa_in_queue`, `spfa_hop` of the component objects.
 */
module MaxSearch {
  import opened Common
  import opened Blocks
  import opened Cfg
  import opened MaxPath

  /** `w` is a component walk from `c0` to `v` whose components before `v` cost `d`. */
  ghost predicate Witness(sccs: seq<Scc>, c0: nat, w: seq<nat>, v: nat, d: nat)
  {
    CompWalk(sccs, w) && w[0] == c0 && w[|w| - 1] == v && CompCost(sccs, w[..|w| - 1]) == d
  }

  /** Distances and queue are well-shaped: the entry's component has a distance and queued components have distances. */
  ghost predicate Shape(sccs: seq<Scc>, c0: nat, dist: seq<Extended>, queue: seq<nat>)
  {
    && WellLinked(sccs) && |dist| == |sccs| && c0 < |sccs| && dist[c0].Fin?
    && (forall v :: 0 <= v < |dist| ==> dist[v].NegInf? || dist[v].Fin?)
    && (forall k :: 0 <= k < |queue| ==> queue[k] < |sccs| && dist[queue[k]].Fin?)
    && Distinct(queue)
  }

  /** Every distance is achieved by a recorded component walk. */
  ghost predicate Witnessed(sccs: seq<Scc>, c0: nat, dist: seq<Extended>, wit: map<nat, seq<nat>>)
  {
    forall v :: 0 <= v < |dist| && dist[v].Fin? ==> v in wit && Witness(sccs, c0, wit[v], v, dist[v].n)
  }

  /** The answer is `-Infinity` or the cost of the recorded walk `best`, which can end a playthrough. */
  ghost predicate AnswerOk(sccs: seq<Scc>, c0: nat, answer: Extended, best: seq<nat>)
  {
    && (answer.NegInf? || answer.Fin?)
    && (answer.Fin? ==> Ending(sccs, c0, best) && CompCost(sccs, best) == answer.n)
  }

  /** The answer never went down. */
  predicate Grows(answer0: Extended, answer: Extended)
  {
    answer0.Fin? ==> answer.Fin? && answer.n >= answer0.n
  }

  /**
   * The `next` entry `t` of a component at distance plus cost `du` needs no
   * more work: the answer or the target's distance is at least `du`.
   */
  predicate Done(t: Target, dist: seq<Extended>, answer: Extended, du: nat)
  {
    match t
    case Stray => false
    case Return => answer.Fin? && answer.n >= du
    case Into(d) => d < |dist| && dist[d].Fin? && dist[d].n >= du
  }

  /** Component `u` has left the queue and every entry of its `next` set is done. */
  ghost predicate Settled(sccs: seq<Scc>, dist: seq<Extended>, answer: Extended, u: nat)
    requires |dist| == |sccs| && u < |sccs| && dist[u].Fin?
  {
    forall t :: t in sccs[u].next ==> Done(t, dist, answer, dist[u].n + sccs[u].cost)
  }

  ghost predicate AllSettled(sccs: seq<Scc>, dist: seq<Extended>, queue: seq<nat>, answer: Extended)
    requires |dist| == |sccs|
  {
    forall u :: 0 <= u < |dist| && dist[u].Fin? && u !in queue ==> Settled(sccs, dist, answer, u)
  }

  /**
   * Since the start of a round (`dist0`, `queue0`), distances only went up,
   * every raised component is queued, and the old queue is a prefix of the
   * new one.
   */
  ghost predicate Ascends(dist0: seq<Extended>, queue0: seq<nat>, dist: seq<Extended>, queue: seq<nat>)
  {
    && |dist| == |dist0| && |queue| >= |queue0| && queue[..|queue0|] == queue0
    && (forall v :: 0 <= v < |dist| && dist0[v].Fin? ==> dist[v].Fin? && dist[v].n >= dist0[v].n)
    && (forall v :: 0 <= v < |dist| && dist[v] != dist0[v] ==> v in queue)
  }

  /** Raised distances and a grown answer keep an entry done. */
  lemma DoneGrows(t: Target, dist0: seq<Extended>, answer0: Extended, dist: seq<Extended>, answer: Extended, du: nat)
    requires Done(t, dist0, answer0, du) && Grows(answer0, answer) && |dist| == |dist0|
    requires forall v :: 0 <= v < |dist| && dist0[v].Fin? ==> dist[v].Fin? && dist[v].n >= dist0[v].n
    ensures Done(t, dist, answer, du)
  {
    if t.Into? { assert dist0[t.c].Fin?; }
  }

  /** The first `i` entries of `u`'s `next` set are done at `du`. */
  predicate Processed(sccs: seq<Scc>, dist: seq<Extended>, answer: Extended, u: nat, i: nat, du: nat)
    requires u < |sccs| && i <= |sccs[u].next|
  {
    forall j :: 0 <= j < i ==> Done(sccs[u].next[j], dist, answer, du)
  }

  /** The state of a round over the `next` set of `u` after its first `i` entries. */
  ghost predicate RoundInv(sccs: seq<Scc>, c0: nat, u: nat, du: nat, dist0: seq<Extended>, queue0: seq<nat>,
                           answer0: Extended, dist: seq<Extended>, queue: seq<nat>, wit: map<nat, seq<nat>>,
                           answer: Extended, best: seq<nat>, i: nat)
  {
    && Shape(sccs, c0, dist, queue) && u < |sccs| && i <= |sccs[u].next| && |dist0| == |sccs|
    && u !in queue && dist[u] == dist0[u] && dist0[u].Fin? && du == dist0[u].n + sccs[u].cost
    && Witnessed(sccs, c0, dist, wit) && Ascends(dist0, queue0, dist, queue)
    && AnswerOk(sccs, c0, answer, best) && Grows(answer0, answer)
    && Processed(sccs, dist, answer, u, i, du)
  }

  lemma RoundStart(sccs: seq<Scc>, c0: nat, u: nat, du: nat, dist0: seq<Extended>, queue0: seq<nat>,
                   wit0: map<nat, seq<nat>>, answer0: Extended, best0: seq<nat>)
    requires Shape(sccs, c0, dist0, queue0) && u < |sccs| && dist0[u].Fin? && u !in queue0
    requires du == dist0[u].n + sccs[u].cost
    requires Witnessed(sccs, c0, dist0, wit0) && AnswerOk(sccs, c0, answer0, best0)
    ensures RoundInv(sccs, c0, u, du, dist0, queue0, answer0, dist0, queue0, wit0, answer0, best0, 0)
  {
    assert queue0[..|queue0|] == queue0;
  }

  /** A `Return` entry raises the answer to `du` when that is larger. */
  lemma RoundReturn(sccs: seq<Scc>, c0: nat, u: nat, du: nat, dist0: seq<Extended>, queue0: seq<nat>,
                    answer0: Extended, dist: seq<Extended>, queue: seq<nat>, wit: map<nat, seq<nat>>,
                    answer: Extended, best: seq<nat>, i: nat)
    requires RoundInv(sccs, c0, u, du, dist0, queue0, answer0, dist, queue, wit, answer, best, i)
    requires i < |sccs[u].next| && sccs[u].next[i] == Return
    ensures u in wit
    ensures var raise := answer.NegInf? || answer.n < du;
      RoundInv(sccs, c0, u, du, dist0, queue0, answer0, dist, queue, wit,
               if raise then Fin(du) else answer, if raise then wit[u] else best, i + 1)
  {
    assert Witness(sccs, c0, wit[u], u, dist[u].n);
    if answer.NegInf? || answer.n < du {
      var w := wit[u];
      assert Ending(sccs, c0, w);
      assert CompCost(sccs, w) == du;
      forall j | 0 <= j < i + 1 ensures Done(sccs[u].next[j], dist, Fin(du), du) {
        if j < i { DoneGrows(sccs[u].next[j], dist, answer, dist, Fin(du), du); }
      }
    }
  }

  /** An `Into(d)` entry whose target is already at least `du` changes nothing. */
  lemma RoundKeep(sccs: seq<Scc>, c0: nat, u: nat, du: nat, dist0: seq<Extended>, queue0: seq<nat>,
                  answer0: Extended, dist: seq<Extended>, queue: seq<nat>, wit: map<nat, seq<nat>>,
                  answer: Extended, best: seq<nat>, i: nat)
    requires RoundInv(sccs, c0, u, du, dist0, queue0, answer0, dist, queue, wit, answer, best, i)
    requires i < |sccs[u].next| && Done(sccs[u].next[i], dist, answer, du)
    ensures RoundInv(sccs, c0, u, du, dist0, queue0, answer0, dist, queue, wit, answer, best, i + 1)
  {
  }

  /** Raising one distance keeps the distances and the queue well-shaped. */
  lemma ShapeAfterRaise(sccs: seq<Scc>, c0: nat, dist: seq<Extended>, queue: seq<nat>, d: nat, x: nat)
    requires Shape(sccs, c0, dist, queue) && d < |sccs|
    ensures Shape(sccs, c0, dist[d := Fin(x)], if d in queue then queue else queue + [d])
  {
    var q := if d in queue then queue else queue + [d];
    forall i, j | 0 <= i < j < |q| ensures q[i] != q[j] {
      if j == |queue| { assert q[i] == queue[i]; }
    }
  }

  /** The walk to `u` extended by `Into(d)` witnesses the raised distance of `d`. */
  lemma WitnessedAfterRaise(sccs: seq<Scc>, c0: nat, dist: seq<Extended>, wit: map<nat, seq<nat>>,
                            u: nat, d: nat, du: nat)
    requires Witnessed(sccs, c0, dist, wit) && |dist| == |sccs| && u < |sccs| && d < |sccs|
    requires dist[u].Fin? && du == dist[u].n + sccs[u].cost && Into(d) in sccs[u].next
    ensures u in wit
    ensures Witnessed(sccs, c0, dist[d := Fin(du)], wit[d := wit[u] + [d]])
  {
    var w := wit[u];
    assert Witness(sccs, c0, w, u, dist[u].n);
    var w' := w + [d];
    assert w'[..|w'| - 1] == w;
    assert CompWalk(sccs, w');
    assert Witness(sccs, c0, w', d, du);
  }

  lemma AscendsAfterRaise(dist0: seq<Extended>, queue0: seq<nat>, dist: seq<Extended>, queue: seq<nat>, d: nat, x: nat)
    requires Ascends(dist0, queue0, dist, queue) && d < |dist|
    requires dist[d].NegInf? || (dist[d].Fin? && dist[d].n < x)
    ensures Ascends(dist0, queue0, dist[d := Fin(x)], if d in queue then queue else queue + [d])
  {
    var q := if d in queue then queue else queue + [d];
    assert q[..|queue|] == queue;
    assert q[..|queue0|] == queue[..|queue0|];
    forall w | 0 <= w < |dist| && dist[d := Fin(x)][w] != dist0[w] ensures w in q {
      if w != d { assert w in queue; }
    }
  }

  lemma ProcessedAfterRaise(sccs: seq<Scc>, dist: seq<Extended>, answer: Extended, u: nat, i: nat, d: nat, du: nat)
    requires u < |sccs| && i < |sccs[u].next| && sccs[u].next[i] == Into(d) && d < |dist|
    requires Processed(sccs, dist, answer, u, i, du)
    ensures Processed(sccs, dist[d := Fin(du)], answer, u, i + 1, du)
  {
    forall j | 0 <= j < i + 1 ensures Done(sccs[u].next[j], dist[d := Fin(du)], answer, du) {
      if j < i { assert Done(sccs[u].next[j], dist, answer, du); }
    }
  }

  /** An `Into(d)` entry below `du` raises `d` to `du` and queues it. */
  lemma RoundRaise(sccs: seq<Scc>, c0: nat, u: nat, du: nat, dist0: seq<Extended>, queue0: seq<nat>,
                   answer0: Extended, dist: seq<Extended>, queue: seq<nat>, wit: map<nat, seq<nat>>,
                   answer: Extended, best: seq<nat>, i: nat, d: nat)
    requires RoundInv(sccs, c0, u, du, dist0, queue0, answer0, dist, queue, wit, answer, best, i)
    requires i < |sccs[u].next| && sccs[u].next[i] == Into(d) && !Done(Into(d), dist, answer, du)
    ensures d < |dist| && u in wit
    ensures RoundInv(sccs, c0, u, du, dist0, queue0, answer0, dist[d := Fin(du)],
                     if d in queue then queue else queue + [d], wit[d := wit[u] + [d]], answer, best, i + 1)
  {
    assert d < |sccs| && d != u;
    ShapeAfterRaise(sccs, c0, dist, queue, d, du);
    WitnessedAfterRaise(sccs, c0, dist, wit, u, d, du);
    AscendsAfterRaise(dist0, queue0, dist, queue, d, du);
    ProcessedAfterRaise(sccs, dist, answer, u, i, d, du);
  }
  /**
   * A round of `u` with `du` only raises components that `u` leads to, each
   * to exactly `du`, only appends raised components to the queue, and only
   * moves the answer to `du` when `u` can end a playthrough.
   */
  ghost predicate Raised(sccs: seq<Scc>, u: nat, du: nat, dist0: seq<Extended>, queue0: seq<nat>, answer0: Extended,
                         dist: seq<Extended>, queue: seq<nat>, answer: Extended)
    requires u < |sccs|
  {
    && |dist| == |dist0| && |queue0| <= |queue| && queue[..|queue0|] == queue0
    && (forall d :: 0 <= d < |dist| && dist[d] != dist0[d] ==> dist[d] == Fin(du) && Into(d) in sccs[u].next)
    && (forall k :: |queue0| <= k < |queue| ==> queue[k] < |dist| && dist[queue[k]] != dist0[queue[k]])
    && (answer != answer0 ==> answer == Fin(du) && Return in sccs[u].next)
  }

  lemma RaisedAfterRaise(sccs: seq<Scc>, u: nat, du: nat, dist0: seq<Extended>, queue0: seq<nat>, answer0: Extended,
                         dist: seq<Extended>, queue: seq<nat>, answer: Extended, i: nat, d: nat)
    requires u < |sccs| && Raised(sccs, u, du, dist0, queue0, answer0, dist, queue, answer)
    requires i < |sccs[u].next| && sccs[u].next[i] == Into(d) && d < |dist| && !Done(Into(d), dist, answer, du)
    ensures Raised(sccs, u, du, dist0, queue0, answer0, dist[d := Fin(du)],
                   if d in queue then queue else queue + [d], answer)
  {
    assert dist[d] == dist0[d];
    var queue' := if d in queue then queue else queue + [d];
    assert queue'[..|queue0|] == queue[..|queue0|];
  }

  /**
   * The inner `for` loop of the search (index.js:441-458) over the `next` set
   * of `u`: raises the answer or the distance of each entry to `du` when that
   * is larger, queueing raised components that are not queued yet; reports
   * an `undefined` entry.
   */
  method Round(sccs: seq<Scc>, c0: nat, u: nat, du: nat, dist0: seq<Extended>, queue0: seq<nat>, answer0: Extended,
               ghost wit0: map<nat, seq<nat>>, ghost best0: seq<nat>)
    returns (stray: bool, dist: seq<Extended>, queue: seq<nat>, answer: Extended,
             ghost wit: map<nat, seq<nat>>, ghost best: seq<nat>)
    requires Shape(sccs, c0, dist0, queue0) && u < |sccs| && dist0[u].Fin? && u !in queue0
    requires du == dist0[u].n + sccs[u].cost
    requires Witnessed(sccs, c0, dist0, wit0) && AnswerOk(sccs, c0, answer0, best0)
    ensures stray ==> Stray in sccs[u].next
    ensures !stray ==>
      RoundInv(sccs, c0, u, du, dist0, queue0, answer0, dist, queue, wit, answer, best, |sccs[u].next|)
    ensures !stray ==> Raised(sccs, u, du, dist0, queue0, answer0, dist, queue, answer)
  {
    dist, queue, answer, wit, best := dist0, queue0, answer0, wit0, best0;
    RoundStart(sccs, c0, u, du, dist0, queue0, wit0, answer0, best0);
    for i := 0 to |sccs[u].next|
      invariant RoundInv(sccs, c0, u, du, dist0, queue0, answer0, dist, queue, wit, answer, best, i)
      invariant Raised(sccs, u, du, dist0, queue0, answer0, dist, queue, answer)
    {
      match sccs[u].next[i]
      case Return =>
        RoundReturn(sccs, c0, u, du, dist0, queue0, answer0, dist, queue, wit, answer, best, i);
        if answer.NegInf? || answer.n < du {
          answer, best := Fin(du), wit[u];
        }
      case Stray =>
        return true, dist, queue, answer, wit, best;
      case Into(d) =>
        if Done(Into(d), dist, answer, du) {
          RoundKeep(sccs, c0, u, du, dist0, queue0, answer0, dist, queue, wit, answer, best, i);
        } else {
          RoundRaise(sccs, c0, u, du, dist0, queue0, answer0, dist, queue, wit, answer, best, i, d);
          RaisedAfterRaise(sccs, u, du, dist0, queue0, answer0, dist, queue, answer, i, d);
          dist, wit := dist[d := Fin(du)], wit[d := wit[u] + [d]];
          if d !in queue {
            queue := queue + [d];
          }
        }
    }
    stray := false;
  }

  /** After `u` is taken off the queue and its round is over, everything off the queue is settled again. */
  lemma Resettle(sccs: seq<Scc>, c0: nat, u: nat, du: nat, queueIn: seq<nat>, dist0: seq<Extended>, queue0: seq<nat>,
                 answer0: Extended, dist: seq<Extended>, queue: seq<nat>, wit: map<nat, seq<nat>>,
                 answer: Extended, best: seq<nat>)
    requires Shape(sccs, c0, dist0, queueIn) && |queueIn| > 0 && queueIn[0] == u && queue0 == queueIn[1..]
    requires AllSettled(sccs, dist0, queueIn, answer0)
    requires RoundInv(sccs, c0, u, du, dist0, queue0, answer0, dist, queue, wit, answer, best, |sccs[u].next|)
    ensures AllSettled(sccs, dist, queue, answer)
  {
    forall w | 0 <= w < |dist| && dist[w].Fin? && w !in queue ensures Settled(sccs, dist, answer, w) {
      if w != u {
        assert dist[w] == dist0[w];
        assert Settled(sccs, dist0, answer0, w);
        forall t | t in sccs[w].next ensures Done(t, dist, answer, dist[w].n + sccs[w].cost) {
          DoneGrows(t, dist0, answer0, dist, answer, dist[w].n + sccs[w].cost);
        }
      } else {
        forall t | t in sccs[u].next ensures Done(t, dist, answer, du) {
          var j :| 0 <= j < |sccs[u].next| && sccs[u].next[j] == t;
        }
      }
    }
  }

  /** The invariant of the main loop of the search. */
  ghost predicate SearchInv(sccs: seq<Scc>, c0: nat, dist: seq<Extended>, queue: seq<nat>, wit: map<nat, seq<nat>>,
                            answer: Extended, best: seq<nat>)
  {
    && Shape(sccs, c0, dist, queue) && Witnessed(sccs, c0, dist, wit)
    && AllSettled(sccs, dist, queue, answer) && AnswerOk(sccs, c0, answer, best)
  }

  lemma SearchStart(sccs: seq<Scc>, c0: nat)
    requires WellLinked(sccs) && c0 < |sccs|
    ensures SearchInv(sccs, c0, seq(|sccs|, _ => NegInf)[c0 := Fin(0)], [c0], map[c0 := [c0]], NegInf, [])
  {
    assert Witness(sccs, c0, [c0], c0, 0);
  }

  /** With the queue empty, every distance bounds the walks that reach its component from below. */
  lemma {:induction false} SettledBound(sccs: seq<Scc>, c0: nat, dist: seq<Extended>, answer: Extended, w: seq<nat>, k: nat)
    requires Shape(sccs, c0, dist, []) && AllSettled(sccs, dist, [], answer)
    requires CompWalk(sccs, w) && w[0] == c0 && k < |w|
    ensures dist[w[k]].Fin? && dist[w[k]].n >= CompCost(sccs, w[..k])
    decreases k
  {
    if k > 0 {
      SettledBound(sccs, c0, dist, answer, w, k - 1);
      assert w[..k][..k - 1] == w[..k - 1];
      assert Settled(sccs, dist, answer, w[k - 1]);
      assert Done(Into(w[k]), dist, answer, dist[w[k - 1]].n + sccs[w[k - 1]].cost);
    }
  }

  lemma SearchFinish(sccs: seq<Scc>, c0: nat, dist: seq<Extended>, answer: Extended)
    requires Shape(sccs, c0, dist, []) && AllSettled(sccs, dist, [], answer)
    ensures forall w :: Ending(sccs, c0, w) ==> answer.Fin? && CompCost(sccs, w) <= answer.n
  {
    forall w | Ending(sccs, c0, w) ensures answer.Fin? && CompCost(sccs, w) <= answer.n {
      var k := |w| - 1;
      SettledBound(sccs, c0, dist, answer, w, k);
      assert w[..k + 1] == w;
      assert Settled(sccs, dist, answer, w[k]);
      assert Done(Return, dist, answer, dist[w[k]].n + sccs[w[k]].cost);
    }
  }

  /**
   * The search over the components (index.js:430-458), allowed `fuel`
   * rounds: the largest summed cost of a component walk from `c0` that can
   * end a playthrough, or `NegInf` when there is none.
   */
  method Search(sccs: seq<Scc>, c0: nat, fuel: nat) returns (r: Result<Extended>)
    requires WellLinked(sccs) && c0 < |sccs|
    ensures r.Ok? ==> r.value.NegInf? || r.value.Fin?
    ensures r.Ok? && r.value.Fin? ==> exists w :: Ending(sccs, c0, w) && CompCost(sccs, w) == r.value.n
    ensures r.Ok? ==> forall w :: Ending(sccs, c0, w) ==> r.value.Fin? && CompCost(sccs, w) <= r.value.n
    ensures r.Err? ==>
      || r.error == OutOfFuel
      || (r.error == Undefined && exists w :: CompWalk(sccs, w) && w[0] == c0 && Stray in sccs[w[|w| - 1]].next)
  {
    var dist := seq(|sccs|, _ => NegInf)[c0 := Fin(0)];
    var queue := [c0];
    var answer := NegInf;
    ghost var wit: map<nat, seq<nat>> := map[c0 := [c0]];
    ghost var best: seq<nat> := [];
    SearchStart(sccs, c0);
    var f := fuel;
    while queue != []
      invariant SearchInv(sccs, c0, dist, queue, wit, answer, best)
      decreases f
    {
      if f == 0 {
        return Err(OutOfFuel);
      }
      f := f - 1;
      var u := queue[0];
      ghost var queueIn := queue;
      queue := queue[1..];
      var du := dist[u].n + sccs[u].cost;
      ghost var dist0, queue0, answer0, wit0 := dist, queue, answer, wit;
      var stray;
      stray, dist, queue, answer, wit, best := Round(sccs, c0, u, du, dist, queue, answer, wit, best);
      if stray {
        assert Witness(sccs, c0, wit0[u], u, dist0[u].n);
        return Err(Undefined);
      }
      Resettle(sccs, c0, u, du, queueIn, dist0, queue0, answer0, dist, queue, wit, answer, best);
    }
    SearchFinish(sccs, c0, dist, answer);
    return Ok(answer);
  }
  /** The components of a condensation only lead to components, never to themselves. */
  lemma CondensedLinks(blocks: seq<Block>, reg: map<string, nat>, totals: map<nat, nat>, cd: Condensation)
    requires Condensed(blocks, reg, totals, cd)
    ensures WellLinked(cd.sccs)
  {
    forall c, t | 0 <= c < |cd.sccs| && t in cd.sccs[c].next && t.Into? ensures t.c < |cd.sccs| && t.c != c {
      assert SccOk(blocks, reg, totals, cd.comp, c, cd.sccs[c]);
      var k :| 0 <= k < |cd.sccs[c].members| && Leads(blocks, reg, cd.comp, c, cd.sccs[c].members[k], t);
      var j :| LeadsVia(blocks, reg, cd.comp, c, cd.sccs[c].members[k], j, t);
    }
  }

  /** `x` is listed among the members of its component. */
  lemma MemberOf(blocks: seq<Block>, reg: map<string, nat>, totals: map<nat, nat>, cd: Condensation, x: nat)
    requires Condensed(blocks, reg, totals, cd) && x in cd.comp
    ensures cd.comp[x] < |cd.sccs| && x in cd.sccs[cd.comp[x]].members
  {
    assert Groups(cd.sccs)[cd.comp[x]] == cd.sccs[cd.comp[x]].members;
  }

  /** An edge between two components shows up in the `next` set of the first. */
  lemma CrossEdge(blocks: seq<Block>, reg: map<string, nat>, totals: map<nat, nat>, cd: Condensation,
                  u: nat, i: nat, v: nat)
    requires Condensed(blocks, reg, totals, cd) && u in cd.comp && v in cd.comp
    requires EdgeAt(blocks, reg, u, i, v) && cd.comp[u] != cd.comp[v]
    ensures cd.comp[u] < |cd.sccs| && Into(cd.comp[v]) in cd.sccs[cd.comp[u]].next
  {
    var c := cd.comp[u];
    MemberOf(blocks, reg, totals, cd, u);
    var ms := cd.sccs[c].members;
    var k :| 0 <= k < |ms| && ms[k] == u;
    assert LeadsVia(blocks, reg, cd.comp, c, u, i, Into(cd.comp[v]));
    assert Leads(blocks, reg, cd.comp, c, ms[k], Into(cd.comp[v]));
    assert SccOk(blocks, reg, totals, cd.comp, c, cd.sccs[c]);
  }

  /** A block that can end a playthrough puts `Return` into its component's `next` set. */
  lemma TerminalReturns(blocks: seq<Block>, reg: map<string, nat>, totals: map<nat, nat>, cd: Condensation, u: nat)
    requires Condensed(blocks, reg, totals, cd) && u in cd.comp && u < |blocks| && Terminal(blocks[u])
    ensures cd.comp[u] < |cd.sccs| && Return in cd.sccs[cd.comp[u]].next
  {
    var c := cd.comp[u];
    MemberOf(blocks, reg, totals, cd, u);
    var ms := cd.sccs[c].members;
    var k :| 0 <= k < |ms| && ms[k] == u;
    assert Leads(blocks, reg, cd.comp, c, ms[k], Return);
    assert SccOk(blocks, reg, totals, cd.comp, c, cd.sccs[c]);
  }

  /** Each assigned block is a member of its component, and each component costs its members' totals. */
  ghost predicate Charged(sccs: seq<Scc>, comp: map<nat, nat>, totals: map<nat, nat>)
  {
    && (forall x :: x in comp ==> comp[x] < |sccs| && x in sccs[comp[x]].members)
    && (forall c :: 0 <= c < |sccs| ==> sccs[c].cost == WalkCost(totals, sccs[c].members))
  }

  lemma CondensedCharged(blocks: seq<Block>, reg: map<string, nat>, totals: map<nat, nat>, cd: Condensation)
    requires Condensed(blocks, reg, totals, cd)
    ensures Charged(cd.sccs, cd.comp, totals)
  {
    forall x | x in cd.comp ensures cd.comp[x] < |cd.sccs| && x in cd.sccs[cd.comp[x]].members {
      MemberOf(blocks, reg, totals, cd, x);
    }
    forall c | 0 <= c < |cd.sccs| ensures cd.sccs[c].cost == WalkCost(totals, cd.sccs[c].members) {
      assert SccOk(blocks, reg, totals, cd.comp, c, cd.sccs[c]);
    }
  }

  /** Blocks of one component, none twice, total at most the component's cost. */
  lemma RunBound(sccs: seq<Scc>, comp: map<nat, nat>, totals: map<nat, nat>, q: seq<nat>, c: nat)
    requires Charged(sccs, comp, totals) && c < |sccs| && Distinct(q)
    requires forall k :: 0 <= k < |q| ==> q[k] in comp && comp[q[k]] == c
    ensures WalkCost(totals, q) <= sccs[c].cost
  {
    WalkCostSubset(totals, q, sccs[c].members);
  }

  /**
   * The first `n` blocks of the walk `p`, read component by component: the
   * component walk `w` ends in the component of the last `r` blocks, and the
   * blocks before those total at most the components of `w` before its last.
   */
  ghost predicate Compressed(sccs: seq<Scc>, comp: map<nat, nat>, totals: map<nat, nat>, p: seq<nat>, n: nat,
                             w: seq<nat>, r: nat)
  {
    && CompWalk(sccs, w) && 0 < r <= n <= |p| && p[0] in comp && w[0] == comp[p[0]]
    && (forall k :: n - r <= k < n ==> p[k] in comp && comp[p[k]] == w[|w| - 1])
    && WalkCost(totals, p[..n - r]) <= CompCost(sccs, w[..|w| - 1])
  }

  /** The next block stays in the current component: the run grows. */
  lemma CompressSame(sccs: seq<Scc>, comp: map<nat, nat>, totals: map<nat, nat>, p: seq<nat>, n: nat,
                     w: seq<nat>, r: nat)
    requires Compressed(sccs, comp, totals, p, n, w, r) && n < |p|
    requires p[n] in comp && comp[p[n]] == comp[p[n - 1]]
    ensures Compressed(sccs, comp, totals, p, n + 1, w, r + 1)
  {
  }

  /** The next block lies in another component: the run is closed and charged to its component. */
  lemma CompressCross(sccs: seq<Scc>, comp: map<nat, nat>, totals: map<nat, nat>, p: seq<nat>, n: nat,
                      w: seq<nat>, r: nat)
    requires Charged(sccs, comp, totals) && Distinct(p)
    requires Compressed(sccs, comp, totals, p, n, w, r) && n < |p| && p[n] in comp
    requires Into(comp[p[n]]) in sccs[w[|w| - 1]].next
    ensures Compressed(sccs, comp, totals, p, n + 1, w + [comp[p[n]]], 1)
  {
    var c := w[|w| - 1];
    var w' := w + [comp[p[n]]];
    var run := p[n - r..n];
    assert p[..n] == p[..n - r] + run;
    WalkCostConcat(totals, p[..n - r], run);
    RunBound(sccs, comp, totals, run, c);
    assert w'[..|w'| - 1] == w;
    assert w[..|w| - 1] + [c] == w;
    assert CompWalk(sccs, w');
  }

  /** Once the whole walk is read, its total is at most the component walk's cost. */
  lemma CompressClose(sccs: seq<Scc>, comp: map<nat, nat>, totals: map<nat, nat>, p: seq<nat>, w: seq<nat>, r: nat)
    requires Charged(sccs, comp, totals) && Distinct(p) && Compressed(sccs, comp, totals, p, |p|, w, r)
    ensures WalkCost(totals, p) <= CompCost(sccs, w)
  {
    var c := w[|w| - 1];
    var run := p[|p| - r..];
    assert p == p[..|p| - r] + run;
    WalkCostConcat(totals, p[..|p| - r], run);
    RunBound(sccs, comp, totals, run, c);
    assert w[..|w| - 1] + [c] == w;
  }

  lemma {:induction false} CompressPrefix(blocks: seq<Block>, reg: map<string, nat>, totals: map<nat, nat>,
                                          cd: Condensation, p: seq<nat>, n: nat) returns (w: seq<nat>, r: nat)
    requires Condensed(blocks, reg, totals, cd) && Rooted(blocks, reg, p) && Distinct(p) && 0 < n <= |p|
    ensures Compressed(cd.sccs, cd.comp, totals, p, n, w, r)
    decreases n
  {
    CondensedCharged(blocks, reg, totals, cd);
    if n == 1 {
      WalkReaches(blocks, reg, p, 0);
      MemberOf(blocks, reg, totals, cd, p[0]);
      w, r := [cd.comp[p[0]]], 1;
      return;
    }
    w, r := CompressPrefix(blocks, reg, totals, cd, p, n - 1);
    var y, x := p[n - 2], p[n - 1];
    WalkReaches(blocks, reg, p, n - 1);
    assert Edge(blocks, reg, y, x);
    var i :| 0 <= i < |blocks[y].next| && EdgeAt(blocks, reg, y, i, x);
    if cd.comp[x] == cd.comp[y] {
      CompressSame(cd.sccs, cd.comp, totals, p, n - 1, w, r);
      r := r + 1;
    } else {
      CrossEdge(blocks, reg, totals, cd, y, i, x);
      CompressCross(cd.sccs, cd.comp, totals, p, n - 1, w, r);
      w, r := w + [cd.comp[x]], 1;
    }
  }

  /**
   * Every repetition-free walk from the entry to a block that can end a
   * playthrough totals at most some component walk that can end one.
   */
  lemma Compress(blocks: seq<Block>, reg: map<string, nat>, totals: map<nat, nat>, cd: Condensation, p: seq<nat>)
    returns (w: seq<nat>)
    requires Condensed(blocks, reg, totals, cd) && Rooted(blocks, reg, p) && Distinct(p) && Terminal(blocks[p[|p| - 1]])
    ensures reg[""] in cd.comp && Ending(cd.sccs, cd.comp[reg[""]], w) && WalkCost(totals, p) <= CompCost(cd.sccs, w)
  {
    var r;
    w, r := CompressPrefix(blocks, reg, totals, cd, p, |p|);
    CondensedCharged(blocks, reg, totals, cd);
    CompressClose(cd.sccs, cd.comp, totals, p, w, r);
    TerminalReturns(blocks, reg, totals, cd, p[|p| - 1]);
  }
  /**
   * `kosaraju()` with `fuel` search rounds: builds the components, then the
   * largest summed component cost from the entry's component to one that
   * can end a playthrough, or `NegInf` when there is none. The answer is at
   * least the summed totals of every walk from the entry that visits no
   * block twice and ends at a block that can end a playthrough.
   */
  method Kosaraju(blocks: seq<Block>, reg: map<string, nat>, incoming: map<nat, seq<string>>, totals: map<nat, nat>,
                  fuel: nat)
    returns (r: Result<Extended>, cd: Condensation)
    requires WellFormed(blocks, reg)
    ensures r.Ok? ==> "" in reg && Condensed(blocks, reg, totals, cd) && reg[""] in cd.comp
    ensures r.Ok? ==> r.value.NegInf? || r.value.Fin?
    ensures r.Ok? && r.value.Fin? ==>
      exists w :: Ending(cd.sccs, cd.comp[reg[""]], w) && CompCost(cd.sccs, w) == r.value.n
    ensures r.Ok? ==> forall w :: Ending(cd.sccs, cd.comp[reg[""]], w) ==>
      r.value.Fin? && CompCost(cd.sccs, w) <= r.value.n
    ensures r.Ok? ==> forall p: seq<nat> :: Rooted(blocks, reg, p) && Distinct(p) && Terminal(blocks[p[|p| - 1]]) ==>
      r.value.Fin? && WalkCost(totals, p) <= r.value.n
    ensures r.Err? ==>
      || CondenseFailure(blocks, reg, incoming, totals, r.error)
      || r.error == OutOfFuel
      || (r.error == Undefined && "" in reg && reg[""] in cd.comp &&
          exists w :: CompWalk(cd.sccs, w) && w[0] == cd.comp[reg[""]] && Stray in cd.sccs[w[|w| - 1]].next)
  {
    var c := Condense(blocks, reg, incoming, totals);
    if c.Err? {
      return Err(c.error), Condensation(map[], []);
    }
    cd := c.value;
    var root := reg[""];
    assert Rooted(blocks, reg, [root]);
    CondensedLinks(blocks, reg, totals, cd);
    MemberOf(blocks, reg, totals, cd, root);
    r := Search(cd.sccs, cd.comp[root], fuel);
    if r.Ok? {
      forall p: seq<nat> | Rooted(blocks, reg, p) && Distinct(p) && Terminal(blocks[p[|p| - 1]])
        ensures r.value.Fin? && WalkCost(totals, p) <= r.value.n
      {
        var w := Compress(blocks, reg, totals, cd, p);
      }
    }
  }
}

=== FILE: minpath.dfy ===
/**
 * The minimum solver `spfa` (index.js:343-378): a FIFO label-correcting
 * search from the entry block. The distance of a block is the summed totals
 * of the blocks before it on the best walk found so far; a successor-less,
 * non-deadend block closes a playthrough at its distance plus its own total.
 * Distances, queue membership and predecessors live in method-local values
 * instead of the fields `spfa_dist`, `spfa_in_queue`, `spfa_hop`.
 */
module MinPath {
  import opened Common
  import opened Blocks
  import opened Cfg

  /** Number of blocks without a distance yet. */
  function Unset(d: seq<Extended>): nat
  {
    if d == [] then 0 else (if d[0].Fin? then 0 else 1) + Unset(d[1..])
  }

  /** Sum of the distances set so far. */
  function SetSum(d: seq<Extended>): nat
  {
    if d == [] then 0 else (if d[0].Fin? then d[0].n else 0) + SetSum(d[1..])
  }

  lemma {:induction false} SetFirst(d: seq<Extended>, v: nat, x: nat)
    requires v < |d| && !d[v].Fin?
    ensures Unset(d[v := Fin(x)]) + 1 == Unset(d)
    decreases |d|
  {
    if v == 0 {
      assert d[v := Fin(x)][1..] == d[1..];
    } else {
      assert d[v := Fin(x)][1..] == d[1..][v - 1 := Fin(x)];
      SetFirst(d[1..], v - 1, x);
    }
  }

  lemma {:induction false} Lower(d: seq<Extended>, v: nat, x: nat)
    requires v < |d| && d[v].Fin?
    ensures Unset(d[v := Fin(x)]) == Unset(d)
    ensures SetSum(d[v := Fin(x)]) + d[v].n == SetSum(d) + x
    decreases |d|
  {
    if v == 0 {
      assert d[v := Fin(x)][1..] == d[1..];
    } else {
      assert d[v := Fin(x)][1..] == d[1..][v - 1 := Fin(x)];
      Lower(d[1..], v - 1, x);
    }
  }

  /** `a` is strictly closer to the fixed point than `b`. */
  predicate Progress(a: seq<Extended>, b: seq<Extended>)
  {
    Unset(a) < Unset(b) || (Unset(a) == Unset(b) && SetSum(a) < SetSum(b))
  }

  predicate NoWorse(a: seq<Extended>, b: seq<Extended>)
  {
    Unset(a) < Unset(b) || (Unset(a) == Unset(b) && SetSum(a) <= SetSum(b))
  }

  /** `w` is a walk from the entry to `v` whose blocks before `v` total `d`. */
  ghost predicate Witness(blocks: seq<Block>, reg: map<string, nat>, totals: map<nat, nat>, w: seq<nat>, v: nat, d: nat)
  {
    Rooted(blocks, reg, w) && w[|w| - 1] == v && WalkCost(totals, w[..|w| - 1]) == d
  }

  /**
   * A block that has left the queue: it has a total, all its labels resolve,
   * every successor's distance is at most its own plus its total, and if it
   * can end a playthrough the answer is at most that much.
   */
  ghost predicate Settled(blocks: seq<Block>, reg: map<string, nat>, totals: map<nat, nat>,
                          dist: seq<Extended>, answer: Extended, u: nat)
    requires WellFormed(blocks, reg) && |dist| == |blocks| && u < |dist| && dist[u].Fin?
  {
    && u in totals
    && Resolved(blocks, reg, u)
    && (forall i :: 0 <= i < |blocks[u].next| ==>
          dist[reg[blocks[u].next[i]]].Fin? && dist[reg[blocks[u].next[i]]].n <= dist[u].n + totals[u])
    && (Terminal(blocks[u]) ==> answer.Fin? && answer.n <= dist[u].n + totals[u])
  }

  /** Once every reached block is settled, no walk beats the distances. */
  lemma {:induction false} SettledBound(blocks: seq<Block>, reg: map<string, nat>, totals: map<nat, nat>,
                                        dist: seq<Extended>, answer: Extended, p: seq<nat>, k: nat)
    requires WellFormed(blocks, reg) && |dist| == |blocks|
    requires Rooted(blocks, reg, p) && k < |p| && dist[p[0]] == Fin(0)
    requires forall u :: 0 <= u < |dist| && dist[u].Fin? ==> Settled(blocks, reg, totals, dist, answer, u)
    ensures dist[p[k]].Fin? && dist[p[k]].n <= WalkCost(totals, p[..k])
    decreases k
  {
    if k > 0 {
      SettledBound(blocks, reg, totals, dist, answer, p, k - 1);
      var u := p[k - 1];
      assert Edge(blocks, reg, u, p[k]);
      var i :| 0 <= i < |blocks[u].next| && EdgeAt(blocks, reg, u, i, p[k]);
      assert Settled(blocks, reg, totals, dist, answer, u);
      assert p[..k][..k - 1] == p[..k - 1];
      WalkCostLast(totals, p[..k]);
    }
  }

  /** `v` already has a distance of at most `d`. */
  predicate Within(dist: seq<Extended>, v: nat, d: nat)
  {
    v < |dist| && dist[v].Fin? && dist[v].n <= d
  }

  /** Distances and queue are well-shaped: the entry sits at distance 0 and queued blocks have distances. */
  ghost predicate Shape(blocks: seq<Block>, reg: map<string, nat>, root: nat, dist: seq<Extended>, queue: seq<nat>)
  {
    && WellFormed(blocks, reg)
    && |dist| == |blocks| && root < |blocks| && dist[root] == Fin(0)
    && (forall v :: 0 <= v < |dist| ==> dist[v].PosInf? || dist[v].Fin?)
    && (forall k :: 0 <= k < |queue| ==> queue[k] < |blocks| && dist[queue[k]].Fin?)
    && Distinct(queue)
  }

  /** Every distance is achieved by a recorded walk. */
  ghost predicate Witnessed(blocks: seq<Block>, reg: map<string, nat>, totals: map<nat, nat>,
                            dist: seq<Extended>, wit: map<nat, seq<nat>>)
  {
    forall v :: 0 <= v < |dist| && dist[v].Fin? ==> v in wit && Witness(blocks, reg, totals, wit[v], v, dist[v].n)
  }

  /** Every block with a distance that is not queued is settled. */
  ghost predicate AllSettled(blocks: seq<Block>, reg: map<string, nat>, totals: map<nat, nat>,
                             dist: seq<Extended>, queue: seq<nat>, answer: Extended)
    requires WellFormed(blocks, reg) && |dist| == |blocks|
  {
    forall u :: 0 <= u < |dist| && dist[u].Fin? && u !in queue ==> Settled(blocks, reg, totals, dist, answer, u)
  }

  /** Lowering one distance keeps the distances and the queue well-shaped. */
  lemma ShapeAfterLower(blocks: seq<Block>, reg: map<string, nat>, root: nat, dist0: seq<Extended>, queue0: seq<nat>,
                        v: nat, x: nat)
    requires Shape(blocks, reg, root, dist0, queue0) && v < |blocks| && v != root
    ensures Shape(blocks, reg, root, dist0[v := Fin(x)], if v in queue0 then queue0 else queue0 + [v])
  {
    var q := if v in queue0 then queue0 else queue0 + [v];
    forall i, j | 0 <= i < j < |q| ensures q[i] != q[j] {
      if j == |queue0| { assert q[i] == queue0[i]; }
    }
  }

  /** The walk to `u` extended by the edge to `v` witnesses the lowered distance of `v`. */
  lemma WitnessedAfterLower(blocks: seq<Block>, reg: map<string, nat>, totals: map<nat, nat>,
                            dist0: seq<Extended>, wit0: map<nat, seq<nat>>, u: nat, i: nat, v: nat, du: nat)
    requires WellFormed(blocks, reg) && Witnessed(blocks, reg, totals, dist0, wit0) && |dist0| == |blocks|
    requires EdgeAt(blocks, reg, u, i, v) && dist0[u].Fin? && u in totals && du == dist0[u].n + totals[u]
    ensures u in wit0
    ensures Witnessed(blocks, reg, totals, dist0[v := Fin(du)], wit0[v := wit0[u] + [v]])
  {
    assert Witness(blocks, reg, totals, wit0[u], u, dist0[u].n);
    assert Edge(blocks, reg, u, v);
    WalkExtend(blocks, reg, wit0[u], v);
    assert (wit0[u] + [v])[..|wit0[u]|] == wit0[u];
    WalkCostLast(totals, wit0[u]);
    assert Witness(blocks, reg, totals, wit0[u] + [v], v, du);
  }

  /**
   * Since the start of a relaxation round (`dist0`, `queue0`) distances only
   * went down, every lowered block is queued, the old queue is a prefix of the
   * new one, and a longer queue came with progress.
   */
  ghost predicate Descends(dist0: seq<Extended>, queue0: seq<nat>, dist: seq<Extended>, queue: seq<nat>)
  {
    && |dist| == |dist0| && |queue| >= |queue0| && queue[..|queue0|] == queue0
    && (forall v :: 0 <= v < |dist| && dist0[v].Fin? ==> dist[v].Fin? && dist[v].n <= dist0[v].n)
    && (forall v :: 0 <= v < |dist| && dist[v] != dist0[v] ==> v in queue)
    && NoWorse(dist, dist0) && (|queue| > |queue0| ==> Progress(dist, dist0))
  }

  lemma DescendsAfterLower(dist0: seq<Extended>, queue0: seq<nat>, dist: seq<Extended>, queue: seq<nat>, v: nat, x: nat)
    requires Descends(dist0, queue0, dist, queue) && v < |dist|
    requires dist[v].PosInf? || (dist[v].Fin? && x < dist[v].n)
    ensures Descends(dist0, queue0, dist[v := Fin(x)], if v in queue then queue else queue + [v])
  {
    if dist[v].Fin? { Lower(dist, v, x); } else { SetFirst(dist, v, x); }
    var q := if v in queue then queue else queue + [v];
    assert q[..|queue|] == queue;
    assert q[..|queue0|] == queue[..|queue0|];
    forall w | 0 <= w < |dist| && dist[v := Fin(x)][w] != dist0[w] ensures w in q {
      if w != v { assert w in queue; }
    }
  }

  /** The first `i` successor labels of `u` are registered and their blocks are within `du`. */
  predicate Processed(blocks: seq<Block>, reg: map<string, nat>, dist: seq<Extended>, u: nat, i: nat, du: nat)
    requires u < |blocks| && i <= |blocks[u].next|
  {
    forall j :: 0 <= j < i ==> blocks[u].next[j] in reg && Within(dist, reg[blocks[u].next[j]], du)
  }

  /** Lowering the `i`-th successor of `u` to `du` extends the processed prefix by one. */
  lemma ProcessedAfterLower(blocks: seq<Block>, reg: map<string, nat>, dist: seq<Extended>, u: nat, i: nat,
                            v: nat, du: nat)
    requires u < |blocks| && i < |blocks[u].next| && v < |dist|
    requires Processed(blocks, reg, dist, u, i, du) && EdgeAt(blocks, reg, u, i, v)
    ensures Processed(blocks, reg, dist[v := Fin(du)], u, i + 1, du)
  {
    var dist' := dist[v := Fin(du)];
    forall j | 0 <= j < i + 1 ensures blocks[u].next[j] in reg && Within(dist', reg[blocks[u].next[j]], du) {
      if j < i { assert Within(dist, reg[blocks[u].next[j]], du); }
    }
  }

  /**
   * The state of a relaxation round over the successors of `u` after the
   * first `i` of them: shape, witnesses and descent are kept, `u` is not
   * queued and keeps its distance, and the processed successors are within
   * `du`.
   */
  ghost predicate RelaxInv(blocks: seq<Block>, reg: map<string, nat>, totals: map<nat, nat>, root: nat,
                           u: nat, du: nat, dist0: seq<Extended>, queue0: seq<nat>,
                           dist: seq<Extended>, queue: seq<nat>, wit: map<nat, seq<nat>>, i: nat)
  {
    && Shape(blocks, reg, root, dist, queue) && u < |blocks| && i <= |blocks[u].next| && |dist0| == |blocks|
    && u !in queue && dist[u] == dist0[u]
    && Witnessed(blocks, reg, totals, dist, wit)
    && Descends(dist0, queue0, dist, queue)
    && Processed(blocks, reg, dist, u, i, du)
  }

  lemma RelaxInvStart(blocks: seq<Block>, reg: map<string, nat>, totals: map<nat, nat>, root: nat,
                      u: nat, du: nat, dist0: seq<Extended>, queue0: seq<nat>, wit0: map<nat, seq<nat>>)
    requires Shape(blocks, reg, root, dist0, queue0) && u < |blocks| && dist0[u].Fin? && u !in queue0
    requires Witnessed(blocks, reg, totals, dist0, wit0)
    ensures RelaxInv(blocks, reg, totals, root, u, du, dist0, queue0, dist0, queue0, wit0, 0)
  {
    assert queue0[..|queue0|] == queue0;
  }

  /** The `i`-th successor `v` of `u` is already within `du`: nothing changes. */
  lemma RelaxInvKeep(blocks: seq<Block>, reg: map<string, nat>, totals: map<nat, nat>, root: nat,
                     u: nat, du: nat, dist0: seq<Extended>, queue0: seq<nat>,
                     dist: seq<Extended>, queue: seq<nat>, wit: map<nat, seq<nat>>, i: nat, v: nat)
    requires RelaxInv(blocks, reg, totals, root, u, du, dist0, queue0, dist, queue, wit, i)
    requires EdgeAt(blocks, reg, u, i, v) && Within(dist, v, du)
    ensures RelaxInv(blocks, reg, totals, root, u, du, dist0, queue0, dist, queue, wit, i + 1)
  {
  }

  /** The `i`-th successor `v` of `u` is lowered to `du` and queued. */
  lemma RelaxInvLower(blocks: seq<Block>, reg: map<string, nat>, totals: map<nat, nat>, root: nat,
                      u: nat, du: nat, dist0: seq<Extended>, queue0: seq<nat>,
                      dist: seq<Extended>, queue: seq<nat>, wit: map<nat, seq<nat>>, i: nat, v: nat)
    requires RelaxInv(blocks, reg, totals, root, u, du, dist0, queue0, dist, queue, wit, i)
    requires dist0[u].Fin? && u in totals && du == dist0[u].n + totals[u]
    requires EdgeAt(blocks, reg, u, i, v) && !Within(dist, v, du) && u in wit
    ensures RelaxInv(blocks, reg, totals, root, u, du, dist0, queue0, dist[v := Fin(du)],
                     if v in queue then queue else queue + [v], wit[v := wit[u] + [v]], i + 1)
  {
    assert v != root && v != u;
    ShapeAfterLower(blocks, reg, root, dist, queue, v, du);
    WitnessedAfterLower(blocks, reg, totals, dist, wit, u, i, v, du);
    DescendsAfterLower(dist0, queue0, dist, queue, v, du);
    ProcessedAfterLower(blocks, reg, dist, u, i, v, du);
  }

  /**
   * Relaxing the successors of `u` with `du` only changes successors of `u`,
   * each to exactly `du`, and only appends changed blocks to the queue.
   */
  ghost predicate Lowered(blocks: seq<Block>, reg: map<string, nat>, u: nat, du: nat,
                          dist0: seq<Extended>, queue0: seq<nat>, dist: seq<Extended>, queue: seq<nat>)
  {
    && |dist| == |dist0| && |queue0| <= |queue| && queue[..|queue0|] == queue0
    && (forall v :: 0 <= v < |dist| && dist[v] != dist0[v] ==> dist[v] == Fin(du) && Edge(blocks, reg, u, v))
    && (forall k :: |queue0| <= k < |queue| ==> queue[k] < |dist| && dist[queue[k]] != dist0[queue[k]])
  }

  lemma LoweredAfterLower(blocks: seq<Block>, reg: map<string, nat>, u: nat, du: nat, dist0: seq<Extended>,
                          queue0: seq<nat>, dist: seq<Extended>, queue: seq<nat>, i: nat, v: nat)
    requires Lowered(blocks, reg, u, du, dist0, queue0, dist, queue)
    requires EdgeAt(blocks, reg, u, i, v) && v < |dist| && !Within(dist, v, du)
    ensures Lowered(blocks, reg, u, du, dist0, queue0, dist[v := Fin(du)], if v in queue then queue else queue + [v])
  {
    assert Edge(blocks, reg, u, v);
    assert dist[v] == dist0[v];
    var queue' := if v in queue then queue else queue + [v];
    assert queue'[..|queue0|] == queue[..|queue0|];
  }

  /**
   * The inner `forEachNext` loop of `spfa` (index.js:360-370): lowers the
   * distance of every successor of `u` to at most `du`, queueing the lowered
   * ones that are not queued yet; reports the first unregistered label.
   */
  method RelaxSuccessors(blocks: seq<Block>, reg: map<string, nat>, totals: map<nat, nat>, u: nat, du: nat,
                         dist0: seq<Extended>, queue0: seq<nat>, ghost root: nat, ghost wit0: map<nat, seq<nat>>)
    returns (missing: Option<string>, dist: seq<Extended>, queue: seq<nat>, ghost wit: map<nat, seq<nat>>)
    requires Shape(blocks, reg, root, dist0, queue0) && u < |blocks| && dist0[u].Fin? && u !in queue0
    requires u in totals && du == dist0[u].n + totals[u]
    requires Witnessed(blocks, reg, totals, dist0, wit0)
    ensures missing.Some? ==> missing.value in blocks[u].next && missing.value !in reg
    ensures missing.None? ==>
      RelaxInv(blocks, reg, totals, root, u, du, dist0, queue0, dist, queue, wit, |blocks[u].next|)
    ensures missing.None? ==> Lowered(blocks, reg, u, du, dist0, queue0, dist, queue)
  {
    dist, queue, wit := dist0, queue0, wit0;
    RelaxInvStart(blocks, reg, totals, root, u, du, dist0, queue0, wit0);
    var i := 0;
    while i < |blocks[u].next|
      invariant i <= |blocks[u].next|
      invariant RelaxInv(blocks, reg, totals, root, u, du, dist0, queue0, dist, queue, wit, i)
      invariant Lowered(blocks, reg, u, du, dist0, queue0, dist, queue)
    {
      var l := blocks[u].next[i];
      if l !in reg {
        return Some(l), dist, queue, wit;
      }
      var v := reg[l];
      assert EdgeAt(blocks, reg, u, i, v);
      if Within(dist, v, du) {
        RelaxInvKeep(blocks, reg, totals, root, u, du, dist0, queue0, dist, queue, wit, i, v);
      } else {
        assert u in wit;
        RelaxInvLower(blocks, reg, totals, root, u, du, dist0, queue0, dist, queue, wit, i, v);
        LoweredAfterLower(blocks, reg, u, du, dist0, queue0, dist, queue, i, v);
        dist := dist[v := Fin(du)];
        wit := wit[v := wit[u] + [v]];
        if v !in queue {
          queue := queue + [v];
        }
      }
      i := i + 1;
    }
    missing := None;
  }

  /**
   * After `u` is taken off the queue and its successors are relaxed,
   * everything off the queue is settled again, and the loop measure went down.
   */
  lemma Resettle(blocks: seq<Block>, reg: map<string, nat>, totals: map<nat, nat>, root: nat, u: nat, du: nat,
                 queueIn: seq<nat>, dist0: seq<Extended>, queue0: seq<nat>, answer0: Extended, answer: Extended,
                 dist: seq<Extended>, queue: seq<nat>, wit: map<nat, seq<nat>>)
    requires Shape(blocks, reg, root, dist0, queueIn) && |queueIn| > 0 && queueIn[0] == u && queue0 == queueIn[1..]
    requires AllSettled(blocks, reg, totals, dist0, queueIn, answer0)
    requires RelaxInv(blocks, reg, totals, root, u, du, dist0, queue0, dist, queue, wit, |blocks[u].next|)
    requires answer0.Fin? ==> answer.Fin? && answer.n <= answer0.n
    requires dist0[u].Fin? && u in totals && du == dist0[u].n + totals[u]
    requires Terminal(blocks[u]) ==> answer.Fin? && answer.n <= du
    ensures Shape(blocks, reg, root, dist, queue) && Witnessed(blocks, reg, totals, dist, wit)
    ensures AllSettled(blocks, reg, totals, dist, queue, answer)
    ensures Unset(dist) < Unset(dist0) || (Unset(dist) == Unset(dist0) &&
      (SetSum(dist) < SetSum(dist0) || (SetSum(dist) == SetSum(dist0) && |queue| < |queueIn|)))
  {
    assert Descends(dist0, queue0, dist, queue);
    forall w | 0 <= w < |dist| && dist[w].Fin? && w !in queue
      ensures Settled(blocks, reg, totals, dist, answer, w)
    {
      if w != u {
        assert dist[w] == dist0[w];
        assert Settled(blocks, reg, totals, dist0, answer0, w);
      } else {
        assert Processed(blocks, reg, dist, u, |blocks[u].next|, du);
        forall i | 0 <= i < |blocks[u].next|
          ensures dist[reg[blocks[u].next[i]]].Fin? && dist[reg[blocks[u].next[i]]].n <= dist[u].n + totals[u]
        {
          assert Within(dist, reg[blocks[u].next[i]], du);
        }
      }
    }
  }

  /** With the queue empty, the answer bounds every walk to a block that can end a playthrough. */
  lemma Finish(blocks: seq<Block>, reg: map<string, nat>, totals: map<nat, nat>, root: nat,
               dist: seq<Extended>, answer: Extended)
    requires Shape(blocks, reg, root, dist, []) && "" in reg && root == reg[""]
    requires AllSettled(blocks, reg, totals, dist, [], answer)
    ensures forall v :: Reachable(blocks, reg, v) ==> v in totals && Resolved(blocks, reg, v)
    ensures forall p :: Rooted(blocks, reg, p) && Terminal(blocks[p[|p| - 1]]) ==>
      answer.Fin? && answer.n <= WalkCost(totals, p)
  {
    forall v | Reachable(blocks, reg, v) ensures v in totals && Resolved(blocks, reg, v) {
      var p :| Rooted(blocks, reg, p) && p[|p| - 1] == v;
      SettledBound(blocks, reg, totals, dist, answer, p, |p| - 1);
    }
    forall p | Rooted(blocks, reg, p) && Terminal(blocks[p[|p| - 1]])
      ensures answer.Fin? && answer.n <= WalkCost(totals, p)
    {
      SettledBound(blocks, reg, totals, dist, answer, p, |p| - 1);
      WalkCostLast(totals, p);
    }
  }

  /** The invariant of the main loop of `spfa`. */
  ghost predicate SpfaInv(blocks: seq<Block>, reg: map<string, nat>, totals: map<nat, nat>, root: nat,
                          dist: seq<Extended>, queue: seq<nat>, wit: map<nat, seq<nat>>, answer: Extended, best: seq<nat>)
  {
    && Shape(blocks, reg, root, dist, queue)
    && Witnessed(blocks, reg, totals, dist, wit)
    && AllSettled(blocks, reg, totals, dist, queue, answer)
    && (answer.PosInf? || answer.Fin?)
    && (answer.Fin? ==> Rooted(blocks, reg, best) && Terminal(blocks[best[|best| - 1]]) && WalkCost(totals, best) == answer.n)
  }

  /** The starting state: only the entry block has a distance, and it is queued. */
  lemma Start(blocks: seq<Block>, reg: map<string, nat>, totals: map<nat, nat>, root: nat)
    requires WellFormed(blocks, reg) && "" in reg && root == reg[""]
    ensures var dist := seq(|blocks|, _ => PosInf)[root := Fin(0)];
      && Shape(blocks, reg, root, dist, [root])
      && Witnessed(blocks, reg, totals, dist, map[root := [root]])
      && AllSettled(blocks, reg, totals, dist, [root], PosInf)
  {
    var dist := seq(|blocks|, _ => PosInf)[root := Fin(0)];
    assert Rooted(blocks, reg, [root]);
    assert Witness(blocks, reg, totals, [root], root, 0);
  }

  /**
   * `spfa()`: the least summed total over walks from the entry block to a
   * block that can end a playthrough, or `PosInf` when there is none; it
   * fails exactly when some reachable block has an unregistered successor
   * label or no total.
   */
  method Spfa(blocks: seq<Block>, reg: map<string, nat>, totals: map<nat, nat>) returns (r: Result<Extended>)
    requires WellFormed(blocks, reg)
    ensures r.Ok? ==> r.value.PosInf? || r.value.Fin?
    ensures r.Ok? ==> forall v :: Reachable(blocks, reg, v) ==> v in totals && Resolved(blocks, reg, v)
    ensures r.Ok? && r.value.Fin? ==>
      exists p :: Rooted(blocks, reg, p) && Terminal(blocks[p[|p| - 1]]) && WalkCost(totals, p) == r.value.n
    ensures r.Ok? ==> forall p :: Rooted(blocks, reg, p) && Terminal(blocks[p[|p| - 1]]) ==>
      r.value.Fin? && r.value.n <= WalkCost(totals, p)
    ensures r.Err? ==>
      || ("" !in reg && r.error == Undefined)
      || (exists v :: Reachable(blocks, reg, v) && (v !in totals || !Resolved(blocks, reg, v)))
  {
    if "" !in reg {
      return Err(Undefined);
    }
    var root := reg[""];
    var dist := seq(|blocks|, _ => PosInf)[root := Fin(0)];
    ghost var wit: map<nat, seq<nat>> := map[root := [root]];
    var queue: seq<nat> := [root];
    var answer := PosInf;
    Start(blocks, reg, totals, root);
    ghost var best: seq<nat> := [];
    while queue != []
      invariant SpfaInv(blocks, reg, totals, root, dist, queue, wit, answer, best)
      decreases Unset(dist), SetSum(dist), |queue|
    {
      var u := queue[0];
      ghost var queueIn := queue;
      queue := queue[1..];
      assert Witness(blocks, reg, totals, wit[u], u, dist[u].n);
      if u !in totals {
        return Err(NoCost(u));
      }
      var du := dist[u].n + totals[u];
      ghost var answer0 := answer;
      if Terminal(blocks[u]) && (answer.PosInf? || answer.n > du) {
        answer := Fin(du);
        best := wit[u];
        WalkCostLast(totals, best);
      }
      ghost var dist0, queue0 := dist, queue;
      var missing;
      missing, dist, queue, wit := RelaxSuccessors(blocks, reg, totals, u, du, dist, queue, root, wit);
      if missing.Some? {
        return Err(MissingLabel(missing.value));
      }
      Resettle(blocks, reg, totals, root, u, du, queueIn, dist0, queue0, answer0, answer, dist, queue, wit);
    }
    Finish(blocks, reg, totals, root, dist, answer);
    return Ok(answer);
  }
}

=== FILE: optimize.dfy ===
/**
 * The graph optimizer `optimize` (index.js:251-341). A first breadth-first
 * pass records, for every block, the labels of the blocks that jump to it; a
 * second pass welds chains of blocks that have a single link between them and
 * builds a new registry of the blocks it keeps; a last pass resets the
 * incoming labels of the kept blocks, records them again over the new
 * registry, and asks the aggregator for every reachable block's total.
 *
 * The per-block fields `incoming`, `totalText` and `opt_marked` become the
 * maps `incoming` and `totals` and the set `marked`, keyed by arena index.
 */
module Optimize {
  import opened Common
  import opened Blocks
  import opened Cfg

  /** The `incoming` label sets of the blocks, keyed by arena index; absent means the field is unset. */
  type Incoming = map<nat, seq<string>>

  /** What the injected aggregator makes of a block's records: a finite total or not. */
  datatype Aggregate = Total(n: nat) | NotFinite

  /** The label set of `v`, empty when it has none yet. */
  function LabelsOf(inc: Incoming, v: nat): seq<string>
  {
    if v in inc then inc[v] else []
  }

  /** All (block, label) pairs recorded in the incoming sets. */
  ghost function Pairs(inc: Incoming): set<(nat, string)>
  {
    set v, l | v in inc && l in inc[v] :: (v, l)
  }

  /** Every pair a pass could record: a block of the arena and the label of one. */
  ghost function AllPairs(blocks: seq<Block>): set<(nat, string)>
  {
    set v, u | v in Below(|blocks|) && u in Below(|blocks|) :: (v, blocks[u].name)
  }

  lemma PairsAdd(inc: Incoming, v: nat, l: string)
    requires l !in LabelsOf(inc, v)
    ensures Pairs(inc[v := LabelsOf(inc, v) + [l]]) == Pairs(inc) + {(v, l)}
  {
    var inc' := inc[v := LabelsOf(inc, v) + [l]];
    forall p | p in Pairs(inc') ensures p in Pairs(inc) + {(v, l)} {
      var (x, m) := p;
      if x != v { assert x in inc && m in inc[x]; }
    }
    forall p | p in Pairs(inc) + {(v, l)} ensures p in Pairs(inc') {
      var (x, m) := p;
      assert x in inc' && m in inc'[x];
    }
  }

  /** Every label recorded in `inc` is still recorded in `inc'`. */
  ghost predicate Grown(inc: Incoming, inc': Incoming)
  {
    forall v :: v in inc ==> v in inc' && forall l :: l in inc[v] ==> l in inc'[v]
  }

  /** `l` is recorded for `v` in `inc'` but was not in `inc`. */
  ghost predicate Recorded(inc: Incoming, inc': Incoming, v: nat, l: string)
  {
    v in inc' && l in inc'[v] && !(v in inc && l in inc[v])
  }

  /** Every successor of `u` resolves and lists `u`'s label among its incoming labels. */
  ghost predicate Linked(blocks: seq<Block>, reg: map<string, nat>, inc: Incoming, u: nat)
  {
    Resolved(blocks, reg, u)
    && forall i :: 0 <= i < |blocks[u].next| ==> reg[blocks[u].next[i]] in inc && blocks[u].name in inc[reg[blocks[u].next[i]]]
  }

  /** The state of `LinkSuccessors` after its first `i` successor labels. */
  ghost predicate LinkInv(blocks: seq<Block>, reg: map<string, nat>, u: nat, i: nat,
                          inc: Incoming, queue: seq<nat>, inc': Incoming, queue': seq<nat>)
    requires WellFormed(blocks, reg) && u < |blocks| && i <= |blocks[u].next|
  {
    && (forall j :: 0 <= j < i ==> blocks[u].next[j] in reg && reg[blocks[u].next[j]] in inc'
                                   && blocks[u].name in inc'[reg[blocks[u].next[j]]])
    && Grown(inc, inc')
    && (forall v, l :: Recorded(inc, inc', v, l) ==> l == blocks[u].name && Edge(blocks, reg, u, v) && v in queue')
    && |queue| <= |queue'| && queue'[..|queue|] == queue
    && (forall k :: |queue| <= k < |queue'| ==> queue'[k] < |blocks| && Edge(blocks, reg, u, queue'[k]))
    && Pairs(inc) <= Pairs(inc') && Pairs(inc') - Pairs(inc) <= AllPairs(blocks)
    && (Pairs(inc') == Pairs(inc) ==> queue' == queue)
  }

  /**
   * The callback both breadth-first passes run over `forEachNext`
   * (index.js:258-264, 334-339): a successor whose incoming set lacks `u`'s
   * label gets it and is queued. A missing set is created first; in the last
   * pass every registered block already has one.
   */
  method LinkSuccessors(blocks: seq<Block>, reg: map<string, nat>, u: nat, inc: Incoming, queue: seq<nat>)
    returns (missing: Option<string>, inc': Incoming, queue': seq<nat>)
    requires WellFormed(blocks, reg) && u < |blocks|
    ensures missing.Some? ==> missing.value in blocks[u].next && missing.value !in reg
    ensures missing.None? ==> Linked(blocks, reg, inc', u) && LinkInv(blocks, reg, u, |blocks[u].next|, inc, queue, inc', queue')
  {
    var next := blocks[u].next;
    var name := blocks[u].name;
    inc', queue' := inc, queue;
    var i := 0;
    while i < |next|
      invariant 0 <= i <= |next|
      invariant LinkInv(blocks, reg, u, i, inc, queue, inc', queue')
    {
      if next[i] !in reg {
        missing := Some(next[i]);
        return;
      }
      var v := reg[next[i]];
      assert EdgeAt(blocks, reg, u, i, v);
      if name !in LabelsOf(inc', v) {
        PairsAdd(inc', v, name);
        assert (v, name) in AllPairs(blocks) by {
          assert v in Below(|blocks|) && u in Below(|blocks|);
        }
        var inc1 := inc'[v := LabelsOf(inc', v) + [name]];
        var queue1 := queue' + [v];
        forall x, l | Recorded(inc, inc1, x, l)
          ensures l == name && Edge(blocks, reg, u, x) && x in queue1
        {
          if x != v || l != name { assert Recorded(inc, inc', x, l); }
        }
        inc', queue' := inc1, queue1;
      }
      i := i + 1;
    }
    missing := None;
  }

  /** Every registered block that already has an incoming set has an empty one. */
  predicate Fresh(reg: map<string, nat>, inc0: Incoming)
  {
    forall l :: l in reg && reg[l] in inc0 ==> inc0[reg[l]] == []
  }

  /**
   * The incoming sets are exact over the blocks reachable from the entry: a
   * label is recorded for a reachable block exactly when a reachable block
   * with that label has an edge to it.
   */
  ghost predicate Exact(blocks: seq<Block>, reg: map<string, nat>, inc: Incoming)
  {
    forall v: nat, l :: Reachable(blocks, reg, v) ==>
      ((v in inc && l in inc[v]) <==> exists u: nat :: Reachable(blocks, reg, u) && blocks[u].name == l && Edge(blocks, reg, u, v))
  }

  /** A breadth-first pass failed the way the source throws. */
  ghost predicate PassFailure(blocks: seq<Block>, reg: map<string, nat>, e: Error)
  {
    || (e == Undefined && "" !in reg)
    || (e.MissingLabel? && e.name !in reg && exists u: nat :: Reachable(blocks, reg, u) && e.name in blocks[u].next)
  }

  /**
   * The errors the passes of `optimize` report: a failed breadth-first pass,
   * running out of fuel, an entry or label the merge pass cannot find, an
   * aggregate that cannot be totalled, or a label merged onto another.
   */
  ghost predicate PassError(blocks: seq<Block>, reg: map<string, nat>, e: Error)
  {
    || PassFailure(blocks, reg, e) || e in {OutOfFuel, Undefined, InvalidAggregate}
    || e.MissingLabel? || e.MismatchedLabel?
  }

  /**
   * The loop state of a breadth-first pass: `visited` holds the dequeued
   * blocks, each linked to its successors, and every label recorded since the
   * start names a visited block with an edge to a block visited or queued.
   */
  ghost predicate BfsInv(blocks: seq<Block>, reg: map<string, nat>, inc0: Incoming, inc: Incoming, visited: set<nat>, queue: seq<nat>)
  {
    && WellFormed(blocks, reg) && "" in reg && (reg[""] in visited || reg[""] in queue)
    && (forall x :: x in visited ==> Reachable(blocks, reg, x) && Linked(blocks, reg, inc, x))
    && (forall k :: 0 <= k < |queue| ==> queue[k] < |blocks| && Reachable(blocks, reg, queue[k]))
    && Grown(inc0, inc)
    && (forall v, l :: Recorded(inc0, inc, v, l) ==>
          (v in visited || v in queue) && exists u: nat :: u in visited && blocks[u].name == l && Edge(blocks, reg, u, v))
  }

  lemma BfsStart(blocks: seq<Block>, reg: map<string, nat>, inc0: Incoming)
    requires WellFormed(blocks, reg) && "" in reg
    ensures BfsInv(blocks, reg, inc0, inc0, {}, [reg[""]])
  {
    EntryReachable(blocks, reg);
  }

  /** Dequeuing `queue[0]` and linking its successors keeps the invariant. */
  lemma BfsStep(blocks: seq<Block>, reg: map<string, nat>, inc0: Incoming, inc: Incoming, visited: set<nat>,
                queue: seq<nat>, inc': Incoming, queue': seq<nat>)
    requires BfsInv(blocks, reg, inc0, inc, visited, queue) && |queue| > 0
    requires Linked(blocks, reg, inc', queue[0]) && LinkInv(blocks, reg, queue[0], |blocks[queue[0]].next|, inc, queue[1..], inc', queue')
    ensures BfsInv(blocks, reg, inc0, inc', visited + {queue[0]}, queue')
  {
    var u := queue[0];
    forall k | 0 <= k < |queue'| ensures queue'[k] < |blocks| && Reachable(blocks, reg, queue'[k]) {
      if k < |queue| - 1 {
        assert queue'[k] == queue[1..][k] == queue[k + 1];
      } else {
        ReachableEdge(blocks, reg, u, queue'[k]);
      }
    }
    forall x | x in visited ensures Linked(blocks, reg, inc', x) {
      assert Linked(blocks, reg, inc, x);
    }
    forall v, l | Recorded(inc0, inc', v, l)
      ensures (v in visited + {u} || v in queue') && exists w: nat :: w in visited + {u} && blocks[w].name == l && Edge(blocks, reg, w, v)
    {
      if !Recorded(inc, inc', v, l) {
        assert Recorded(inc0, inc, v, l);
        if v != u && v !in visited {
          var k :| 0 <= k < |queue| && queue[k] == v;
          assert queue'[k - 1] == queue[1..][k - 1];
        }
      }
    }
  }

  /** Once the queue is empty, the visited blocks are all the reachable ones and the sets are exact. */
  lemma BfsDone(blocks: seq<Block>, reg: map<string, nat>, inc0: Incoming, inc: Incoming, visited: set<nat>)
    requires BfsInv(blocks, reg, inc0, inc, visited, []) && Fresh(reg, inc0)
    ensures forall u: nat :: Reachable(blocks, reg, u) <==> u in visited
    ensures Exact(blocks, reg, inc)
  {
    forall x, v | x in visited && Edge(blocks, reg, x, v) ensures v in visited {
      var i :| 0 <= i < |blocks[x].next| && EdgeAt(blocks, reg, x, i, v);
      assert Linked(blocks, reg, inc, x);
      assert Recorded(inc0, inc, v, blocks[x].name);
    }
    forall u: nat | Reachable(blocks, reg, u) ensures u in visited {
      var p :| Rooted(blocks, reg, p) && p[|p| - 1] == u;
      ClosedSetCoversWalk(blocks, reg, visited, p, |p| - 1);
    }
    forall v: nat, l | Reachable(blocks, reg, v)
      ensures (v in inc && l in inc[v]) <==> exists u: nat :: Reachable(blocks, reg, u) && blocks[u].name == l && Edge(blocks, reg, u, v)
    {
      ReachableRegistered(blocks, reg, v);
      if v in inc && l in inc[v] {
        assert Recorded(inc0, inc, v, l);
      }
      if exists u: nat :: Reachable(blocks, reg, u) && blocks[u].name == l && Edge(blocks, reg, u, v) {
        var u: nat :| Reachable(blocks, reg, u) && blocks[u].name == l && Edge(blocks, reg, u, v);
        var i :| 0 <= i < |blocks[u].next| && EdgeAt(blocks, reg, u, i, v);
        assert Linked(blocks, reg, inc, u);
      }
    }
  }

  /**
   * The first pass (index.js:255-265): from the entry, record for every
   * successor the label of each block that reaches it. When no registered
   * block starts with recorded labels, the sets come out exact over the
   * reachable blocks.
   */
  method ComputeIncoming(blocks: seq<Block>, reg: map<string, nat>, inc0: Incoming) returns (r: Result<Incoming>)
    requires WellFormed(blocks, reg)
    ensures r.Ok? ==> "" in reg && Grown(inc0, r.value)
    ensures r.Ok? && Fresh(reg, inc0) ==> (forall u: nat :: Reachable(blocks, reg, u) ==> Resolved(blocks, reg, u)) && Exact(blocks, reg, r.value)
    ensures r.Err? ==> PassFailure(blocks, reg, r.error)
  {
    if "" !in reg {
      return Err(Undefined);
    }
    var inc := inc0;
    var queue := [reg[""]];
    ghost var visited: set<nat> := {};
    BfsStart(blocks, reg, inc0);
    while queue != []
      invariant BfsInv(blocks, reg, inc0, inc, visited, queue)
      decreases AllPairs(blocks) - Pairs(inc), |queue|
    {
      var u := queue[0];
      var missing, inc', queue' := LinkSuccessors(blocks, reg, u, inc, queue[1..]);
      if missing.Some? {
        return Err(MissingLabel(missing.value));
      }
      BfsStep(blocks, reg, inc0, inc, visited, queue, inc', queue');
      visited := visited + {u};
      inc, queue := inc', queue';
    }
    if Fresh(reg, inc0) {
      BfsDone(blocks, reg, inc0, inc, visited);
    }
    r := Ok(inc);
  }

  /**
   * The reset after the merge pass (index.js:310-316): every block of the new
   * registry gets an empty incoming set, whether it had one or not; the sets
   * of other blocks are left as they were.
   */
  method Reset(reg: map<string, nat>, inc: Incoming) returns (inc': Incoming)
    ensures forall v :: v in inc' <==> v in inc || v in reg.Values
    ensures forall v :: v in reg.Values ==> inc'[v] == []
    ensures forall v :: v in inc && v !in reg.Values ==> inc'[v] == inc[v]
  {
    inc' := inc;
    var todo := reg.Values;
    while todo != {}
      invariant todo <= reg.Values
      invariant forall v :: v in inc' <==> v in inc || v in reg.Values - todo
      invariant forall v :: v in reg.Values - todo ==> inc'[v] == []
      invariant forall v :: v in inc && v !in reg.Values - todo ==> inc'[v] == inc[v]
      decreases todo
    {
      var v :| v in todo;
      inc' := inc'[v := []];
      todo := todo - {v};
    }
  }

  lemma ResetIsFresh(reg: map<string, nat>, inc: Incoming)
    requires forall v :: v in reg.Values ==> v in inc && inc[v] == []
    ensures Fresh(reg, inc)
  {
    forall l | l in reg && reg[l] in inc ensures inc[reg[l]] == [] {
      assert reg[l] in reg.Values;
    }
  }

  /** Every block dequeued so far has its aggregate recorded; other totals are as before. */
  ghost predicate TallyInv(blocks: seq<Block>, agg: seq<Record> -> Aggregate, totals0: map<nat, nat>, totals: map<nat, nat>, visited: set<nat>)
  {
    && (forall x :: x in visited ==> x < |blocks| && x in totals && agg(blocks[x].text) == Total(totals[x]))
    && (forall x :: x in totals ==> x in visited || (x in totals0 && totals[x] == totals0[x]))
    && (forall x :: x in totals0 ==> x in totals)
  }

  /**
   * The last pass (index.js:320-340): the same breadth-first walk as the first
   * pass, over the new registry, which also asks the aggregator for the total
   * of every block it dequeues and fails on a total that is not finite.
   */
  method Tally(blocks: seq<Block>, reg: map<string, nat>, inc0: Incoming, totals0: map<nat, nat>, agg: seq<Record> -> Aggregate)
    returns (r: Result<(Incoming, map<nat, nat>)>)
    requires WellFormed(blocks, reg) && Fresh(reg, inc0)
    ensures r.Ok? ==> "" in reg && Exact(blocks, reg, r.value.0)
    ensures r.Ok? ==> forall u: nat :: Reachable(blocks, reg, u) ==>
                        Resolved(blocks, reg, u) && u in r.value.1 && agg(blocks[u].text) == Total(r.value.1[u])
    ensures r.Ok? ==> forall u :: u in totals0 ==> u in r.value.1
    ensures r.Ok? ==> forall u: nat :: u in r.value.1 && !Reachable(blocks, reg, u) ==> u in totals0 && r.value.1[u] == totals0[u]
    ensures r.Err? ==> PassFailure(blocks, reg, r.error)
                       || (r.error == InvalidAggregate && exists u: nat :: Reachable(blocks, reg, u) && agg(blocks[u].text) == NotFinite)
  {
    if "" !in reg {
      return Err(Undefined);
    }
    var inc := inc0;
    var totals: map<nat, nat> := totals0;
    var queue := [reg[""]];
    ghost var visited: set<nat> := {};
    BfsStart(blocks, reg, inc0);
    while queue != []
      invariant BfsInv(blocks, reg, inc0, inc, visited, queue)
      invariant TallyInv(blocks, agg, totals0, totals, visited)
      decreases AllPairs(blocks) - Pairs(inc), |queue|
    {
      var u := queue[0];
      var a := agg(blocks[u].text);
      if a.NotFinite? {
        return Err(InvalidAggregate);
      }
      totals := totals[u := a.n];
      var missing, inc', queue' := LinkSuccessors(blocks, reg, u, inc, queue[1..]);
      if missing.Some? {
        return Err(MissingLabel(missing.value));
      }
      BfsStep(blocks, reg, inc0, inc, visited, queue, inc', queue');
      visited := visited + {u};
      inc, queue := inc', queue';
    }
    BfsDone(blocks, reg, inc0, inc, visited);
    forall u: nat | Reachable(blocks, reg, u) ensures Resolved(blocks, reg, u) {
      assert Linked(blocks, reg, inc, u);
    }
    r := Ok((inc, totals));
  }

  /** `Set.prototype.delete` on an insertion-ordered label set. */
  function Remove(s: seq<string>, l: string): (s': seq<string>)
    ensures forall m :: m in s' <==> m in s && m != l
  {
    if s == [] then [] else (if s[0] == l then [] else [s[0]]) + Remove(s[1..], l)
  }

  /** The `size` of a label set. */
  function Size(s: seq<string>): nat
  {
    |set l | l in s|
  }

  /** `x` is the target of one of the first `i` successor labels of `u`. */
  ghost predicate LinkedBefore(blocks: seq<Block>, reg: map<string, nat>, u: nat, i: nat, x: nat)
  {
    exists j :: 0 <= j < i && EdgeAt(blocks, reg, u, j, x)
  }

  /**
   * After a weld, the targets of the first `i` successor labels list `b` in
   * place of `a`; every other set is unchanged.
   */
  ghost predicate Rewired(blocks: seq<Block>, reg: map<string, nat>, u: nat, i: nat, a: string, b: string, inc: Incoming, inc': Incoming)
  {
    && inc'.Keys == inc.Keys
    && (forall x :: x in inc && !LinkedBefore(blocks, reg, u, i, x) ==> inc'[x] == inc[x])
    && (forall x :: LinkedBefore(blocks, reg, u, i, x) ==> x in inc && forall l :: l in inc'[x] <==> (l in inc[x] && l != a) || l == b)
  }

  /**
   * `weld` (index.js:275-283) without its final `queue.push`: block `bb` takes
   * `nx`'s records after its own and `nx`'s successor labels, and every
   * successor drops `nx`'s label from its incoming set for `bb`'s. Fails on a
   * successor label that is not registered or a successor without a set.
   */
  method Weld(blocks: seq<Block>, reg: map<string, nat>, inc: Incoming, bb: nat, nx: nat)
    returns (r: Result<(seq<Block>, Incoming)>)
    requires WellFormed(blocks, reg) && bb < |blocks| && nx < |blocks|
    ensures r.Ok? ==> r.value.0 == blocks[bb := blocks[bb].(text := blocks[bb].text + blocks[nx].text, next := blocks[nx].next)]
    ensures r.Ok? ==> Resolved(blocks, reg, nx)
                      && Rewired(blocks, reg, nx, |blocks[nx].next|, blocks[nx].name, blocks[bb].name, inc, r.value.1)
    ensures r.Err? ==> || (r.error.MissingLabel? && r.error.name in blocks[nx].next && r.error.name !in reg)
                       || (r.error == Undefined && exists x :: Edge(blocks, reg, nx, x) && x !in inc)
  {
    var a, b := blocks[nx].name, blocks[bb].name;
    var blocks' := blocks[bb := blocks[bb].(text := blocks[bb].text + blocks[nx].text, next := blocks[nx].next)];
    var next := blocks[nx].next;
    var inc' := inc;
    var i := 0;
    while i < |next|
      invariant 0 <= i <= |next|
      invariant forall j :: 0 <= j < i ==> next[j] in reg
      invariant Rewired(blocks, reg, nx, i, a, b, inc, inc')
    {
      if next[i] !in reg {
        return Err(MissingLabel(next[i]));
      }
      var x := reg[next[i]];
      assert EdgeAt(blocks, reg, nx, i, x);
      if x !in inc' {
        assert Edge(blocks, reg, nx, x);
        return Err(Undefined);
      }
      forall y | LinkedBefore(blocks, reg, nx, i + 1, y) && y != x ensures LinkedBefore(blocks, reg, nx, i, y) {
        var j :| 0 <= j < i + 1 && EdgeAt(blocks, reg, nx, j, y);
      }
      inc' := inc'[x := Insert(Remove(inc'[x], a), b)];
      i := i + 1;
    }
    r := Ok((blocks', inc'));
  }

  /** `next.map((n) => n === from ? to : n)` */
  function Relabel(next: seq<string>, from: string, to: string): (r: seq<string>)
    ensures |r| == |next|
    ensures forall i :: 0 <= i < |r| ==> r[i] == (if next[i] == from then to else next[i])
  {
    if next == [] then [] else [if next[0] == from then to else next[0]] + Relabel(next[1..], from, to)
  }

  /** Relabelling leaves no occurrence of the old label and introduces only the new one. */
  lemma RelabelReplaces(next: seq<string>, from: string, to: string)
    ensures from != to ==> from !in Relabel(next, from, to)
    ensures forall m :: m in Relabel(next, from, to) ==> m == to || m in next
    ensures Relabel(Relabel(next, from, to), from, to) == Relabel(next, from, to)
  {
    var r := Relabel(next, from, to);
    forall m | m in r ensures m == to || m in next {
      var i :| 0 <= i < |r| && r[i] == m;
    }
  }

  /** Some label of `labels` is registered for block `x`. */
  ghost predicate Registered(reg: map<string, nat>, labels: seq<string>, x: nat)
  {
    exists l :: l in labels && l in reg && reg[l] == x
  }

  /** The arena after every block registered under one of `labels` had `from` relabelled to `to`. */
  ghost function Redirected(blocks: seq<Block>, reg: map<string, nat>, labels: seq<string>, from: string, to: string): (b: seq<Block>)
    ensures |b| == |blocks|
  {
    seq(|blocks|, x requires 0 <= x < |blocks| =>
      if Registered(reg, labels, x) then blocks[x].(next := Relabel(blocks[x].next, from, to)) else blocks[x])
  }

  /**
   * The predecessor loop of a reverse concatenation (index.js:291-294): every
   * block registered under one of `labels` has its successor label `from`
   * replaced by `to`. An unregistered label fails (a property read on
   * `undefined`).
   */
  method Redirect(blocks: seq<Block>, reg: map<string, nat>, labels: seq<string>, from: string, to: string)
    returns (r: Result<seq<Block>>)
    requires WellFormed(blocks, reg)
    ensures r.Ok? ==> r.value == Redirected(blocks, reg, labels, from, to)
    ensures r.Ok? <==> forall l :: l in labels ==> l in reg
    ensures r.Err? ==> r.error == Undefined
  {
    var b := blocks;
    var i := 0;
    while i < |labels|
      invariant 0 <= i <= |labels|
      invariant forall j :: 0 <= j < i ==> labels[j] in reg
      invariant b == Redirected(blocks, reg, labels[..i], from, to)
    {
      if labels[i] !in reg {
        return Err(Undefined);
      }
      var pv := reg[labels[i]];
      RelabelReplaces(blocks[pv].next, from, to);
      forall x | 0 <= x < |blocks| ensures Registered(reg, labels[..i + 1], x) <==> Registered(reg, labels[..i], x) || x == pv {
        if Registered(reg, labels[..i + 1], x) && x != pv {
          var l :| l in labels[..i + 1] && l in reg && reg[l] == x;
          var j :| 0 <= j < i + 1 && labels[..i + 1][j] == l;
          assert labels[..i][j] == l;
        }
        if x == pv { assert labels[..i + 1][i] == labels[i]; }
        if Registered(reg, labels[..i], x) {
          var l :| l in labels[..i] && l in reg && reg[l] == x;
          var j :| 0 <= j < i && labels[..i][j] == l;
          assert labels[..i + 1][j] == l;
        }
      }
      b := b[pv := b[pv].(next := Relabel(b[pv].next, from, to))];
      i := i + 1;
    }
    assert labels[..i] == labels;
    r := Ok(b);
  }

  /** `bb` has one successor label, it is registered under a block of that label, and that block has exactly one incoming label. */
  predicate Single(blocks: seq<Block>, reg: map<string, nat>, inc: Incoming, bb: nat)
    requires WellFormed(blocks, reg) && bb < |blocks|
  {
    && |blocks[bb].next| == 1 && blocks[bb].next[0] in reg
    && blocks[reg[blocks[bb].next[0]]].name == blocks[bb].next[0]
    && reg[blocks[bb].next[0]] in inc && Size(inc[reg[blocks[bb].next[0]]]) == 1
  }

  /** A concatenation: the single successor has a generated label and is folded into `bb`. */
  predicate Forward(blocks: seq<Block>, reg: map<string, nat>, inc: Incoming, bb: nat)
    requires WellFormed(blocks, reg) && bb < |blocks|
  {
    Single(blocks, reg, inc, bb) && StartsWith(blocks[reg[blocks[bb].next[0]]].name, "#")
  }

  /** A reverse concatenation: `bb` has a generated label and takes over its successor's. */
  predicate Backward(blocks: seq<Block>, reg: map<string, nat>, inc: Incoming, bb: nat)
    requires WellFormed(blocks, reg) && bb < |blocks|
  {
    && Single(blocks, reg, inc, bb) && !StartsWith(blocks[reg[blocks[bb].next[0]]].name, "#")
    && StartsWith(blocks[bb].name, "#")
  }

  /** The arena after `bb` absorbed `nx`'s records and successor labels. */
  function Welded(blocks: seq<Block>, bb: nat, nx: nat): (b: seq<Block>)
    requires bb < |blocks| && nx < |blocks|
    ensures |b| == |blocks|
  {
    blocks[bb := blocks[bb].(text := blocks[bb].text + blocks[nx].text, next := blocks[nx].next)]
  }

  /**
   * One dequeue of the merge pass up to its decision (index.js:271-298): a
   * weld happens exactly when `Forward` or `Backward` holds, and then the new
   * arena and incoming sets are those of the concatenation; otherwise nothing
   * changes. Labels other than `bb`'s never change, and `bb`'s only when it
   * was a generated one.
   */
  method MergeStep(blocks: seq<Block>, reg: map<string, nat>, inc: Incoming, bb: nat)
    returns (r: Result<Option<(seq<Block>, Incoming)>>)
    requires WellFormed(blocks, reg) && bb < |blocks|
    ensures r.Ok? ==> (r.value.Some? <==> Forward(blocks, reg, inc, bb) || Backward(blocks, reg, inc, bb))
    ensures r.Ok? && Forward(blocks, reg, inc, bb) ==>
              var nx := reg[blocks[bb].next[0]];
              && r.value.value.0 == Welded(blocks, bb, nx)
              && Rewired(blocks, reg, nx, |blocks[nx].next|, blocks[nx].name, blocks[bb].name, inc, r.value.value.1)
    ensures r.Ok? && Backward(blocks, reg, inc, bb) ==> bb in inc
    ensures r.Ok? && Backward(blocks, reg, inc, bb) && bb in inc ==>
              var nx := reg[blocks[bb].next[0]];
              var b1 := Redirected(blocks, reg, inc[bb], blocks[bb].name, blocks[nx].name);
              var b2 := b1[bb := b1[bb].(name := blocks[nx].name)];
              && r.value.value.0 == Welded(b2, bb, nx)
              && Rewired(b2, reg, nx, |b2[nx].next|, blocks[nx].name, blocks[nx].name, inc, r.value.value.1)
    ensures r.Ok? && r.value.Some? ==>
              && |r.value.value.0| == |blocks|
              && (forall x :: 0 <= x < |blocks| && x != bb ==> r.value.value.0[x].name == blocks[x].name)
              && (!StartsWith(blocks[bb].name, "#") ==> r.value.value.0[bb].name == blocks[bb].name)
    ensures r.Err? ==> |blocks[bb].next| == 1 && (r.error == Undefined || r.error.MissingLabel? || r.error.MismatchedLabel?)
    ensures r.Err? && r.error.MismatchedLabel? ==>
              r.error.name == blocks[bb].next[0] && r.error.name in reg && blocks[reg[r.error.name]].name != r.error.name
  {
    var b := blocks[bb];
    if |b.next| != 1 {
      return Ok(None);
    }
    var target := b.next[0];
    if target !in reg {
      return Err(Undefined);
    }
    var nx := reg[target];
    if blocks[nx].name != target {
      return Err(MismatchedLabel(target));
    }
    if nx !in inc {
      return Err(Undefined);
    }
    if Size(inc[nx]) == 1 && StartsWith(blocks[nx].name, "#") {
      var w := Weld(blocks, reg, inc, bb, nx);
      if w.Err? {
        return Err(w.error);
      }
      return Ok(Some(w.value));
    }
    if Size(inc[nx]) == 1 && StartsWith(b.name, "#") {
      if bb !in inc {
        return Err(Undefined);
      }
      var d := Redirect(blocks, reg, inc[bb], b.name, blocks[nx].name);
      if d.Err? {
        return Err(d.error);
      }
      var b2 := d.value[bb := d.value[bb].(name := blocks[nx].name)];
      var w := Weld(b2, reg, inc, bb, nx);
      if w.Err? {
        return Err(w.error);
      }
      return Ok(Some(w.value));
    }
    return Ok(None);
  }

  /**
   * The callback of a kept block in the merge pass (index.js:302-307): every
   * successor not yet marked is marked and queued, so each block is queued at
   * most once.
   */
  method Enqueue(blocks: seq<Block>, reg: map<string, nat>, bb: nat, marked: set<nat>, queue: seq<nat>)
    returns (missing: Option<string>, marked': set<nat>, queue': seq<nat>)
    requires WellFormed(blocks, reg) && bb < |blocks|
    ensures missing.Some? ==> missing.value in blocks[bb].next && missing.value !in reg
    ensures missing.None? ==> Resolved(blocks, reg, bb) && forall i :: 0 <= i < |blocks[bb].next| ==> reg[blocks[bb].next[i]] in marked'
    ensures missing.None? ==> |queue| <= |queue'| && queue'[..|queue|] == queue && Distinct(queue'[|queue|..])
    ensures missing.None? ==> forall k :: |queue| <= k < |queue'| ==> queue'[k] !in marked && Edge(blocks, reg, bb, queue'[k])
    ensures missing.None? ==> forall x :: x in marked' <==> x in marked || x in queue'[|queue|..]
  {
    var next := blocks[bb].next;
    marked', queue' := marked, queue;
    var i := 0;
    while i < |next|
      invariant 0 <= i <= |next|
      invariant forall j :: 0 <= j < i ==> next[j] in reg && reg[next[j]] in marked'
      invariant |queue| <= |queue'| && queue'[..|queue|] == queue && Distinct(queue'[|queue|..])
      invariant forall k :: |queue| <= k < |queue'| ==> queue'[k] !in marked && Edge(blocks, reg, bb, queue'[k])
      invariant forall x :: x in marked' <==> x in marked || x in queue'[|queue|..]
    {
      if next[i] !in reg {
        missing := Some(next[i]);
        return;
      }
      var nx := reg[next[i]];
      if nx !in marked' {
        assert EdgeAt(blocks, reg, bb, i, nx);
        assert queue'[|queue|..] + [nx] == (queue' + [nx])[|queue|..];
        marked', queue' := marked' + {nx}, queue' + [nx];
      }
      i := i + 1;
    }
    missing := None;
  }

  /**
   * The loop state of the merge pass. The kept blocks carry the labels they
   * are kept under; queued blocks are distinct and not kept. Until the entry
   * is kept, it is the only queued block, unmarked and labelled ""; after
   * that every queued block is marked.
   */
  ghost predicate MergeInv(blocks: seq<Block>, reg: map<string, nat>, root: nat, n: nat,
                           queue: seq<nat>, marked: set<nat>, kept: map<string, nat>)
  {
    && |blocks| == n && WellFormed(blocks, reg) && root < n
    && (forall k :: 0 <= k < |queue| ==> queue[k] < n) && Distinct(queue)
    && Named(blocks, kept) && (forall v :: v in kept.Values ==> v in marked)
    && (forall k :: 0 <= k < |queue| ==> queue[k] !in kept.Values)
    && (|| (queue == [root] && marked == {} && kept == map[] && blocks[root].name == "")
        || ("" in kept && forall k :: 0 <= k < |queue| ==> queue[k] in marked))
  }

  /** A weld requeues `bb` and touches no kept label. */
  lemma MergeWelded(blocks: seq<Block>, blocks': seq<Block>, reg: map<string, nat>, root: nat, n: nat,
                    queue: seq<nat>, marked: set<nat>, kept: map<string, nat>)
    requires MergeInv(blocks, reg, root, n, queue, marked, kept) && |queue| > 0
    requires |blocks'| == n
    requires forall x :: 0 <= x < n && x != queue[0] ==> blocks'[x].name == blocks[x].name
    requires !StartsWith(blocks[queue[0]].name, "#") ==> blocks'[queue[0]].name == blocks[queue[0]].name
    ensures MergeInv(blocks', reg, root, n, queue[1..] + [queue[0]], marked, kept)
  {
    var q := queue[1..] + [queue[0]];
    forall l | l in kept ensures kept[l] < n && blocks'[kept[l]].name == l {
      assert kept[l] in kept.Values;
    }
    forall i, j | 0 <= i < j < |q| ensures q[i] != q[j] {
      if j < |q| - 1 { assert q[i] == queue[i + 1] && q[j] == queue[j + 1]; }
      else { assert q[i] == queue[i + 1] && q[j] == queue[0]; }
    }
    forall k | 0 <= k < |q| ensures q[k] < n && q[k] !in kept.Values {
      if k < |q| - 1 { assert q[k] == queue[k + 1]; }
    }
    if queue == [root] && marked == {} && kept == map[] && blocks[root].name == "" {
      assert q == [root];
    } else {
      forall k | 0 <= k < |q| ensures q[k] in marked {
        if k < |q| - 1 { assert q[k] == queue[k + 1]; }
      }
    }
  }

  /** Keeping `bb` under its label and queueing its unmarked successors keeps the invariant. */
  lemma MergeKept(blocks: seq<Block>, reg: map<string, nat>, root: nat, n: nat,
                  queue: seq<nat>, marked: set<nat>, kept: map<string, nat>, marked': set<nat>, queue': seq<nat>)
    requires MergeInv(blocks, reg, root, n, queue, marked, kept) && |queue| > 0
    requires var rest := queue[1..];
             && |rest| <= |queue'| && queue'[..|rest|] == rest && Distinct(queue'[|rest|..])
             && (forall k :: |rest| <= k < |queue'| ==> queue'[k] !in marked + {queue[0]} && queue'[k] < n)
             && (forall x :: x in marked' <==> x in marked + {queue[0]} || x in queue'[|rest|..])
    ensures MergeInv(blocks, reg, root, n, queue', marked', kept[blocks[queue[0]].name := queue[0]])
  {
    var bb := queue[0];
    var rest := queue[1..];
    var kept' := kept[blocks[bb].name := bb];
    assert forall v :: v in kept'.Values ==> v in kept.Values || v == bb;
    var start := queue == [root] && marked == {} && kept == map[] && blocks[root].name == "";
    forall k | 0 <= k < |rest| ensures rest[k] in marked && rest[k] != bb && rest[k] !in kept.Values {
      assert rest[k] == queue[k + 1];
    }
    forall i, j | 0 <= i < j < |queue'| ensures queue'[i] != queue'[j] {
      if j < |rest| {
        assert queue'[i] == queue[i + 1] && queue'[j] == queue[j + 1];
      } else if i < |rest| {
        assert queue'[i] == rest[i];
      } else {
        assert queue'[i] == queue'[|rest|..][i - |rest|] && queue'[j] == queue'[|rest|..][j - |rest|];
      }
    }
    forall k | 0 <= k < |queue'| ensures queue'[k] < n && queue'[k] !in kept'.Values && queue'[k] in marked' {
      if k < |rest| {
        assert queue'[k] == rest[k];
      } else {
        assert queue'[k] == queue'[|rest|..][k - |rest|];
      }
    }
  }

  /**
   * The merge pass (index.js:267-308), bounded by `fuel` dequeues: every
   * dequeued block is either welded with its single successor and queued
   * again, or kept in the new registry under its current label, queueing its
   * unmarked successors. The new registry holds the entry under "" and every
   * block in it under its own label.
   */
  method MergeChains(blocks: seq<Block>, reg: map<string, nat>, inc: Incoming, fuel: nat)
    returns (r: Result<(seq<Block>, Incoming, map<string, nat>)>)
    requires Named(blocks, reg)
    ensures r.Ok? ==> |r.value.0| == |blocks| && "" in r.value.2 && Named(r.value.0, r.value.2)
    ensures r.Err? ==> r.error in {OutOfFuel, Undefined} || r.error.MissingLabel? || r.error.MismatchedLabel?
  {
    if "" !in reg {
      return Err(Undefined);
    }
    var root := reg[""];
    var b, i := blocks, inc;
    var queue, marked, kept := [root], {}, map[];
    var budget := fuel;
    while queue != []
      invariant MergeInv(b, reg, root, |blocks|, queue, marked, kept)
      decreases budget
    {
      if budget == 0 {
        return Err(OutOfFuel);
      }
      budget := budget - 1;
      var bb := queue[0];
      var step := MergeStep(b, reg, i, bb);
      if step.Err? {
        return Err(step.error);
      }
      if step.value.Some? {
        MergeWelded(b, step.value.value.0, reg, root, |blocks|, queue, marked, kept);
        b, i := step.value.value.0, step.value.value.1;
        queue := queue[1..] + [bb];
      } else {
        var missing, marked', queue' := Enqueue(b, reg, bb, marked + {bb}, queue[1..]);
        if missing.Some? {
          return Err(MissingLabel(missing.value));
        }
        MergeKept(b, reg, root, |blocks|, queue, marked, kept, marked', queue');
        kept := kept[b[bb].name := bb];
        marked, queue := marked', queue';
      }
    }
    r := Ok((b, i, kept));
  }

  /** What `optimize` leaves behind: the arena, the new registry, the incoming sets and the block totals. */
  datatype Optimized = Optimized(blocks: seq<Block>, reg: map<string, nat>, inc: Incoming, totals: map<nat, nat>)

  /**
   * The three passes of `optimize` after its `ensureNoParallel` (index.js:254-340),
   * with `fuel` bounding the dequeues of the merge pass. On success the entry
   * is kept under "", every kept block under its own label, the incoming sets
   * are exact and every reachable block has its aggregate as total.
   */
  method Passes(blocks: seq<Block>, reg: map<string, nat>, inc: Incoming, totals: map<nat, nat>,
                agg: seq<Record> -> Aggregate, fuel: nat)
    returns (r: Result<Optimized>)
    requires Named(blocks, reg)
    ensures r.Ok? && Fresh(reg, inc) ==> forall u: nat :: Reachable(blocks, reg, u) ==> Resolved(blocks, reg, u)
    ensures r.Ok? ==> |r.value.blocks| == |blocks| && "" in r.value.reg && Named(r.value.blocks, r.value.reg)
    ensures r.Ok? ==> Exact(r.value.blocks, r.value.reg, r.value.inc)
    ensures r.Ok? ==> forall u: nat :: Reachable(r.value.blocks, r.value.reg, u) ==>
                        Resolved(r.value.blocks, r.value.reg, u) && u in r.value.totals
                        && agg(r.value.blocks[u].text) == Total(r.value.totals[u])
    ensures r.Err? ==> PassError(blocks, reg, r.error)
  {
    var first := ComputeIncoming(blocks, reg, inc);
    if first.Err? {
      return Err(first.error);
    }
    var merged := MergeChains(blocks, reg, first.value, fuel);
    if merged.Err? {
      return Err(merged.error);
    }
    var (blocks', inc', reg') := merged.value;
    var reset := Reset(reg', inc');
    ResetIsFresh(reg', reset);
    var last := Tally(blocks', reg', reset, totals, agg);
    if last.Err? {
      return Err(last.error);
    }
    r := Ok(Optimized(blocks', reg', last.value.0, last.value.1));
  }
}
